=== FILE: README.md ===
# dumptorrent's core, in Dafny

dumptorrent reads BitTorrent metainfo files and asks trackers how many peers
share a torrent. This project models its core and proves properties of the
model:

- **the bencoding library** (`benc.c`): the value tree, the buffer decoder
  `benc_parse_memory` with its helper `parse_lldecimal`, the append helpers,
  dictionary lookup, the string-length bound of the stream decoder, and the
  canonical byte stream that `benc_sha1_entity` hashes into the info hash;
- **the scrape client** (`scrapec.c`):
  - `parse_url`;
  - the HTTP scrape: the GET request, the receive bound, and
    `parse_http_response`;
  - the two UDP exchanges of BEP 15 and their reply checks;
  - `scrapec`, and `parse_info_hash`;
- **torrent checks** (`src/torrent.c`): `check_torrent`, and the part of
  `scrape_torrent` that gathers tracker URLs tier by tier, with the random
  swaps, and tries them in order;
- **magnet links** (`src/magnet.c`): `parse_magnet_uri` and `urldecode`.

Bytes are `seq<byte>` with `byte = 0..255`. A C string is the bytes before its
first NUL (`Bytes.CStr`). `strchr`, `strrchr` and `strstr` are `IndexOf`,
`LastIndexOf` and `Find`, each with a contract that says which occurrence it
finds.

Some parts have no place in a pure model, so they become parameters:

- SHA-1 (a library) is a function `sha1`.
- A tracker on the network is a function from the request bytes to the
  response bytes.
- `scrapec` as called by `scrape_torrent` is a function `scrape`.
- `rand()` is `rand: nat -> nat`, giving the value of the k-th call.
- The UDP transaction ids are two 4-byte parameters.
- The capacity of the display-name buffer (`ERRBUF_SIZE`, defined in
  `common.h`) is a parameter `capacity`. `common.h` is not part of this model.

Modules:

- `Wrappers`: `Option` and `Result`.
- `Bytes`: bytes, C strings, searching, hexadecimal digits, 32-bit wrap.
- `Decimal`: digit runs, `%d`, `atoi`.
- `Bencode`: the tree, the decoder and the encoder.
- `BencodeLemmas`: the round trip and the decoder's failure cases.
- `Tracker`: `scrapec.c`.
- `Magnet`: `src/magnet.c`.
- `Torrent`: `src/torrent.c`.

The decoder takes a `SignMode`. `DropSign` is `benc.c` as written: the `-` is
read but never applied. `ApplySign` is the corrected decoder (see Findings).
`Bencode.ParseMemory` is the decoder as written; `Bencode.Decode` and the HTTP
scrape use the corrected one. Likewise `Bencode.InfoHash` hashes the whole
canonical encoding, as a large enough integer buffer would;
`Bencode.HashedIntegerText` is the 16-byte buffer as written (see Findings).

## Model

| member | source | states |
|---|---|---|
| Bencode.ParseLLDecimal | benc.c:140-162 | Consumes at most the bytes that remain in the buffer. Reports a sign exactly when the first byte is `-`. |
| Bencode.ParseLLDecimalReads | benc.c:140-162 | Succeeds exactly when a digit follows the optional `-`. On success it consumes the sign and the whole digit run, and the magnitude is that run's positional decimal value. |
| Decimal.ScanDigitsValue | benc.c:154-158 | The `result = result * 10 + digit` loop stops at the first non-digit and yields the value of the run, starting from any accumulator. |
| BencodeLemmas.DecimalOfNumeral | benc.c:140-162 | A numeral followed by a non-digit is read whole: unsigned, with its value and its length. |
| BencodeLemmas.DecimalOfNegativeNumeral | benc.c:146-161 | With a `-` in front, the sign flag is set and one more byte is consumed. |
| Bencode.AppendList | benc.c:33-52 | A list gets `child` as its new last item, and its earlier items stay as they were. Anything else is returned unchanged. |
| Bencode.AppendDictionary | benc.c:62-82 | A dictionary gets the pair as its new last entry, and its earlier entries stay as they were. Anything else is returned unchanged. |
| Bencode.Parse | benc.c:164-284 | Fewer than two bytes left is refused as too short. A first byte other than `i`, `l`, `d` or a digit is an unrecognized tag. A success consumes at least one and at most the remaining bytes. |
| Bencode.ParseInteger | benc.c:174-188 | Succeeds exactly when a non-empty digit run follows the `i` and the optional `-`, and an `e` follows the run inside the buffer. A success consumes the `i`, the sign, the run and the `e`, and holds the run's decimal value, negated when a `-` is present and the sign is applied. Every failure is the malformed-integer error. |
| Bencode.ParseString | benc.c:252-280 | A missing `:` is reported exactly when the item does not start with a digit run followed by `:`. After such a prefix, a negative length or one whose bytes pass the end of the buffer is an invalid length (`4:abc`). A success consumes the prefix, the `:` and the string; the string's length is the numeral's value and its bytes are the ones right after the `:`. The failures are a missing `:` or a bad length. |
| Bencode.ParseItems | benc.c:189-216 | The list loop yields a list and consumes at least one byte, never more than the buffer holds. |
| Bencode.ParseEntries | benc.c:217-251 | The dictionary loop yields a dictionary and consumes at least one byte, never more than the buffer holds. |
| Bencode.ParseValueThenEntries | benc.c:239-247 | The value half of a pair, then the rest of the dictionary, within the buffer. |
| BencodeLemmas.IntRoundTrip | benc.c:174-188 | `i<n>e` decodes to `n` and consumes exactly its bytes. This holds for every `n` with the sign applied, and for `n >= 0` as written. |
| BencodeLemmas.NonNegativeFramed | benc.c:174-188 | `i`, the digits of `m`, `e` decode to `m` in either mode. |
| BencodeLemmas.NegativeFramed | benc.c:146-188 | `i-<m>e` decodes to `-m` with the sign applied. |
| BencodeLemmas.StrRoundTrip | benc.c:252-280 | `<len>:<bytes>` decodes to exactly those bytes, whatever follows. |
| BencodeLemmas.StringBytes | benc.c:268-277 | A decoded string is the run of bytes just before the end of what was consumed. |
| BencodeLemmas.ListRoundTrip | benc.c:189-216 | `l`, encoded children, `e` decodes to that list. |
| BencodeLemmas.DictRoundTrip | benc.c:217-251 | `d`, encoded keys and values, `e` decodes to that dictionary, pairs in stored order. |
| BencodeLemmas.ItemsRoundTrip | benc.c:194-214 | The list loop reads a body of encoded children plus `e`, appends them in order, and consumes exactly those bytes. |
| BencodeLemmas.EntriesRoundTrip | benc.c:222-249 | The dictionary loop does the same for encoded pairs. |
| BencodeLemmas.RoundTrip | benc.c:164-284 | Where the canonical encoding of a tree starts in a buffer, the decoder gives back that tree and consumes exactly the encoding, whatever bytes follow. This needs non-negative integers as written; with the sign applied it holds for every tree. |
| BencodeLemmas.RoundTripWithRest | benc.c:164-284 | The same with the trailing bytes spelled out. |
| BencodeLemmas.DecodeEncoded | benc.c:164-284 | As written, decoding a whole buffer that holds the encoding of a tree with non-negative integers gives that tree back. |
| BencodeLemmas.SignedRoundTrip | benc.c:146-160 | The corrected decoder gives back every tree from its encoding, negative integers included. |
| BencodeLemmas.ItemsUnterminated | benc.c:198-202 | A list body that runs to the end of the buffer without `e` is refused as an unterminated list. |
| BencodeLemmas.EntriesUnterminated | benc.c:226-230 | A dictionary body that runs to the end without `e` is refused as an unterminated dictionary. |
| BencodeLemmas.ListWithoutEnd | benc.c:189-216 | `l` followed by complete children and no `e` is refused. |
| BencodeLemmas.DictWithoutEnd | benc.c:217-251 | `d` followed by complete pairs and no `e` is refused. |
| Bencode.KeyIndex | benc.c:95-98 | The position of the first entry whose key is the given string. None exactly when no entry has that key. |
| Bencode.Lookup | benc.c:84-100 | Found exactly when the value is a dictionary with an entry keyed by that string. The result is that entry's value, and no earlier entry has the key. |
| Bencode.LookupAfterAppend | benc.c:62-100 | After a pair is appended, a key already present keeps its old value. The new value is found only for a key that was absent. |
| Bencode.Encode | benc.c:415-459 | Every encoding has at least two bytes and starts with `i`, `l`, `d` or a digit. Its partner is the decoder: `BencodeLemmas.RoundTrip`. |
| BencodeLemmas.ExampleEncoding | benc.c:415-459 | The BEP 3 dictionary `{cow: moo, spam: eggs}` is encoded as `d3:cow3:moo4:spam4:eggse`. |
| BencodeLemmas.DictionaryVector | benc.c:164-284 | `d3:cow3:moo4:spam4:eggse` decodes to that dictionary, using all 24 bytes. |
| BencodeLemmas.EncodeItemsSnoc | benc.c:437-446 | Encoding a list body with one more child appends that child's encoding. |
| BencodeLemmas.EncodeEntriesSnoc | benc.c:447-457 | Encoding a dictionary body with one more pair appends the pair's key and value encodings. |
| BencodeLemmas.EncodeAppendList | benc.c:33-52 | A list extended by `benc_append_list` encodes as the old body, then the child, then `e`. |
| BencodeLemmas.EncodeAppendDictionary | benc.c:62-82 | A dictionary extended by `benc_append_dictionary` encodes as the old body, then the pair, then `e`. |
| BencodeLemmas.InfoHashOfDecoded | benc.c:461-468 | A tree decoded with the sign applied from canonical bytes hashes to the digest of those bytes. |
| BencodeLemmas.InfoHashOfParsed | benc.c:461-468 | With the decoder as written the same holds for every tree without negative integers. |
| Bencode.HashedIntegerText | benc.c:424-433 | The `i%llde` text `benc_sha1_entity_rec` prints into its 16-byte buffer: present exactly when the text and its NUL fit, and then it is the integer's encoding. |
| BencodeLemmas.HashedIntegerRange | benc.c:424-433 | As written, the integer text fits exactly for integers strictly between -10^12 and 10^13. |
| BencodeLemmas.HashedIntegerOverflow | benc.c:424-433 | 10^13 needs 17 bytes and overruns the buffer; 10^13 - 1 still fits. |
| BencodeLemmas.LongLongTextFits | benc.c:424-433 | With 23 bytes, the text of every `long long` fits, so the hashed stream is the whole canonical encoding. |
| Decimal.DigitsLength | benc.c:428-431 | A numeral has at most `k` digits exactly when the number is below `10^k`. |
| Bencode.StreamStringLength | benc.c:376-379 | A string length is accepted exactly when it is between 0 and 1 MiB. Anything else is an invalid length. |
| BencodeLemmas.NegativeIntegerLosesSign | benc.c:146-160 | As written, `i-5e` decodes to 5. The encoding of -5 therefore does not decode back to -5. |
| BencodeLemmas.NegativeIntegerCorrected | benc.c:146-160 | With the sign applied, `i-5e` decodes to -5. |
| Decimal.Digits | benc.c:418-425 | `%d` of a non-negative number is a non-empty digit string whose value is the number, with no leading zero. |
| Decimal.AtoiDigits | scrapec.c:109 | `atoi` reads back a number printed by `%d`, whatever non-digit follows it. |
| Bytes.Int32 | scrapec.c:193-195 | The `(int)` cast lands in the 32-bit range, is congruent to its input modulo 2^32, and keeps any value already in range. |
| Bytes.CStrAppend | scrapec.c:159-162 | A NUL-free prefix is seen whole by a C string search, and the search continues into what follows. |
| Bytes.FindExtend | scrapec.c:159-162 | The first match `strstr` finds stays the first match when more bytes follow. |
| Tracker.Scheme | scrapec.c:54-65 | HTTP exactly when the URL starts with `http://`. UDP exactly when it starts with `udp://` and not `http://`. |
| Tracker.SplitHostPath | scrapec.c:67-91 | The host part holds no `/`. The path starts with `/` and is either part of the input or `/` alone. |
| Tracker.HostPort | scrapec.c:93-115 | An `@` anywhere in the host part is refused, after a `:` too. A UDP host part without `:` is refused for lack of a port, and an HTTP one keeps its host and gets port 80. A `:` followed by what `atoi` reads as 0 or less is an invalid port. On success the host has no `@` or `:`, is a prefix of the host part, and the port is positive. |
| Tracker.DefaultPort | scrapec.c:101-107 | A host part without `:`: UDP is refused for lack of a port. A success keeps the host, gets port 80 and, for HTTP, a scrape path. |
| Tracker.WrittenPort | scrapec.c:108-115 | With the first `:` at `c`: a number after it that `atoi` reads as 0 or less is an invalid port. A success has the host cut at the `:`, with no `:` left in it, and the port `atoi` read. |
| Tracker.ScrapePath | scrapec.c:117-136 | The result is in scrape form (its last segment starts with `/scrape`) and no longer than the input. The path is kept exactly when it is already in scrape form. It is refused as invalid exactly when it has no `/`, and as neither announce nor scrape exactly when its last segment starts with neither word. |
| Tracker.AnnounceToScrape | scrapec.c:126-130 | Replacing `/announce` at the last `/` by `/scrape` gives a path in scrape form, shorter than the input, still starting with `/`. |
| Tracker.Finish | scrapec.c:117-138 | A UDP URL is stored as given. For HTTP it succeeds exactly when the announce-to-scrape rewrite accepts the path, and stores the rewritten path. Host and port are kept. |
| Tracker.ParseUrl | scrapec.c:50-139 | Unknown protocol exactly when neither scheme matches. With a remainder under 64 bytes, an `@` in the host part is refused, a UDP host part without a port is refused, and an HTTP path that is neither announce nor scrape is an error. A parsed URL has its protocol from the scheme, host and path under 64 bytes, a host without `@`, `:` or `/`, a positive port, a path starting with `/`, and for HTTP a scrape path. The stored path is the path part after the host: kept as it is for UDP, its announce-to-scrape rewrite for HTTP. |
| Tracker.ParseUrlErrors | scrapec.c:67-91 | A remainder of 64 bytes or more is refused as too long a host. The path-too-long and invalid-path errors can never occur. |
| Tracker.ParseUrlText | scrapec.c:50-139 | A URL written as scheme, plain host, optional `:port` and path parses to that host and that port (80 when absent, HTTP only). A UDP URL keeps its path (`/` when it has none). An HTTP URL whose path the announce-to-scrape rewrite accepts stores the rewritten path. |
| Tracker.ParseAnnounceUrl | scrapec.c:117-136 | An HTTP URL whose last path segment starts with `/announce` parses to its host and port and to the `/scrape` path derived from it. The directory before the segment and the rest of the segment are kept. |
| Tracker.RestOfText | scrapec.c:67-115 | The host, port and path of a URL text are split apart and read back; the path is stored kept for UDP and rewritten to scrape form for HTTP. |
| Tracker.HostPortWritten | scrapec.c:99-115 | `host:port` gives that host and that port, with the path kept for UDP and rewritten to scrape form for HTTP. |
| Tracker.HostPortDefault | scrapec.c:99-107 | An HTTP host without a port gets port 80, with the path rewritten to scrape form. |
| Tracker.FinishKeeps | scrapec.c:117-136 | A path already in scrape form passes the rewrite unchanged. |
| Tracker.AnnounceBecomesScrape | scrapec.c:126-130 | `/announce` at the start of the last segment becomes `/scrape`. The directory before it and the rest of the segment after it are kept. |
| Tracker.ScrapePathIdempotent | scrapec.c:117-136 | Rewriting a path the rewrite produced gives the same path. |
| Tracker.PercentTriple | scrapec.c:227-228 | `%%%02X` gives `%` and two upper-case hexadecimal digits whose value is the byte. |
| Tracker.PercentEncode | scrapec.c:225-240 | The escaped hash has three bytes per hash byte. |
| Tracker.PercentEncodeAt | scrapec.c:226-239 | Hash byte `i` is escaped at offset `3i`. |
| Magnet.UrlDecodePercentEncode | src/magnet.c:91-111 | The tracker's escaped info hash decodes back to the hash under `urldecode`. |
| Tracker.HttpRequest | scrapec.c:225-240 | The request is `GET`, the path and `?info_hash=`, then the hash escaped three bytes per byte, then the fixed header lines, then `Host: <host>:<port>` and the blank line. |
| Magnet.HttpRequestHash | scrapec.c:225-240 | The escaped hash in the request's query decodes back to the hash under `urldecode`. |
| Tracker.HttpRequestFits | scrapec.c:218-240 | The request always fits the 4096-byte buffer, so `snprintf` never truncates it. |
| Tracker.BodyStart | scrapec.c:158-166 | Present exactly when the response, read as a C string, has a `\r\n\r\n` or a `\n\n`. The body start is within the buffer. |
| Tracker.BodyAfterBlankLine | scrapec.c:158-166 | When the headers end in their first blank line, the body starts right after it, whatever the body holds. |
| Tracker.Framing | scrapec.c:150-166 | A `200` status line, headers and a blank line put the body where the response checks look for it. |
| Tracker.ScrapeCounts | scrapec.c:178-195 | Success means `files` is a non-empty dictionary whose first value has integer `complete`, `downloaded` and `incomplete`. The counts are those integers cut to a C `int`. Every failure is bad scrape data. |
| Tracker.ParseHttpResponse | scrapec.c:144-210 | Responses under 90 bytes, without a `200` status or without a blank line are bad responses. Past those checks, a body that does not decode gives that decoding error, and a success gives the scrape fields of the decoded body. |
| Tracker.ScrapeBodyCounts | scrapec.c:178-195 | The counts of a BEP 48 scrape body are read back, whatever its info-hash key. |
| Tracker.HttpResponseCounts | scrapec.c:144-198 | A `200` response with a scrape body after its headers gives that body's three counts. |
| Tracker.HttpScrape | scrapec.c:298-319 | 4096 bytes or more received is too large. Anything shorter is handed whole to `parse_http_response`. |
| Tracker.BE32RoundTrip | scrapec.c:459-462 | `ntohl` of the four bytes `htonl` writes gives the number back. |
| Tracker.BE32Bytes | scrapec.c:410 | Writing back four bytes that were read gives the same bytes. |
| Tracker.ConnectRequest | scrapec.c:407-411 | 16 bytes: the protocol magic, action 0, and the transaction id as stored. |
| Tracker.CheckConnectReply | scrapec.c:418-431 | A reply under 16 bytes is too short. Accepted exactly when it has 16 bytes or more, echoes the transaction id and has action 0. The connection id is bytes 8 to 16. |
| Tracker.ScrapeRequest | scrapec.c:433-438 | 36 bytes: the connection id, action 2, the transaction id, the info hash. |
| Tracker.CheckScrapeReply | scrapec.c:445-462 | A reply under 20 bytes is too short. Accepted exactly when it has 20 bytes or more, echoes the transaction id and has action 2. The counts are the three following big-endian words, cut to a C `int`. |
| Tracker.UdpScrape | scrapec.c:407-462 | A refused connect reply gives the connect check's error. An accepted one gives the scrape check of the tracker's reply to the scrape request built with the returned connection id and the second transaction id. |
| Tracker.UdpScrapeCounts | scrapec.c:407-462 | A tracker that follows BEP 15 gets the scrape request and has its three counts read back. |
| Tracker.StaleReplyRefused | scrapec.c:451-457 | A scrape reply with another transaction id is refused, however well formed it is otherwise. |
| Tracker.Scrapec | scrapec.c:472-501 | A URL `parse_url` refuses gives its error. Otherwise an HTTP URL goes to the HTTP scrape and a UDP URL to the UDP exchange. |
| Tracker.Nibble | scrapec.c:528-546 | A value exactly for a hexadecimal digit of either case, and it is that digit's value. |
| Tracker.ParseInfoHash | scrapec.c:520-551 | Accepted exactly when the input has 40 hexadecimal digits. Byte `i` is built from digits `2i` and `2i+1`, high digit first. |
| Tracker.HexSpellingReads | scrapec.c:520-551 | The `%02x` spelling of a hash is all hexadecimal digits and reads back pair by pair to the hash. |
| Tracker.ParseInfoHashOfSpelling | scrapec.c:520-551 | A 20-byte hash, printed and read again, is unchanged. |
| Magnet.UrlDecode | src/magnet.c:91-111 | The output is never longer than the input. Its partners are UrlDecodeUnescaped, UrlDecodeShorter and UrlDecodePercentEncode. |
| Magnet.UrlDecodePlain | src/magnet.c:95-107 | Text without `%` or `+` is left unchanged. |
| Magnet.UrlDecodeShorter | src/magnet.c:96-100 | A valid escape anywhere makes the output strictly shorter. |
| Magnet.UrlDecodeUnescaped | src/magnet.c:95-107 | Text without a valid escape keeps its length. Each `+` becomes a space and every other byte, a stray `%` included, is kept. Together with UrlDecodeShorter: the output is shorter exactly when the input holds a valid escape. |
| Magnet.Tokens | src/magnet.c:40-41 | Tokens are non-empty and hold no `&`. |
| Magnet.TokensJoin | src/magnet.c:40-81 | Splitting non-empty `&`-free parameters joined with `&` gives them back. |
| Magnet.TokensSkipEmpty | src/magnet.c:81 | A run of `&` separates like a single one. |
| Magnet.ScanPair | src/magnet.c:63 | Two hexadecimal digits give their byte. A non-digit first character leaves the byte as it was. |
| Magnet.ScanHash | src/magnet.c:59-64 | 20 bytes, byte `i` scanned from characters `2i` and `2i+1`. |
| Magnet.ScanHashOfHex | src/magnet.c:61-64 | A hash spelled in hexadecimal digits is read pair by pair, whatever the array held before. |
| Magnet.ScanHashOfSpelling | src/magnet.c:59-64 | The hash printed with `%02x` is read back from a magnet link. |
| Magnet.NameOf | src/magnet.c:74-79 | The stored name is the decoded value, seen as a C string, cut to `capacity - 1` bytes. It is the whole value when that fits, and otherwise a prefix of exactly `capacity - 1` bytes. |
| Magnet.DisplayName | src/magnet.c:45-79 | The name always fits the buffer, NUL included. |
| Magnet.DisplayNameAppend | src/magnet.c:74-79 | The last `dn` wins: parameters after it change nothing unless one of them is a `dn`. |
| Magnet.DisplayNameDefault | src/magnet.c:45 | Without a `dn` the name stays empty. |
| Magnet.HashAfter | src/magnet.c:59-69 | The output array always holds 20 bytes. |
| Magnet.HashAfterNoHash | src/magnet.c:59-64 | Without an `xt=urn:btih:` parameter the output array is left as it was. |
| Magnet.TrackersAppend | src/magnet.c:70-73 | Trackers keep occurrence order across any split of the parameters. |
| Magnet.Step | src/magnet.c:48-79 | One parameter is accepted exactly when it has a `=` and, if it is an info hash, that hash has 40 characters. A parameter without `=` is reported as malformed exactly when it lacks `=`, and a bad hash length exactly when it has `=` but a hash of the wrong length. |
| Magnet.ParamStep | src/magnet.c:47-82 | One more pass of the loop takes the result of the parameters before it to the result of the parameters up to it. A malformed parameter makes the whole link malformed. |
| Magnet.ParseMagnetUri | src/magnet.c:24-89 | Without `magnet:?` the link is refused. Success comes exactly when every parameter is accepted. Then the hash is the one after the last hash parameter, the trackers are those of the `tr` parameters in order, and the name is the last `dn`. A failure reports the first parameter that is not accepted: malformed when it has no `=`, otherwise a bad hash length. |
| Torrent.FileDefect | src/torrent.c:81-103 | No defect exactly when the entry is a valid file: a dictionary with a non-negative integer `length` and a non-empty `path` of strings. Otherwise the defect is one of the four file errors. |
| Torrent.CheckTorrent | src/torrent.c:30-113 | Accepted exactly when the torrent is valid. Each error is returned exactly when every earlier check passed and its own check failed. A file error is the defect of the first bad file. |
| Torrent.Tiers | src/torrent.c:299-304 | One list of URLs per tier. Each URL is the C string of its entry. |
| Torrent.Offsets | src/torrent.c:299-315 | Tier slices begin at 0 and never pass 64. |
| Torrent.OffsetsStep | src/torrent.c:301-314 | A tier adds as many of its URLs as still fit below 64. |
| Torrent.Taken | src/torrent.c:301-305 | What a tier contributes is a prefix of its URLs, the length of its slice. |
| Torrent.OffsetsTotal | src/torrent.c:299-315 | The collected list holds the first 64 URLs of all tiers, or all of them when there are fewer. |
| Torrent.Swap | src/torrent.c:308-310 | Two entries trade places and the others stay. |
| Torrent.Remainder | src/torrent.c:307 | `rand() % added_in_tier` is below the tier count, and 0 for a zero draw. |
| Torrent.SwapBack | src/torrent.c:306-311 | The swap stays inside the current tier: earlier tiers are untouched and the tier's part is a permutation. A zero draw changes nothing. |
| Torrent.FillStep | src/torrent.c:301-311 | One URL appended and swapped keeps the tier's part a permutation of the URLs added so far, and in file order when no swap moves anything. |
| Torrent.FillTier | src/torrent.c:300-312 | A tier adds as many URLs as fit below 64. Earlier entries are kept, and the tier's part is a permutation of the tier's first URLs, in order when the draws are all zero. |
| Torrent.CollectTiers | src/torrent.c:298-316 | Each tier's slice of the collected list is a permutation of what that tier contributes, and in file order when the draws are all zero. |
| Torrent.TryInOrder | src/torrent.c:318-327 | The answer comes from the first tracker that answers, and every earlier one failed. No answer exactly when every tracker failed. |
| Torrent.TryInOrderStops | src/torrent.c:318-327 | The trackers after the one that answered are never asked: replacing them changes nothing. |
| Torrent.TryFromAgree | src/torrent.c:318-327 | Two lists that agree up to the answering tracker end the same way. |
| Torrent.ScrapeTorrent | src/torrent.c:272-328 | No `info` and no announce are reported as such. Otherwise at most 64 URLs are tried in order against the hash of `info`'s encoding. Without `announce-list` the only URL is `announce`; with it the list is the tiers in order, each tier's slice a permutation of its URLs. |

## Left out

- Sockets, DNS, timeouts, `send`/`recv` errors and all printing are left out. A tracker is a function from request bytes to response bytes.
- `malloc`/`free`, `benc_free_entity`, `strdup` failure and the out-of-memory message are left out: memory is unbounded here.
- `benc_parse_stream` and `benc_parse_file` read a `FILE *`; only the string-length bound of the stream decoder is modelled (`Bencode.StreamStringLength`). `benc_dump_entity`, `human_readable_number`, `show_torrent_info` and `src/main.c` only print.
- Bencode.ParseLLDecimal: `long long` overflow of the digit loop is not modelled; magnitudes are unbounded. The C digit loop (benc.c:154) has no length bound and reads past `length` while digits continue, for instance on `i12` at the very end of the buffer, at any nesting depth. The model stops at the end of the buffer, so it never reads there.
- Bencode.ParseString: when the digits run to the very end of the buffer, `benc.c` reads the byte after it (line 263). The model reports a missing `:` there, where C fails with a bad length or a missing `:` depending on that byte; both are failures.
- Tracker.HostPort: the port is an unbounded `atoi`; `htons` truncation to 16 bits and `int` overflow of `atoi` are left out.
- Magnet.ScanPair: `sscanf("%2hhx")` also skips white space and takes a sign or `0x`; only hexadecimal digits, and a failing first digit, are modelled.
- Magnet.ParseMagnetUri: the NULL check on `uri` has no counterpart, since a sequence is never NULL. On an error return the display name may already hold an earlier `dn`, and `out_infohash` may already hold the hash of an earlier `xt`; the model returns only the error.
- Tracker.ScrapeCounts: line 184 of `scrapec.c` steps to `head->next`, which is a dictionary node rather than a value of the shown `benc.h`. That call site is also written against a four-argument `benc_parse_memory` (line 169), a different library version. The model reads it as the value of the first entry of `files`, with the key never compared to the info hash. A `files` that is not a dictionary, or counts that are not integers, are refused, where C would read the union unchecked.
- Tracker.ParseHttpResponse: the body is decoded with the sign applied (the corrected decoder of the Findings). It differs from the decoder as written only when a count is negative.
- Tracker.UdpScrape: the two transaction ids come from `rand() * rand()`; they are parameters, and their memory order is not converted, just as the C compares them raw.
- Torrent.ScrapeTorrent: `announce-list` must be a list of lists of strings, and `announce` a string, because `scrape_torrent` reads them without checking their types (requires `ScrapeShaped`). The per-URL error messages are not kept; each attempt is just `Ok` or `Err`.
- Torrent.FillTier: `rand()` is a function of the call index. The model states that each tier's slice is a permutation of what the tier contributed, and keeps file order when every draw is zero; it does not state which permutation a given sequence of draws produces.

## Findings

| source | as written | input that shows it | evidently intended | confidence | as-written member | corrected member |
|---|---|---|---|---|---|---|
| benc.c:424-433 | `benc_sha1_entity_rec` prints an integer with `sprintf(size, "i%llde", …)` into `char size[16]`, with no bound | a file length of 10^13 bytes (10 TB), or any integer from 10^13 up or from -10^12 down, writes 17 or more bytes: a stack buffer overflow | a buffer that holds the text of every `long long` (23 bytes), so that the hashed stream is the canonical encoding | high; not executed | BencodeLemmas.HashedIntegerOverflow | BencodeLemmas.LongLongTextFits |
| benc.c:146-160 | `parse_lldecimal` sets `neg` for a leading `-` but stores `result` without negating it | `i-5e` decodes to the integer 5, so the encoding of -5 does not decode back to -5 | store `-result` when `neg` is set, so that every encoded tree, negative integers included, decodes back to itself | high; not executed | BencodeLemmas.NegativeIntegerLosesSign | BencodeLemmas.SignedRoundTrip |

=== FILE: bencode.dfy ===
/** The bencoding value tree (benc.h), the buffer decoder
    `benc_parse_memory`, dictionary lookup `benc_lookup_string`, the append
    helpers, and the canonical byte stream `benc_sha1_entity_rec` feeds into
    SHA-1 to form the info hash (benc.c). Bencoding itself is defined in
    BEP 3, part "bencoding". */
module Bencode {
  import opened Wrappers
  import opened Bytes
  import opened Decimal

  /** A decoded entity. A string's length is the length of its byte
      sequence, so the C invariant "declared length = stored bytes" holds by
      construction. */
  datatype Value =
    | Str(bytes: seq<byte>)
    | Int(n: int)
    | List(items: seq<Value>)
    | Dict(entries: seq<Entry>)

  /** One key/value node of a dictionary, in stored order. */
  datatype Entry = Entry(key: Value, value: Value)

  const TagInt: byte := 105   // 'i'
  const TagList: byte := 108  // 'l'
  const TagDict: byte := 100  // 'd'
  const End: byte := 101      // 'e'

  /** The bytes an encoded entity may start with. */
  predicate IsLeadByte(b: byte) {
    b == TagInt || b == TagList || b == TagDict || IsDigit(b)
  }

  /** The reasons `benc_parse_memory` prints before returning NULL. */
  datatype ParseError =
    | TooShort                // fewer than 2 bytes left
    | MalformedInteger        // no digits after 'i' or missing 'e'
    | UnterminatedList        // buffer ends before the list's 'e'
    | UnterminatedDictionary  // buffer ends before the dictionary's 'e'
    | MissingColon            // string length not followed by ':'
    | InvalidLength           // string longer than the bytes that remain
    | UnrecognizedTag         // lead byte is not 'i', 'l', 'd' or a digit

  /** How the decoder turns a parsed `-` into the stored integer:
      `DropSign` is benc.c as written, `ApplySign` is the evident intent. */
  datatype SignMode = DropSign | ApplySign

  /** A decoded entity and the number of bytes it took. */
  datatype Parsed = Parsed(value: Value, consumed: nat)

  /** What `parse_lldecimal` reports: whether a `-` was seen, the digits'
      value, and the bytes read (0 meaning failure). */
  datatype DecimalRead = DecimalRead(negative: bool, magnitude: nat, eaten: nat)

  /** 1 when the byte at position `i` is a `-`. */
  function SignWidth(s: seq<byte>, i: nat): nat {
    if i < |s| && s[i] == Minus then 1 else 0
  }

  /** `parse_lldecimal` on the bytes from position `i`: an optional `-`,
      then at least one digit. */
  function ParseLLDecimal(s: seq<byte>, i: nat): (d: DecimalRead)
    requires i <= |s|
    ensures d.eaten <= |s| - i
    ensures d.negative <==> SignWidth(s, i) == 1
  {
    var w := SignWidth(s, i);
    var (v, c) := ScanDigits(s, i + w, 0);
    if c == 0 then DecimalRead(w == 1, 0, 0) else DecimalRead(w == 1, v, w + c)
  }

  /** What `parse_lldecimal` reads: it succeeds exactly when a digit follows
      the optional sign, consumes the sign and the whole digit run, and
      yields the positional value of that run. */
  lemma ParseLLDecimalReads(s: seq<byte>, i: nat)
    requires i <= |s|
    ensures var w := SignWidth(s, i); var run := DigitRun(s[i + w..]);
      && (ParseLLDecimal(s, i).eaten > 0 <==> run > 0)
      && (run > 0 ==> ParseLLDecimal(s, i).eaten == w + run)
      && AllDigits(s[i + w..][..run])
      && (run > 0 ==> ParseLLDecimal(s, i).magnitude == ValueOf(s[i + w..][..run]))
  {
    ScanDigitsValue(s, i + SignWidth(s, i), 0);
  }

  /** The numeral text `parse_lldecimal` reads from position `i`: the run
      of digits after the optional `-`. */
  function Numeral(s: seq<byte>, i: nat): (r: seq<byte>)
    requires i <= |s|
    ensures AllDigits(r) && i + SignWidth(s, i) + |r| <= |s|
  {
    var t := s[i + SignWidth(s, i)..];
    DigitRunSpec(t);
    t[..DigitRun(t)]
  }

  /** The integer the numeral at `i` denotes, its `-` applied or not. */
  function NumeralValue(s: seq<byte>, i: nat, mode: SignMode): int
    requires i <= |s|
  {
    var v: int := ValueOf(Numeral(s, i));
    if mode == ApplySign && SignWidth(s, i) == 1 then -v else v
  }

  /** The integer `*presult` receives. benc.c never negates it. */
  function Stored(d: DecimalRead, mode: SignMode): int {
    var m: int := d.magnitude;
    if mode == ApplySign && d.negative then -m else m
  }

  /** `benc_append_list`: adds `child` at the tail. Anything but a list is
      left unchanged (the C code prints a message and returns). */
  function AppendList(list: Value, child: Value): (r: Value)
    ensures list.List? ==> r.List? && |r.items| == |list.items| + 1
    ensures list.List? ==> r.items[..|list.items|] == list.items && r.items[|list.items|] == child
    ensures !list.List? ==> r == list
  {
    if list.List? then List(list.items + [child]) else list
  }

  /** `benc_append_dictionary`: adds the pair at the tail. Anything but a
      dictionary is left unchanged. */
  function AppendDictionary(dict: Value, key: Value, value: Value): (r: Value)
    ensures dict.Dict? ==> r.Dict? && |r.entries| == |dict.entries| + 1
    ensures dict.Dict? ==> r.entries[..|dict.entries|] == dict.entries && r.entries[|dict.entries|] == Entry(key, value)
    ensures !dict.Dict? ==> r == dict
  {
    if dict.Dict? then Dict(dict.entries + [Entry(key, value)]) else dict
  }

  /** `benc_parse_memory(data, length, &eaten)` with `data` at position `i`
      of the buffer `s` and `length` the `|s| - i` bytes from there on. A
      nested call gets an address further into the same buffer and the length
      that remains, so every call is a position in `s`; `consumed` is the
      `*peaten` it reports. */
  function Parse(s: seq<byte>, i: nat, mode: SignMode): (r: Result<Parsed, ParseError>)
    requires i <= |s|
    decreases |s| - i, 0
    ensures r.Ok? ==> 0 < r.value.consumed <= |s| - i
    ensures r.Ok? ==> IsLeadByte(s[i])
    ensures |s| - i < 2 ==> r == Err(TooShort)
    ensures |s| - i >= 2 && !IsLeadByte(s[i]) ==> r == Err(UnrecognizedTag)
  {
    if |s| - i < 2 then Err(TooShort)
    else if s[i] == TagInt then ParseInteger(s, i, mode)
    else if s[i] == TagList then
      match ParseItems(s, i + 1, mode, List([]))
      case Err(e) => Err(e)
      case Ok((list, n)) => Ok(Parsed(list, n + 1))
    else if s[i] == TagDict then
      match ParseEntries(s, i + 1, mode, Dict([]))
      case Err(e) => Err(e)
      case Ok((dict, n)) => Ok(Parsed(dict, n + 1))
    else if !IsDigit(s[i]) then Err(UnrecognizedTag)
    else ParseString(s, i, mode)
  }

  /** The 'i' case: a decimal right after the tag, then 'e'. */
  function ParseInteger(s: seq<byte>, i: nat, mode: SignMode): (r: Result<Parsed, ParseError>)
    requires i + 2 <= |s|
    ensures r.Ok? ==> 2 < r.value.consumed <= |s| - i && r.value.value.Int?
    ensures r.Ok? ==> s[i + r.value.consumed - 1] == End
    ensures r.Err? ==> r.error == MalformedInteger
    ensures var w, n := SignWidth(s, i + 1), |Numeral(s, i + 1)|;
      r.Ok? <==> n > 0 && i + 1 + w + n < |s| && s[i + 1 + w + n] == End
    ensures r.Ok? ==> r.value.consumed == 2 + SignWidth(s, i + 1) + |Numeral(s, i + 1)|
    ensures r.Ok? ==> r.value.value == Int(NumeralValue(s, i + 1, mode))
  {
    ParseLLDecimalReads(s, i + 1);
    var d := ParseLLDecimal(s, i + 1);
    if d.eaten == 0 || d.eaten + 2 > |s| - i || s[i + d.eaten + 1] != End then Err(MalformedInteger)
    else Ok(Parsed(Int(Stored(d, mode)), d.eaten + 2))
  }

  /** The digit case: a length, ':' and that many bytes. */
  function ParseString(s: seq<byte>, i: nat, mode: SignMode): (r: Result<Parsed, ParseError>)
    requires i <= |s|
    ensures r.Ok? ==> r.value.value.Str? && |r.value.value.bytes| < r.value.consumed <= |s| - i
    ensures r.Err? ==> r.error == MissingColon || r.error == InvalidLength
    ensures var w, n := SignWidth(s, i), |Numeral(s, i)|;
      r == Err(MissingColon) <==> !(n > 0 && i + w + n < |s| && s[i + w + n] == Colon)
    ensures var w, n, len := SignWidth(s, i), |Numeral(s, i)|, NumeralValue(s, i, mode);
      n > 0 && i + w + n < |s| && s[i + w + n] == Colon && (len < 0 || i + w + n + 1 + len > |s|)
      ==> r == Err(InvalidLength)
    ensures r.Ok? ==> var w, n := SignWidth(s, i), |Numeral(s, i)|;
      && r.value.consumed == w + n + 1 + |r.value.value.bytes|
      && |r.value.value.bytes| == NumeralValue(s, i, mode)
      && r.value.value.bytes == s[i + w + n + 1..i + r.value.consumed]
  {
    ParseLLDecimalReads(s, i);
    var d := ParseLLDecimal(s, i);
    if d.eaten == 0 || d.eaten >= |s| - i || s[i + d.eaten] != Colon then Err(MissingColon)
    else
      var len := Stored(d, mode);
      if len < 0 || d.eaten + 1 + len > |s| - i then Err(InvalidLength)
      else Ok(Parsed(Str(s[i + d.eaten + 1..i + d.eaten + 1 + len]), d.eaten + 1 + len))
  }

  /** The loop of the 'l' case, at position `j` of the buffer: children are
      parsed and appended until the next byte is 'e'. Gives the finished
      list and the bytes taken from `j` on, the closing 'e' included. */
  function ParseItems(s: seq<byte>, j: nat, mode: SignMode, list: Value): (r: Result<(Value, nat), ParseError>)
    requires j <= |s| && list.List?
    decreases |s| - j, 2
    ensures r.Ok? ==> r.value.0.List? && 0 < r.value.1 <= |s| - j
  {
    if j == |s| then Err(UnterminatedList)
    else if s[j] == End then Ok((list, 1))
    else match Parse(s, j, mode)
      case Err(e) => Err(e)
      case Ok(child) =>
        match ParseItems(s, j + child.consumed, mode, AppendList(list, child.value))
        case Err(e) => Err(e)
        case Ok((full, n)) => Ok((full, child.consumed + n))
  }

  /** The loop of the 'd' case: a key, then (in `ParseValueThenEntries`)
      its value, appended until the next byte is 'e'. */
  function ParseEntries(s: seq<byte>, j: nat, mode: SignMode, dict: Value): (r: Result<(Value, nat), ParseError>)
    requires j <= |s| && dict.Dict?
    decreases |s| - j, 2
    ensures r.Ok? ==> r.value.0.Dict? && 0 < r.value.1 <= |s| - j
  {
    if j == |s| then Err(UnterminatedDictionary)
    else if s[j] == End then Ok((dict, 1))
    else match Parse(s, j, mode)
      case Err(e) => Err(e)
      case Ok(key) =>
        match ParseValueThenEntries(s, j + key.consumed, mode, dict, key.value)
        case Err(e) => Err(e)
        case Ok((full, n)) => Ok((full, key.consumed + n))
  }

  /** The value half of a dictionary pair whose key is `key`, then the rest
      of the dictionary. */
  function ParseValueThenEntries(s: seq<byte>, j: nat, mode: SignMode, dict: Value, key: Value)
    : (r: Result<(Value, nat), ParseError>)
    requires j <= |s| && dict.Dict?
    decreases |s| - j, 1
    ensures r.Ok? ==> r.value.0.Dict? && 0 < r.value.1 <= |s| - j
  {
    match Parse(s, j, mode)
    case Err(e) => Err(e)
    case Ok(value) =>
      match ParseEntries(s, j + value.consumed, mode, AppendDictionary(dict, key, value.value))
      case Err(e) => Err(e)
      case Ok((full, n)) => Ok((full, value.consumed + n))
  }

  /** `benc_parse_memory` as written, on a whole buffer. */
  function ParseMemory(s: seq<byte>): Result<Parsed, ParseError> {
    Parse(s, 0, DropSign)
  }

  /** `benc_parse_memory` on a whole buffer with the parsed sign applied, as
      `parse_lldecimal` evidently intends; the rest of the model decodes with
      this one. */
  function Decode(s: seq<byte>): Result<Parsed, ParseError> {
    Parse(s, 0, ApplySign)
  }

  /** The position of the first entry whose key is the string `key`. */
  function KeyIndex(es: seq<Entry>, key: seq<byte>): (r: Option<nat>)
    ensures r.Some? ==> r.value < |es| && es[r.value].key == Str(key)
    ensures r.Some? ==> forall j | 0 <= j < r.value :: es[j].key != Str(key)
    ensures r.None? <==> forall j | 0 <= j < |es| :: es[j].key != Str(key)
  {
    if |es| == 0 then None
    else if es[0].key == Str(key) then Some(0)
    else match KeyIndex(es[1..], key)
      case None => None
      case Some(i) => Some(i + 1)
  }

  /** `benc_lookup_string`: the value of the first entry whose key is a
      string with exactly the bytes of `key`; absent for a non-dictionary. */
  function Lookup(d: Value, key: seq<byte>): (r: Option<Value>)
    ensures r.Some? <==> d.Dict? && exists i | 0 <= i < |d.entries| :: d.entries[i].key == Str(key)
    ensures r.Some? ==> exists i | 0 <= i < |d.entries| ::
      d.entries[i] == Entry(Str(key), r.value) && forall j | 0 <= j < i :: d.entries[j].key != Str(key)
  {
    if !d.Dict? then None
    else match KeyIndex(d.entries, key)
      case None => None
      case Some(i) => Some(d.entries[i].value)
  }

  /** Appending a pair never hides an existing key: the first match wins, so
      the new value is found only when the key was absent. */
  lemma LookupAfterAppend(d: Value, k: seq<byte>, v: Value, key: seq<byte>)
    requires d.Dict?
    ensures Lookup(AppendDictionary(d, Str(k), v), key) ==
      if Lookup(d, key).Some? then Lookup(d, key)
      else if key == k then Some(v)
      else None
  {
    var es := d.entries + [Entry(Str(k), v)];
    assert forall j | 0 <= j < |d.entries| :: es[j] == d.entries[j];
    match KeyIndex(d.entries, key)
    case Some(i) =>
      assert es[i].key == Str(key);
    case None =>
      assert es[|d.entries|].key == Str(k);
  }

  /** `benc_sha1_entity_rec` as a byte stream: strings as `<len>:<bytes>`,
      integers as `i<%lld>e`, lists as `l...e`, dictionaries as
      `d key value ... e` in stored order. */
  function Encode(v: Value): (r: seq<byte>)
    ensures |r| >= 2 && IsLeadByte(r[0])
  {
    match v
    case Str(b) => Digits(|b|) + [Colon] + b
    case Int(n) => [TagInt] + Signed(n) + [End]
    case List(items) => [TagList] + EncodeItems(items) + [End]
    case Dict(es) => [TagDict] + EncodeEntries(es) + [End]
  }

  function EncodeItems(items: seq<Value>): seq<byte> {
    if |items| == 0 then [] else Encode(items[0]) + EncodeItems(items[1..])
  }

  function EncodeEntry(e: Entry): seq<byte> {
    Encode(e.key) + Encode(e.value)
  }

  function EncodeEntries(es: seq<Entry>): seq<byte> {
    if |es| == 0 then [] else EncodeEntry(es[0]) + EncodeEntries(es[1..])
  }

  /** `benc_sha1_entity`: the digest of the canonical stream. SHA-1 itself is
      a library the model does not contain, so it is a parameter. */
  function InfoHash(sha1: seq<byte> -> seq<byte>, v: Value): seq<byte> {
    sha1(Encode(v))
  }

  /** The size of the stack buffer `benc_sha1_entity_rec` prints an integer's
      `i%llde` into. */
  const IntegerBuffer: int := 16

  /** The integer text as `benc_sha1_entity_rec` writes it: the text when it
      fits the buffer together with its NUL, and nothing when `sprintf`
      would write past the end of the buffer. */
  function HashedIntegerText(n: int): (r: Option<seq<byte>>)
    ensures r.Some? ==> r.value == Encode(Int(n))
    ensures r.Some? <==> |Encode(Int(n))| + 1 <= IntegerBuffer
  {
    var text := [TagInt] + Signed(n) + [End];
    if |text| + 1 <= IntegerBuffer then Some(text) else None
  }

  /** The string length limit of `benc_parse_stream`. */
  const MaxStreamString: int := 1024 * 1024

  /** The length check of `benc_parse_stream`'s string case. */
  function StreamStringLength(n: int): (r: Result<nat, ParseError>)
    ensures r.Ok? <==> 0 <= n <= MaxStreamString
    ensures r.Ok? ==> r.value == n
    ensures r.Err? ==> r.error == InvalidLength
  {
    if n > MaxStreamString || n < 0 then Err(InvalidLength) else Ok(n)
  }

  /** Every integer in the tree is non-negative: the trees benc.c can
      reproduce. */
  predicate NonNegative(v: Value) {
    match v
    case Str(_) => true
    case Int(n) => n >= 0
    case List(items) => forall i | 0 <= i < |items| :: NonNegative(items[i])
    case Dict(es) => forall i | 0 <= i < |es| :: NonNegative(es[i].key) && NonNegative(es[i].value)
  }

  /** The decoder in `mode` can give `v` back. */
  predicate Reproducible(v: Value, mode: SignMode) {
    mode == ApplySign || NonNegative(v)
  }
}

=== FILE: bencode_lemmas.dfy ===
/** What the decoder and the canonical encoder promise each other: decoding
    an encoding gives the tree back, whatever follows it; a container whose
    'e' is missing is rejected; and integers lose their sign on the way in.
    The statements are about an encoding found at any position of a
    buffer, which is how a nested call sees the bytes that remain. */
module BencodeLemmas {
  import opened Wrappers
  import opened Bytes
  import opened Decimal
  import opened Bencode

  /** Moving the head of a sequence onto the end of an accumulator. */
  lemma {:induction false} ShiftHead<T>(acc: seq<T>, xs: seq<T>)
    requires |xs| > 0
    ensures acc + [xs[0]] + xs[1..] == acc + xs
  {
    assert [xs[0]] + xs[1..] == xs;
  }

  /** What `parse_lldecimal` reads at position `i` of a buffer holding a
      numeral there, followed by a non-digit. */
  lemma {:induction false} DecimalOfNumeral(ds: seq<byte>, s: seq<byte>, i: nat)
    requires 1 <= |ds| && AllDigits(ds)
    requires Matches(s, i, ds) && i + |ds| < |s| && !IsDigit(s[i + |ds|])
    ensures ParseLLDecimal(s, i) == DecimalRead(false, ValueOf(ds), |ds|)
  {
    MatchesSlice(s, i, ds);
    var v := s[i..];
    assert v == ds + v[|ds|..];
    assert s[i] == ds[0];
    assert i + SignWidth(s, i) == i;
    DigitRunAfter(ds, v[|ds|..]);
    ParseLLDecimalReads(s, i);
  }

  /** The same with a `-` in front. */
  lemma {:induction false} DecimalOfNegativeNumeral(ds: seq<byte>, s: seq<byte>, i: nat)
    requires 1 <= |ds| && AllDigits(ds)
    requires i < |s| && s[i] == Minus
    requires Matches(s, i + 1, ds) && i + |ds| + 1 < |s| && !IsDigit(s[i + |ds| + 1])
    ensures ParseLLDecimal(s, i) == DecimalRead(true, ValueOf(ds), |ds| + 1)
  {
    MatchesSlice(s, i + 1, ds);
    var v := s[i + 1..];
    assert v == ds + v[|ds|..];
    DigitRunAfter(ds, v[|ds|..]);
    ParseLLDecimalReads(s, i);
  }

  /** The 'i' case succeeds when the decimal after the tag is followed by
      'e'. */
  lemma {:induction false} IntegerFramed(s: seq<byte>, i: nat, mode: SignMode, d: DecimalRead)
    requires i + 2 <= |s| && s[i] == TagInt && ParseLLDecimal(s, i + 1) == d
    requires d.eaten > 0 && i + d.eaten + 2 <= |s| && s[i + d.eaten + 1] == End
    ensures Parse(s, i, mode) == Ok(Parsed(Int(Stored(d, mode)), d.eaten + 2))
  {
  }

  /** An integer is framed as `i`, optional `-`, digits, `e`. */
  lemma {:induction false} IntRoundTrip(n: int, s: seq<byte>, i: nat, mode: SignMode)
    requires mode == ApplySign || n >= 0
    requires Matches(s, i, Encode(Int(n)))
    ensures Parse(s, i, mode) == Ok(Parsed(Int(n), |Encode(Int(n))|))
  {
    hide Parse, ParseItems, ParseEntries, ParseValueThenEntries;
    if n < 0 {
      assert Encode(Int(n)) == [TagInt] + ([Minus] + Digits(-n)) + [End];
      NegativeFramed(-n, s, i, mode);
    } else {
      assert Encode(Int(n)) == [TagInt] + Digits(n) + [End];
      NonNegativeFramed(n, s, i, mode);
    }
  }

  /** `i`, the digits of `m`, `e`. */
  lemma {:induction false} NonNegativeFramed(m: nat, s: seq<byte>, i: nat, mode: SignMode)
    requires Matches(s, i, [TagInt] + Digits(m) + [End])
    ensures Parse(s, i, mode) == Ok(Parsed(Int(m), |Digits(m)| + 2))
  {
    hide Parse, ParseItems, ParseEntries, ParseValueThenEntries, ParseString, ParseLLDecimal, Matches, Encode;
    var ds := Digits(m);
    assert i + 1 + |ds| < |s| && s[i] == TagInt && Matches(s, i + 1, ds) && s[i + 1 + |ds|] == End by {
      MatchesAppend(s, i, [TagInt] + ds, [End]);
      MatchesAppend(s, i, [TagInt], ds);
      MatchesByte(s, i, TagInt);
      MatchesByte(s, i + 1 + |ds|, End);
    }
    assert ParseLLDecimal(s, i + 1) == DecimalRead(false, m, |ds|) by {
      DecimalOfNumeral(ds, s, i + 1);
    }
    IntegerFramed(s, i, mode, DecimalRead(false, m, |ds|));
  }

  /** `i`, `-`, the digits of `m`, `e`, read with the sign applied. */
  lemma {:induction false} NegativeFramed(m: nat, s: seq<byte>, i: nat, mode: SignMode)
    requires m > 0 && mode == ApplySign
    requires Matches(s, i, [TagInt] + ([Minus] + Digits(m)) + [End])
    ensures Parse(s, i, mode) == Ok(Parsed(Int(-(m as int)), |Digits(m)| + 3))
  {
    hide Parse, ParseItems, ParseEntries, ParseValueThenEntries, ParseString, ParseLLDecimal, Matches, Encode;
    var ds := Digits(m);
    assert i + 2 + |ds| < |s| && s[i] == TagInt && s[i + 1] == Minus && Matches(s, i + 2, ds)
        && s[i + 2 + |ds|] == End by {
      MatchesAppend(s, i, [TagInt] + ([Minus] + ds), [End]);
      MatchesAppend(s, i, [TagInt], [Minus] + ds);
      MatchesAppend(s, i + 1, [Minus], ds);
      MatchesByte(s, i, TagInt);
      MatchesByte(s, i + 1, Minus);
      MatchesByte(s, i + 2 + |ds|, End);
    }
    assert ParseLLDecimal(s, i + 1) == DecimalRead(true, m, |ds| + 1) by {
      DecimalOfNegativeNumeral(ds, s, i + 1);
    }
    IntegerFramed(s, i, mode, DecimalRead(true, m, |ds| + 1));
  }

  /** The digit case succeeds when the length is followed by ':' and enough
      bytes. */
  lemma {:induction false} StringFramed(s: seq<byte>, i: nat, mode: SignMode, d: DecimalRead)
    requires i + 2 <= |s| && IsDigit(s[i]) && ParseLLDecimal(s, i) == d && !d.negative
    requires d.eaten > 0 && i + d.eaten < |s| && s[i + d.eaten] == Colon && i + d.eaten + 1 + d.magnitude <= |s|
    ensures Parse(s, i, mode)
         == Ok(Parsed(Str(s[i + d.eaten + 1..i + d.eaten + 1 + d.magnitude]), d.eaten + 1 + d.magnitude))
  {
  }

  /** A string is framed as its length, `:` and its bytes. */
  lemma {:induction false} StrRoundTrip(b: seq<byte>, s: seq<byte>, i: nat, mode: SignMode)
    requires Matches(s, i, Encode(Str(b)))
    ensures Parse(s, i, mode) == Ok(Parsed(Str(b), |Encode(Str(b))|))
  {
    hide Parse, ParseItems, ParseEntries, ParseValueThenEntries;
    var ds := Digits(|b|);
    assert Encode(Str(b)) == ds + [Colon] + b;
    MatchesAppend(s, i, ds + [Colon], b);
    MatchesAppend(s, i, ds, [Colon]);
    MatchesByte(s, i + |ds|, Colon);
    MatchesSlice(s, i + |ds| + 1, b);
    assert s[i] == ds[0];
    DecimalOfNumeral(ds, s, i);
    StringFramed(s, i, mode, DecimalRead(false, |b|, |ds|));
  }

  /** The bytes of a decoded string are the ones just before the end of
      what it consumed. */
  lemma {:induction false} StringBytes(s: seq<byte>, i: nat, mode: SignMode)
    requires i + 2 <= |s| && IsDigit(s[i]) && Parse(s, i, mode).Ok?
    ensures var p := Parse(s, i, mode).value;
      p.value.Str? && s[i + p.consumed - |p.value.bytes|..i + p.consumed] == p.value.bytes
  {
  }

  /** One turn of the list loop: a child, then the rest of the list. */
  lemma {:induction false} ItemsStep(s: seq<byte>, j: nat, mode: SignMode, list: Value, child: Parsed,
                                     next: Value, full: Value, n: nat)
    requires list.List? && j < |s| && s[j] != End
    requires Parse(s, j, mode) == Ok(child)
    requires next == AppendList(list, child.value)
    requires ParseItems(s, j + child.consumed, mode, next) == Ok((full, n))
    ensures ParseItems(s, j, mode, list) == Ok((full, child.consumed + n))
  {
  }

  /** A failure later in the list is the failure of the whole list. */
  lemma {:induction false} ItemsStepFails(s: seq<byte>, j: nat, mode: SignMode, list: Value, child: Parsed,
                                          next: Value, e: ParseError)
    requires list.List? && j < |s| && s[j] != End
    requires Parse(s, j, mode) == Ok(child)
    requires next == AppendList(list, child.value)
    requires ParseItems(s, j + child.consumed, mode, next) == Err(e)
    ensures ParseItems(s, j, mode, list) == Err(e)
  {
  }

  /** The key half of a dictionary pair. */
  lemma {:induction false} EntriesStep(s: seq<byte>, j: nat, mode: SignMode, dict: Value, key: Parsed,
                                       full: Value, n: nat)
    requires dict.Dict? && j < |s| && s[j] != End
    requires Parse(s, j, mode) == Ok(key)
    requires ParseValueThenEntries(s, j + key.consumed, mode, dict, key.value) == Ok((full, n))
    ensures ParseEntries(s, j, mode, dict) == Ok((full, key.consumed + n))
  {
  }

  /** A failure after the key is the failure of the whole dictionary. */
  lemma {:induction false} EntriesStepFails(s: seq<byte>, j: nat, mode: SignMode, dict: Value, key: Parsed,
                                            e: ParseError)
    requires dict.Dict? && j < |s| && s[j] != End
    requires Parse(s, j, mode) == Ok(key)
    requires ParseValueThenEntries(s, j + key.consumed, mode, dict, key.value) == Err(e)
    ensures ParseEntries(s, j, mode, dict) == Err(e)
  {
  }

  /** The value half of a dictionary pair. */
  lemma {:induction false} ValueStep(s: seq<byte>, j: nat, mode: SignMode, dict: Value, key: Value,
                                     value: Parsed, next: Value, full: Value, n: nat)
    requires dict.Dict? && j <= |s|
    requires Parse(s, j, mode) == Ok(value)
    requires next == AppendDictionary(dict, key, value.value)
    requires ParseEntries(s, j + value.consumed, mode, next) == Ok((full, n))
    ensures ParseValueThenEntries(s, j, mode, dict, key) == Ok((full, value.consumed + n))
  {
  }

  /** A failure after the value is the failure of the whole dictionary. */
  lemma {:induction false} ValueStepFails(s: seq<byte>, j: nat, mode: SignMode, dict: Value, key: Value,
                                          value: Parsed, next: Value, e: ParseError)
    requires dict.Dict? && j <= |s|
    requires Parse(s, j, mode) == Ok(value)
    requires next == AppendDictionary(dict, key, value.value)
    requires ParseEntries(s, j + value.consumed, mode, next) == Err(e)
    ensures ParseValueThenEntries(s, j, mode, dict, key) == Err(e)
  {
  }

  /** The 'l' case hands the bytes after the tag to the list loop. */
  lemma {:induction false} ListFrame(s: seq<byte>, i: nat, mode: SignMode, r: Result<(Value, nat), ParseError>)
    requires i + 2 <= |s| && s[i] == TagList
    requires ParseItems(s, i + 1, mode, List([])) == r
    ensures Parse(s, i, mode)
         == match r case Err(e) => Err(e) case Ok((full, n)) => Ok(Parsed(full, n + 1))
  {
  }

  /** The 'd' case hands the bytes after the tag to the dictionary loop. */
  lemma {:induction false} DictFrame(s: seq<byte>, i: nat, mode: SignMode, r: Result<(Value, nat), ParseError>)
    requires i + 2 <= |s| && s[i] == TagDict
    requires ParseEntries(s, i + 1, mode, Dict([])) == r
    ensures Parse(s, i, mode)
         == match r case Err(e) => Err(e) case Ok((full, n)) => Ok(Parsed(full, n + 1))
  {
  }

  /** Decoding at a position where the canonical encoding of a tree begins
      gives the tree back and consumes exactly the encoding, whatever bytes
      follow. As written this holds only for trees without negative
      integers; with the sign applied it holds for every tree. */
  lemma {:induction false} RoundTrip(v: Value, s: seq<byte>, i: nat, mode: SignMode)
    requires Reproducible(v, mode)
    requires Matches(s, i, Encode(v))
    decreases v, 1
    ensures Parse(s, i, mode) == Ok(Parsed(v, |Encode(v)|))
  {
    hide Parse, ParseItems, ParseEntries, ParseValueThenEntries, Encode, EncodeItems, EncodeEntries, Matches;
    match v
    case Str(b) => StrRoundTrip(b, s, i, mode);
    case Int(n) => IntRoundTrip(n, s, i, mode);
    case List(items) => ListRoundTrip(items, s, i, mode);
    case Dict(es) => DictRoundTrip(es, s, i, mode);
  }

  /** The round trip for a list: its tag, its children, its `e`. */
  lemma {:induction false} ListRoundTrip(items: seq<Value>, s: seq<byte>, i: nat, mode: SignMode)
    requires Reproducible(List(items), mode)
    requires Matches(s, i, Encode(List(items)))
    decreases items, 1
    ensures Parse(s, i, mode) == Ok(Parsed(List(items), |Encode(List(items))|))
  {
    hide Parse, ParseItems, ParseEntries, ParseValueThenEntries, Encode, EncodeItems, EncodeEntries, Matches;
    ListSplit(items, s, i, mode);
    ItemsRoundTrip(items, [], s, i + 1, mode);
    ListClose(items, s, i, mode);
  }

  /** Where a list's encoding begins: the tag, then the body. */
  lemma {:induction false} ListSplit(items: seq<Value>, s: seq<byte>, i: nat, mode: SignMode)
    requires Reproducible(List(items), mode)
    requires Matches(s, i, Encode(List(items)))
    ensures i + 2 <= |s| && s[i] == TagList
    ensures AllReproducible(items, mode)
    ensures Matches(s, i + 1, EncodeItems(items) + [End])
    ensures |Encode(List(items))| == |EncodeItems(items)| + 2
  {
    assert Encode(List(items)) == [TagList] + (EncodeItems(items) + [End]);
    MatchesAppend(s, i, [TagList], EncodeItems(items) + [End]);
  }

  /** The list loop's result, framed by the tag, is the list. */
  lemma {:induction false} ListClose(items: seq<Value>, s: seq<byte>, i: nat, mode: SignMode)
    requires i + 2 <= |s| && s[i] == TagList
    requires |Encode(List(items))| == |EncodeItems(items)| + 2
    requires ParseItems(s, i + 1, mode, List([])) == Ok((List([] + items), |EncodeItems(items)| + 1))
    ensures Parse(s, i, mode) == Ok(Parsed(List(items), |Encode(List(items))|))
  {
    hide Parse, ParseItems, ParseEntries, ParseValueThenEntries, Encode, EncodeItems, EncodeEntries, Matches;
    assert [] + items == items;
    ListFrame(s, i, mode, Ok((List(items), |EncodeItems(items)| + 1)));
  }

  /** The round trip for a dictionary: its tag, its pairs, its `e`. */
  lemma {:induction false} DictRoundTrip(es: seq<Entry>, s: seq<byte>, i: nat, mode: SignMode)
    requires Reproducible(Dict(es), mode)
    requires Matches(s, i, Encode(Dict(es)))
    decreases es, 1
    ensures Parse(s, i, mode) == Ok(Parsed(Dict(es), |Encode(Dict(es))|))
  {
    hide Parse, ParseItems, ParseEntries, ParseValueThenEntries, Encode, EncodeItems, EncodeEntries, Matches;
    DictSplit(es, s, i, mode);
    EntriesRoundTrip(es, [], s, i + 1, mode);
    DictClose(es, s, i, mode);
  }

  /** Where a dictionary's encoding begins: the tag, then the body. */
  lemma {:induction false} DictSplit(es: seq<Entry>, s: seq<byte>, i: nat, mode: SignMode)
    requires Reproducible(Dict(es), mode)
    requires Matches(s, i, Encode(Dict(es)))
    ensures i + 2 <= |s| && s[i] == TagDict
    ensures AllPairsReproducible(es, mode)
    ensures Matches(s, i + 1, EncodeEntries(es) + [End])
    ensures |Encode(Dict(es))| == |EncodeEntries(es)| + 2
  {
    assert Encode(Dict(es)) == [TagDict] + (EncodeEntries(es) + [End]);
    MatchesAppend(s, i, [TagDict], EncodeEntries(es) + [End]);
  }

  /** The dictionary loop's result, framed by the tag, is the dictionary. */
  lemma {:induction false} DictClose(es: seq<Entry>, s: seq<byte>, i: nat, mode: SignMode)
    requires i + 2 <= |s| && s[i] == TagDict
    requires |Encode(Dict(es))| == |EncodeEntries(es)| + 2
    requires ParseEntries(s, i + 1, mode, Dict([])) == Ok((Dict([] + es), |EncodeEntries(es)| + 1))
    ensures Parse(s, i, mode) == Ok(Parsed(Dict(es), |Encode(Dict(es))|))
  {
    hide Parse, ParseItems, ParseEntries, ParseValueThenEntries, Encode, EncodeItems, EncodeEntries, Matches;
    assert [] + es == es;
    DictFrame(s, i, mode, Ok((Dict(es), |EncodeEntries(es)| + 1)));
  }

  /** Every child of a list can be reproduced in the given mode. */
  predicate AllReproducible(items: seq<Value>, mode: SignMode) {
    forall k | 0 <= k < |items| :: Reproducible(items[k], mode)
  }

  /** Where the first child's encoding ends and the rest of the list's
      begins. */
  lemma {:induction false} ItemsSplit(items: seq<Value>, s: seq<byte>, j: nat, mode: SignMode)
    requires |items| > 0 && AllReproducible(items, mode)
    requires Matches(s, j, EncodeItems(items) + [End])
    ensures Reproducible(items[0], mode) && AllReproducible(items[1..], mode)
    ensures Matches(s, j, Encode(items[0]))
    ensures Matches(s, j + |Encode(items[0])|, EncodeItems(items[1..]) + [End])
    ensures |EncodeItems(items)| == |Encode(items[0])| + |EncodeItems(items[1..])|
  {
    hide Parse, ParseItems, ParseEntries, ParseValueThenEntries, Matches, Encode, Reproducible;
    assert EncodeItems(items) + [End] == Encode(items[0]) + (EncodeItems(items[1..]) + [End]);
    MatchesAppend(s, j, Encode(items[0]), EncodeItems(items[1..]) + [End]);
    assert forall k | 0 <= k < |items[1..]| :: items[1..][k] == items[k + 1];
  }

  /** The closing 'e' of a list. */
  lemma {:induction false} ItemsEnd(s: seq<byte>, j: nat, mode: SignMode, acc: seq<Value>)
    requires Matches(s, j, EncodeItems([]) + [End])
    ensures ParseItems(s, j, mode, List(acc)) == Ok((List(acc + []), |EncodeItems([])| + 1))
  {
    assert s[j] == End;
    assert acc + [] == acc;
  }

  /** The list loop reads a body of encoded children and the closing 'e'. */
  lemma {:induction false} ItemsRoundTrip(items: seq<Value>, acc: seq<Value>, s: seq<byte>, j: nat, mode: SignMode)
    requires AllReproducible(items, mode)
    requires Matches(s, j, EncodeItems(items) + [End])
    decreases items, 0, 2
    ensures ParseItems(s, j, mode, List(acc)) == Ok((List(acc + items), |EncodeItems(items)| + 1))
  {
    hide Parse, ParseItems, ParseEntries, ParseValueThenEntries, Encode, EncodeItems, EncodeEntries, Matches;
    if |items| == 0 {
      ItemsEnd(s, j, mode, acc);
    } else {
      ItemsCons(items, acc, s, j, mode);
    }
  }

  /** A non-empty list body: its first child, then the rest. */
  lemma {:induction false} ItemsCons(items: seq<Value>, acc: seq<Value>, s: seq<byte>, j: nat, mode: SignMode)
    requires |items| > 0 && AllReproducible(items, mode)
    requires Matches(s, j, EncodeItems(items) + [End])
    decreases items, 0, 1
    ensures ParseItems(s, j, mode, List(acc)) == Ok((List(acc + items), |EncodeItems(items)| + 1))
  {
    hide Parse, ParseItems, ParseEntries, ParseValueThenEntries, Encode, EncodeItems, EncodeEntries, Matches;
    FirstChildRoundTrip(items, s, j, mode);
    OtherChildrenRoundTrip(items, acc, s, j, mode);
    ItemsCombine(items, acc, s, j, mode, |Encode(items[0])|, |EncodeItems(items[1..])|, |EncodeItems(items)|);
  }

  /** The first child of a list body is decoded from where the body starts. */
  lemma {:induction false} FirstChildRoundTrip(items: seq<Value>, s: seq<byte>, j: nat, mode: SignMode)
    requires |items| > 0 && AllReproducible(items, mode)
    requires Matches(s, j, EncodeItems(items) + [End])
    decreases items, 0, 0
    ensures j + |Encode(items[0])| <= |s|
    ensures Parse(s, j, mode) == Ok(Parsed(items[0], |Encode(items[0])|))
    ensures |EncodeItems(items)| == |Encode(items[0])| + |EncodeItems(items[1..])|
  {
    hide Parse, ParseItems, ParseEntries, ParseValueThenEntries, Encode, EncodeItems, EncodeEntries, Matches;
    ItemsSplit(items, s, j, mode);
    RoundTrip(items[0], s, j, mode);
  }

  /** The other children, and the closing 'e', are decoded from where the
      first child's encoding ends. */
  lemma {:induction false} OtherChildrenRoundTrip(items: seq<Value>, acc: seq<Value>, s: seq<byte>, j: nat, mode: SignMode)
    requires |items| > 0 && AllReproducible(items, mode)
    requires Matches(s, j, EncodeItems(items) + [End])
    decreases items, 0, 0
    ensures j + |Encode(items[0])| <= |s|
    ensures ParseItems(s, j + |Encode(items[0])|, mode, List(acc + [items[0]]))
         == Ok((List(acc + [items[0]] + items[1..]), |EncodeItems(items[1..])| + 1))
  {
    hide Parse, ParseItems, ParseEntries, ParseValueThenEntries, Encode, EncodeItems, EncodeEntries, Matches;
    ItemsSplit(items, s, j, mode);
    ItemsRoundTrip(items[1..], acc + [items[0]], s, j + |Encode(items[0])|, mode);
  }

  /** A decoded first child followed by the decoded rest of the list is the
      whole list: `c` and `n` are the lengths of the child and of the rest,
      `total` that of the whole body. */
  lemma {:induction false} ItemsCombine(items: seq<Value>, acc: seq<Value>, s: seq<byte>, j: nat, mode: SignMode,
                                        c: nat, n: nat, total: nat)
    requires |items| > 0 && total == c + n && j <= |s|
    requires Parse(s, j, mode) == Ok(Parsed(items[0], c))
    requires ParseItems(s, j + c, mode, List(acc + [items[0]])) == Ok((List(acc + [items[0]] + items[1..]), n + 1))
    ensures ParseItems(s, j, mode, List(acc)) == Ok((List(acc + items), total + 1))
  {
    hide Parse, ParseItems, ParseEntries, ParseValueThenEntries, Encode, EncodeItems, EncodeEntries, Matches;
    ShiftHead(acc, items);
    ItemsStep(s, j, mode, List(acc), Parsed(items[0], c), List(acc + [items[0]]), List(acc + items), n + 1);
  }

  /** A child encoded at the loop's position is decoded and appended; a
      failure after it is the failure of the whole list. */
  lemma {:induction false} ChildThenItemsFail(x: Value, acc: seq<Value>, s: seq<byte>, j: nat, mode: SignMode,
                                              e: ParseError)
    requires Reproducible(x, mode)
    requires Matches(s, j, Encode(x))
    requires ParseItems(s, j + |Encode(x)|, mode, List(acc + [x])) == Err(e)
    ensures ParseItems(s, j, mode, List(acc)) == Err(e)
  {
    hide Parse, ParseItems, ParseEntries, ParseValueThenEntries, Encode, EncodeItems, EncodeEntries, Matches;
    RoundTrip(x, s, j, mode);
    ItemsStepFails(s, j, mode, List(acc), Parsed(x, |Encode(x)|), List(acc + [x]), e);
  }

  /** Every key and value of a dictionary can be reproduced in the given mode. */
  predicate AllPairsReproducible(es: seq<Entry>, mode: SignMode) {
    forall k | 0 <= k < |es| :: Reproducible(es[k].key, mode) && Reproducible(es[k].value, mode)
  }

  /** Where the first pair's key and value end and the rest of the
      dictionary begins. */
  lemma {:induction false} EntriesSplit(es: seq<Entry>, s: seq<byte>, j: nat, mode: SignMode)
    requires |es| > 0 && AllPairsReproducible(es, mode)
    requires Matches(s, j, EncodeEntries(es) + [End])
    ensures Reproducible(es[0].key, mode) && Reproducible(es[0].value, mode)
    ensures AllPairsReproducible(es[1..], mode)
    ensures Matches(s, j, Encode(es[0].key))
    ensures Matches(s, j + |Encode(es[0].key)|, Encode(es[0].value))
    ensures Matches(s, j + |Encode(es[0].key)| + |Encode(es[0].value)|, EncodeEntries(es[1..]) + [End])
    ensures |EncodeEntries(es)| == |Encode(es[0].key)| + |Encode(es[0].value)| + |EncodeEntries(es[1..])|
  {
    hide Parse, ParseItems, ParseEntries, ParseValueThenEntries, Matches, Encode, EncodeEntries, Reproducible;
    var e := es[0];
    var after := EncodeEntries(es[1..]) + [End];
    EntriesBytes(es);
    PairsTail(es, mode);
    MatchesAppend(s, j, Encode(e.key), Encode(e.value) + after);
    MatchesAppend(s, j + |Encode(e.key)|, Encode(e.value), after);
  }

  /** A dictionary body is its first pair's key and value, then the rest. */
  lemma EntriesBytes(es: seq<Entry>)
    requires |es| > 0
    ensures EncodeEntries(es) + [End]
         == Encode(es[0].key) + (Encode(es[0].value) + (EncodeEntries(es[1..]) + [End]))
    ensures |EncodeEntries(es)| == |Encode(es[0].key)| + |Encode(es[0].value)| + |EncodeEntries(es[1..])|
  {
    hide Parse, ParseItems, ParseEntries, ParseValueThenEntries, Matches, Encode;
  }

  /** The pairs after the first stay reproducible. */
  lemma PairsTail(es: seq<Entry>, mode: SignMode)
    requires |es| > 0 && AllPairsReproducible(es, mode)
    ensures Reproducible(es[0].key, mode) && Reproducible(es[0].value, mode)
    ensures AllPairsReproducible(es[1..], mode)
  {
    hide Parse, ParseItems, ParseEntries, ParseValueThenEntries, Matches, Encode, EncodeEntries, Reproducible;
    assert forall k | 0 <= k < |es[1..]| :: es[1..][k] == es[k + 1];
  }

  /** The closing 'e' of a dictionary. */
  lemma {:induction false} EntriesEnd(s: seq<byte>, j: nat, mode: SignMode, acc: seq<Entry>)
    requires Matches(s, j, EncodeEntries([]) + [End])
    ensures ParseEntries(s, j, mode, Dict(acc)) == Ok((Dict(acc + []), |EncodeEntries([])| + 1))
  {
    assert s[j] == End;
    assert acc + [] == acc;
  }

  /** The dictionary loop reads a body of encoded pairs and the closing 'e'. */
  lemma {:induction false} EntriesRoundTrip(es: seq<Entry>, acc: seq<Entry>, s: seq<byte>, j: nat, mode: SignMode)
    requires AllPairsReproducible(es, mode)
    requires Matches(s, j, EncodeEntries(es) + [End])
    decreases es, 0, 2
    ensures ParseEntries(s, j, mode, Dict(acc)) == Ok((Dict(acc + es), |EncodeEntries(es)| + 1))
  {
    hide Parse, ParseItems, ParseEntries, ParseValueThenEntries, Encode, EncodeItems, EncodeEntries, Matches;
    if |es| == 0 {
      EntriesEnd(s, j, mode, acc);
    } else {
      EntriesCons(es, acc, s, j, mode);
    }
  }

  /** A non-empty dictionary body: its first pair, then the rest. */
  lemma {:induction false} EntriesCons(es: seq<Entry>, acc: seq<Entry>, s: seq<byte>, j: nat, mode: SignMode)
    requires |es| > 0 && AllPairsReproducible(es, mode)
    requires Matches(s, j, EncodeEntries(es) + [End])
    decreases es, 0, 1
    ensures ParseEntries(s, j, mode, Dict(acc)) == Ok((Dict(acc + es), |EncodeEntries(es)| + 1))
  {
    hide Parse, ParseItems, ParseEntries, ParseValueThenEntries, Encode, EncodeItems, EncodeEntries, Matches;
    FirstPairRoundTrip(es, s, j, mode);
    OtherPairsRoundTrip(es, acc, s, j, mode);
    EntriesCombine(es, acc, s, j, mode, |Encode(es[0].key)|, |Encode(es[0].value)|,
                   |EncodeEntries(es[1..])|, |EncodeEntries(es)|);
  }

  /** The first key and value of a dictionary body are decoded from where
      the body starts. */
  lemma {:induction false} FirstPairRoundTrip(es: seq<Entry>, s: seq<byte>, j: nat, mode: SignMode)
    requires |es| > 0 && AllPairsReproducible(es, mode)
    requires Matches(s, j, EncodeEntries(es) + [End])
    decreases es, 0, 0
    ensures j + |Encode(es[0].key)| + |Encode(es[0].value)| <= |s|
    ensures Parse(s, j, mode) == Ok(Parsed(es[0].key, |Encode(es[0].key)|))
    ensures Parse(s, j + |Encode(es[0].key)|, mode) == Ok(Parsed(es[0].value, |Encode(es[0].value)|))
    ensures |EncodeEntries(es)| == |Encode(es[0].key)| + |Encode(es[0].value)| + |EncodeEntries(es[1..])|
  {
    hide Parse, ParseItems, ParseEntries, ParseValueThenEntries, Encode, EncodeItems, EncodeEntries, Matches;
    EntriesSplit(es, s, j, mode);
    EntryRoundTrip(es[0], s, j, mode);
  }

  /** The other pairs, and the closing 'e', are decoded from where the
      first pair's encoding ends. */
  lemma {:induction false} OtherPairsRoundTrip(es: seq<Entry>, acc: seq<Entry>, s: seq<byte>, j: nat, mode: SignMode)
    requires |es| > 0 && AllPairsReproducible(es, mode)
    requires Matches(s, j, EncodeEntries(es) + [End])
    decreases es, 0, 0
    ensures j + |Encode(es[0].key)| + |Encode(es[0].value)| <= |s|
    ensures ParseEntries(s, j + |Encode(es[0].key)| + |Encode(es[0].value)|, mode, Dict(acc + [es[0]]))
         == Ok((Dict(acc + [es[0]] + es[1..]), |EncodeEntries(es[1..])| + 1))
  {
    hide Parse, ParseItems, ParseEntries, ParseValueThenEntries, Encode, EncodeItems, EncodeEntries, Matches;
    EntriesSplit(es, s, j, mode);
    EntriesRoundTrip(es[1..], acc + [es[0]], s, j + |Encode(es[0].key)| + |Encode(es[0].value)|, mode);
  }

  /** The first pair, decoded, followed by the rest of the dictionary,
      decoded, is the whole dictionary: `a`, `b` and `c` are the lengths of
      the key, the value and the rest, `total` that of the whole body. */
  lemma {:induction false} EntriesCombine(es: seq<Entry>, acc: seq<Entry>, s: seq<byte>, j: nat, mode: SignMode,
                                          a: nat, b: nat, c: nat, total: nat)
    requires |es| > 0
    requires total == a + b + c
    requires j + a + b <= |s|
    requires Parse(s, j, mode) == Ok(Parsed(es[0].key, a))
    requires Parse(s, j + a, mode) == Ok(Parsed(es[0].value, b))
    requires ParseEntries(s, j + a + b, mode, Dict(acc + [es[0]])) == Ok((Dict(acc + [es[0]] + es[1..]), c + 1))
    ensures ParseEntries(s, j, mode, Dict(acc)) == Ok((Dict(acc + es), total + 1))
  {
    hide Parse, ParseItems, ParseEntries, ParseValueThenEntries, Encode, EncodeItems, EncodeEntries, Matches;
    var e := es[0];
    ShiftHead(acc, es);
    ValueStep(s, j + a, mode, Dict(acc), e.key, Parsed(e.value, b), Dict(acc + [e]), Dict(acc + es), c + 1);
    EntriesStep(s, j, mode, Dict(acc), Parsed(e.key, a), Dict(acc + es), b + (c + 1));
  }

  /** A key and its value encoded at the loop's position are decoded and
      appended; a failure after them is the failure of the whole
      dictionary. */
  lemma {:induction false} PairThenEntriesFail(e: Entry, acc: seq<Entry>, s: seq<byte>, j: nat, mode: SignMode,
                                               err: ParseError)
    requires Reproducible(e.key, mode) && Reproducible(e.value, mode)
    requires Matches(s, j, Encode(e.key))
    requires Matches(s, j + |Encode(e.key)|, Encode(e.value))
    requires ParseEntries(s, j + |Encode(e.key)| + |Encode(e.value)|, mode, Dict(acc + [e])) == Err(err)
    ensures ParseEntries(s, j, mode, Dict(acc)) == Err(err)
  {
    hide Parse, ParseItems, ParseEntries, ParseValueThenEntries, Encode, EncodeItems, EncodeEntries, Matches;
    var a, b := |Encode(e.key)|, |Encode(e.value)|;
    EntryRoundTrip(e, s, j, mode);
    ValueStepFails(s, j + a, mode, Dict(acc), e.key, Parsed(e.value, b), Dict(acc + [e]), err);
    EntriesStepFails(s, j, mode, Dict(acc), Parsed(e.key, a), err);
  }

  /** Both halves of a pair whose encodings follow each other. */
  lemma {:induction false} EntryRoundTrip(e: Entry, s: seq<byte>, j: nat, mode: SignMode)
    requires Reproducible(e.key, mode) && Reproducible(e.value, mode)
    requires Matches(s, j, Encode(e.key))
    requires Matches(s, j + |Encode(e.key)|, Encode(e.value))
    decreases e, 1
    ensures Parse(s, j, mode) == Ok(Parsed(e.key, |Encode(e.key)|))
    ensures Parse(s, j + |Encode(e.key)|, mode) == Ok(Parsed(e.value, |Encode(e.value)|))
  {
    hide Parse, ParseItems, ParseEntries, ParseValueThenEntries, Encode, EncodeItems, EncodeEntries, Matches;
    RoundTrip(e.key, s, j, mode);
    RoundTrip(e.value, s, j + |Encode(e.key)|, mode);
  }

  /** The round trip with the bytes that follow spelled out. */
  lemma {:induction false} RoundTripWithRest(v: Value, rest: seq<byte>, mode: SignMode)
    requires Reproducible(v, mode)
    ensures Parse(Encode(v) + rest, 0, mode) == Ok(Parsed(v, |Encode(v)|))
  {
    hide Parse, ParseItems, ParseEntries, ParseValueThenEntries, Encode, EncodeItems, EncodeEntries, Matches;
    var s := Encode(v) + rest;
    assert s[0..|Encode(v)|] == Encode(v);
    MatchesSlice(s, 0, Encode(v));
    RoundTrip(v, s, 0, mode);
  }

  /** Decoding a whole buffer that holds one canonical encoding. */
  lemma {:induction false} DecodeEncoded(v: Value)
    requires NonNegative(v)
    ensures ParseMemory(Encode(v)) == Ok(Parsed(v, |Encode(v)|))
  {
    hide Parse, ParseItems, ParseEntries, ParseValueThenEntries, Encode, EncodeItems, EncodeEntries, Matches;
    assert Encode(v)[0..|Encode(v)|] == Encode(v);
    MatchesSlice(Encode(v), 0, Encode(v));
    RoundTrip(v, Encode(v), 0, DropSign);
  }

  /** A list whose closing 'e' is missing is rejected once the buffer runs
      out, however many complete children it holds. */
  lemma {:induction false} ItemsUnterminated(items: seq<Value>, acc: seq<Value>, s: seq<byte>, j: nat, mode: SignMode)
    requires AllReproducible(items, mode)
    requires Matches(s, j, EncodeItems(items)) && j + |EncodeItems(items)| == |s|
    decreases items
    ensures ParseItems(s, j, mode, List(acc)) == Err(UnterminatedList)
  {
    hide Parse, ParseItems, ParseEntries, ParseValueThenEntries, Encode, Matches;
    if |items| > 0 {
      var x, rest := items[0], items[1..];
      assert EncodeItems(items) == Encode(x) + EncodeItems(rest);
      MatchesAppend(s, j, Encode(x), EncodeItems(rest));
      assert AllReproducible(rest, mode) by {
        assert forall k | 0 <= k < |rest| :: rest[k] == items[k + 1];
      }
      ItemsUnterminated(rest, acc + [x], s, j + |Encode(x)|, mode);
      ChildThenItemsFail(x, acc, s, j, mode, UnterminatedList);
    } else {
      ItemsRunOut(s, mode, List(acc));
    }
  }

  /** A dictionary whose closing 'e' is missing is rejected once the
      buffer runs out, however many complete pairs it holds. */
  lemma {:induction false} EntriesUnterminated(es: seq<Entry>, acc: seq<Entry>, s: seq<byte>, j: nat, mode: SignMode)
    requires AllPairsReproducible(es, mode)
    requires Matches(s, j, EncodeEntries(es)) && j + |EncodeEntries(es)| == |s|
    decreases es
    ensures ParseEntries(s, j, mode, Dict(acc)) == Err(UnterminatedDictionary)
  {
    hide Parse, ParseItems, ParseEntries, ParseValueThenEntries, Encode, Matches;
    if |es| > 0 {
      var e, rest := es[0], es[1..];
      var a, b := |Encode(e.key)|, |Encode(e.value)|;
      assert EncodeEntries(es) == Encode(e.key) + (Encode(e.value) + EncodeEntries(rest));
      MatchesAppend(s, j, Encode(e.key), Encode(e.value) + EncodeEntries(rest));
      MatchesAppend(s, j + a, Encode(e.value), EncodeEntries(rest));
      assert AllPairsReproducible(rest, mode) by {
        assert forall k | 0 <= k < |rest| :: rest[k] == es[k + 1];
      }
      EntriesUnterminated(rest, acc + [e], s, j + a + b, mode);
      PairThenEntriesFail(e, acc, s, j, mode, UnterminatedDictionary);
    } else {
      EntriesRunOut(s, mode, Dict(acc));
    }
  }

  /** The list loop reaching the end of the buffer. */
  lemma ItemsRunOut(s: seq<byte>, mode: SignMode, list: Value)
    requires list.List?
    ensures ParseItems(s, |s|, mode, list) == Err(UnterminatedList)
  {
  }

  /** The dictionary loop reaching the end of the buffer. */
  lemma EntriesRunOut(s: seq<byte>, mode: SignMode, dict: Value)
    requires dict.Dict?
    ensures ParseEntries(s, |s|, mode, dict) == Err(UnterminatedDictionary)
  {
  }

  /** The list form: `l` followed by complete children and no `e`. */
  lemma {:induction false} ListWithoutEnd(items: seq<Value>, mode: SignMode)
    requires AllReproducible(items, mode)
    requires |items| > 0
    ensures Parse([TagList] + EncodeItems(items), 0, mode) == Err(UnterminatedList)
  {
    hide Parse, ParseItems, ParseEntries, ParseValueThenEntries, Encode, Matches;
    var s := [TagList] + EncodeItems(items);
    assert s[1..1 + |EncodeItems(items)|] == EncodeItems(items);
    MatchesSlice(s, 1, EncodeItems(items));
    assert |Encode(items[0])| >= 2;
    ItemsUnterminated(items, [], s, 1, mode);
    ListFrame(s, 0, mode, Err(UnterminatedList));
  }

  /** The dictionary form: `d` followed by complete pairs and no `e`. */
  lemma {:induction false} DictWithoutEnd(es: seq<Entry>, mode: SignMode)
    requires AllPairsReproducible(es, mode)
    requires |es| > 0
    ensures Parse([TagDict] + EncodeEntries(es), 0, mode) == Err(UnterminatedDictionary)
  {
    hide Parse, ParseItems, ParseEntries, ParseValueThenEntries, Encode, Matches;
    var s := [TagDict] + EncodeEntries(es);
    assert s[1..1 + |EncodeEntries(es)|] == EncodeEntries(es);
    MatchesSlice(s, 1, EncodeEntries(es));
    assert |Encode(es[0].key)| >= 2;
    EntriesUnterminated(es, [], s, 1, mode);
    DictFrame(s, 0, mode, Err(UnterminatedDictionary));
  }

  /** Appending a child to a list extends its encoding by the child's
      encoding just before the closing `e`. */
  lemma {:induction false} EncodeItemsSnoc(items: seq<Value>, x: Value)
    ensures EncodeItems(items + [x]) == EncodeItems(items) + Encode(x)
  {
    if |items| == 0 {
      assert items + [x] == [x];
      assert EncodeItems([x]) == Encode(x) + EncodeItems([]);
    } else {
      assert (items + [x])[1..] == items[1..] + [x];
      EncodeItemsSnoc(items[1..], x);
    }
  }

  /** Appending a pair to a dictionary extends its encoding by the pair's
      encoding just before the closing `e`. */
  lemma {:induction false} EncodeEntriesSnoc(es: seq<Entry>, e: Entry)
    ensures EncodeEntries(es + [e]) == EncodeEntries(es) + EncodeEntry(e)
  {
    if |es| == 0 {
      assert es + [e] == [e];
      assert EncodeEntries([e]) == EncodeEntry(e) + EncodeEntries([]);
    } else {
      assert (es + [e])[1..] == es[1..] + [e];
      EncodeEntriesSnoc(es[1..], e);
    }
  }

  /** `benc_append_list` as seen by the encoder. */
  lemma {:induction false} EncodeAppendList(items: seq<Value>, x: Value)
    ensures Encode(AppendList(List(items), x))
         == [TagList] + EncodeItems(items) + Encode(x) + [End]
  {
    EncodeItemsSnoc(items, x);
  }

  /** `benc_append_dictionary` as seen by the encoder. */
  lemma {:induction false} EncodeAppendDictionary(es: seq<Entry>, k: Value, v: Value)
    ensures Encode(AppendDictionary(Dict(es), k, v))
         == [TagDict] + EncodeEntries(es) + Encode(k) + Encode(v) + [End]
  {
    EncodeEntriesSnoc(es, Entry(k, v));
  }

  /** A tree decoded with the sign applied from canonical bytes hashes like
      those bytes: the info hash of a torrent whose info dictionary is
      already canonical is the digest of the info bytes as they appear in
      the file. */
  lemma {:induction false} InfoHashOfDecoded(sha1: seq<byte> -> seq<byte>, v: Value)
    ensures Decode(Encode(v)).Ok?
    ensures InfoHash(sha1, Decode(Encode(v)).value.value) == sha1(Encode(v))
  {
    SignedRoundTrip(v);
  }

  /** The same for the decoder as written, which keeps it only while no
      integer is negative. */
  lemma {:induction false} InfoHashOfParsed(sha1: seq<byte> -> seq<byte>, v: Value)
    requires NonNegative(v)
    ensures ParseMemory(Encode(v)).Ok?
    ensures InfoHash(sha1, ParseMemory(Encode(v)).value.value) == sha1(Encode(v))
  {
    DecodeEncoded(v);
  }

  /** The length of `i%llde`: the tag, the sign, the digits and `e`. */
  lemma EncodeIntLength(n: int)
    ensures |Encode(Int(n))| == (if n < 0 then 3 + |Digits(-n)| else 2 + |Digits(n)|)
  {
  }

  /** As written, an integer's text fits the 16-byte buffer exactly when it
      lies strictly between -10^12 and 10^13. */
  lemma HashedIntegerRange(n: int)
    ensures HashedIntegerText(n).Some? <==> -(Pow10(12) as int) < n < Pow10(13)
  {
    hide HashedIntegerText, Encode, Digits, Pow10;
    EncodeIntLength(n);
    if n < 0 {
      DigitsLength(-n, 12);
    } else {
      DigitsLength(n, 13);
    }
  }

  /** A ten-terabyte file length, 10^13 bytes, is already too long: its text
      `i10000000000000e` and the NUL take 17 bytes. One less still fits. */
  lemma HashedIntegerOverflow()
    ensures Pow10(13) == 10000000000000
    ensures HashedIntegerText(10000000000000).None?
    ensures |Encode(Int(10000000000000))| + 1 == 17
    ensures HashedIntegerText(9999999999999) == Some(Encode(Int(9999999999999)))
  {
    hide HashedIntegerText, Encode, Digits, Pow10;
    Pow10Values();
    EncodeIntLength(10000000000000);
    HashedIntegerRange(10000000000000);
    HashedIntegerRange(9999999999999);
    DigitsLength(10000000000000, 14);
    DigitsLength(10000000000000, 13);
  }

  /** The largest `i%llde` text of a C `long long` is that of -2^63:
      `i`, `-`, 19 digits and `e`. With its NUL it needs 23 bytes, so a
      buffer of that size holds the text of every integer the decoder
      stores, and the stream hashed is the canonical encoding `Encode`. */
  lemma LongLongTextFits(n: int)
    requires -0x8000_0000_0000_0000 <= n < 0x8000_0000_0000_0000
    ensures |Encode(Int(n))| + 1 <= 23
  {
    hide Encode, Digits, Pow10;
    Pow10Values();
    EncodeIntLength(n);
    if n < 0 {
      DigitsLength(-n, 19);
    } else {
      DigitsLength(n, 19);
    }
  }

  /** The dictionary of the example in BEP 3. */
  function ExampleDictionary(): Value {
    Dict([Entry(Str(Of("cow")), Str(Of("moo"))), Entry(Str(Of("spam")), Str(Of("eggs")))])
  }

  /** The encodings of the example's four strings. */
  lemma {:induction false} ExampleStrings()
    ensures Encode(Str(Of("cow"))) == Of("3:cow")
    ensures Encode(Str(Of("moo"))) == Of("3:moo")
    ensures Encode(Str(Of("spam"))) == Of("4:spam")
    ensures Encode(Str(Of("eggs"))) == Of("4:eggs")
  {
    assert Digits(3) == Of("3");
    assert Digits(4) == Of("4");
  }

  /** The example's bytes, cut where its strings begin and end. */
  lemma {:induction false} ExampleBytes()
    ensures Of("d3:cow3:moo4:spam4:eggse")
         == [TagDict] + Of("3:cow") + Of("3:moo") + Of("4:spam") + Of("4:eggs") + [End]
  {
  }

  /** Its canonical encoding is the example's bytes. */
  lemma {:induction false} ExampleEncoding()
    ensures Encode(ExampleDictionary()) == Of("d3:cow3:moo4:spam4:eggse")
  {
    var es := ExampleDictionary().entries;
    var k0, v0, k1, v1 := es[0].key, es[0].value, es[1].key, es[1].value;
    assert es[1..][1..] == [];
    assert EncodeEntries(es) == Encode(k0) + Encode(v0) + (Encode(k1) + Encode(v1) + []);
    Regroup(TagDict, Encode(k0), Encode(v0), Encode(k1), Encode(v1), End);
    ExampleStrings();
    ExampleBytes();
  }

  /** Concatenation regrouped. */
  lemma {:induction false} Regroup(x: byte, a: seq<byte>, b: seq<byte>, c: seq<byte>, d: seq<byte>, y: byte)
    ensures [x] + (a + b + (c + d + [])) + [y] == [x] + a + b + c + d + [y]
  {
    assert c + d + [] == c + d;
  }

  /** The example of BEP 3: `d3:cow3:moo4:spam4:eggse`. */
  lemma {:induction false} DictionaryVector()
    ensures ParseMemory(Of("d3:cow3:moo4:spam4:eggse")) == Ok(Parsed(ExampleDictionary(), 24))
  {
    ExampleEncoding();
    var es := ExampleDictionary().entries;
    assert NonNegative(es[0].key) && NonNegative(es[0].value);
    assert NonNegative(es[1].key) && NonNegative(es[1].value);
    DecodeEncoded(ExampleDictionary());
  }

  /** The sign defect as written: `i-5e` decodes to 5, so the integer -5 does
      not survive a round trip through the decoder benc.c links. */
  lemma {:induction false} NegativeIntegerLosesSign()
    ensures Encode(Int(-5)) == Of("i-5e")
    ensures ParseMemory(Of("i-5e")) == Ok(Parsed(Int(5), 4))
    ensures ParseMemory(Encode(Int(-5))) != Ok(Parsed(Int(-5), |Encode(Int(-5))|))
  {
    var s := Of("i-5e");
    assert Digits(5) == Of("5");
    assert Encode(Int(-5)) == s;
    assert s[2..3] == Of("5");
    MatchesSlice(s, 2, Of("5"));
    DecimalOfNegativeNumeral(Of("5"), s, 1);
    IntegerFramed(s, 0, DropSign, DecimalRead(true, 5, 2));
  }

  /** With the sign applied, the same bytes give -5 back. */
  lemma {:induction false} NegativeIntegerCorrected()
    ensures Decode(Of("i-5e")) == Ok(Parsed(Int(-5), 4))
  {
    var s := Of("i-5e");
    assert Digits(5) == Of("5");
    assert Encode(Int(-5)) == s;
    assert s[0..|s|] == s;
    MatchesSlice(s, 0, s);
    IntRoundTrip(-5, s, 0, ApplySign);
  }

  /** The corrected decoder gives back every tree from its canonical
      encoding, negative integers included. */
  lemma {:induction false} SignedRoundTrip(v: Value)
    ensures Decode(Encode(v)) == Ok(Parsed(v, |Encode(v)|))
  {
    RoundTripWithRest(v, [], ApplySign);
    assert Encode(v) + [] == Encode(v);
  }
}

=== FILE: bytes.dfy ===
/** Bytes, C strings and the small search primitives (`strchr`, `strrchr`,
    `strstr`, `strncmp` against a literal) that the tool's C code relies on. */
module Bytes {
  import opened Wrappers

  /** One octet of a buffer. */
  type byte = x: int | 0 <= x < 256

  /** The bytes of an ASCII literal. */
  function Of(s: string): (r: seq<byte>)
    requires forall i | 0 <= i < |s| :: s[i] as int < 128
    ensures |r| == |s|
    ensures forall i | 0 <= i < |s| :: r[i] == s[i] as int
  {
    seq(|s|, i requires 0 <= i < |s| => s[i] as int as byte)
  }

  const Nul: byte := 0
  const Space: byte := 32
  const Slash: byte := 47
  const Colon: byte := 58
  const Percent: byte := 37
  const Plus: byte := 43
  const Minus: byte := 45
  const Amp: byte := 38
  const Equals: byte := 61
  const At: byte := 64

  /** `p` appears in `s` at position `i`, compared byte by byte (a
      `memcmp`/`strncmp` of `|p|` bytes against bytes that contain no NUL). */
  predicate Matches(s: seq<byte>, i: nat, p: seq<byte>)
    decreases |p|
  {
    i + |p| <= |s| && (|p| == 0 || (s[i] == p[0] && Matches(s, i + 1, p[1..])))
  }

  /** The byte-by-byte comparison agrees with comparing the slice whole. */
  lemma {:induction false} MatchesSlice(s: seq<byte>, i: nat, p: seq<byte>)
    decreases |p|
    ensures Matches(s, i, p) <==> i + |p| <= |s| && s[i..i + |p|] == p
  {
    if |p| > 0 && i + |p| <= |s| {
      MatchesSlice(s, i + 1, p[1..]);
      assert s[i..i + |p|] == [s[i]] + s[i + 1..i + 1 + |p[1..]|];
      assert p == [p[0]] + p[1..];
    }
  }

  /** A one-byte pattern is a comparison of one byte. */
  lemma MatchesByte(s: seq<byte>, i: nat, x: byte)
    ensures Matches(s, i, [x]) <==> i < |s| && s[i] == x
  {
    assert [x][1..] == [];
  }

  /** `a + b` appears at `i` exactly when `a` does and `b` follows it. */
  lemma {:induction false} MatchesAppend(s: seq<byte>, i: nat, a: seq<byte>, b: seq<byte>)
    ensures Matches(s, i, a + b) <==> Matches(s, i, a) && Matches(s, i + |a|, b)
  {
    MatchesSlice(s, i, a + b);
    MatchesSlice(s, i, a);
    MatchesSlice(s, i + |a|, b);
    if i + |a| + |b| <= |s| {
      var w := s[i..i + |a| + |b|];
      assert w[..|a|] == s[i..i + |a|];
      assert w[|a|..] == s[i + |a|..i + |a| + |b|];
      assert (a + b)[..|a|] == a && (a + b)[|a|..] == b;
      if s[i..i + |a|] == a && s[i + |a|..i + |a| + |b|] == b {
        assert w == w[..|a|] + w[|a|..];
      }
    }
  }

  /** The bytes a C string function sees: everything before the first NUL. */
  function CStr(s: seq<byte>): (r: seq<byte>)
    ensures |r| <= |s| && r == s[..|r|]
    ensures forall i | 0 <= i < |r| :: r[i] != Nul
    ensures |r| < |s| ==> s[|r|] == Nul
  {
    if |s| == 0 || s[0] == Nul then [] else [s[0]] + CStr(s[1..])
  }

  /** `s` holds no NUL byte, so a C string function sees all of it. */
  predicate NoNul(s: seq<byte>) {
    forall i | 0 <= i < |s| :: s[i] != Nul
  }

  /** A NUL-free prefix is seen whole, and the scan carries on into what
      follows it. */
  lemma {:induction false} CStrAppend(a: seq<byte>, b: seq<byte>)
    requires NoNul(a)
    ensures CStr(a + b) == a + CStr(b)
  {
    if |a| > 0 {
      assert (a + b)[1..] == a[1..] + b;
      CStrAppend(a[1..], b);
      assert a == [a[0]] + a[1..];
    } else {
      assert a + b == b;
    }
  }

  /** `strchr`: the position of the first `b` in `s`. */
  function IndexOf(s: seq<byte>, b: byte): (r: Option<nat>)
    ensures r.Some? ==> r.value < |s| && s[r.value] == b
    ensures r.Some? ==> forall j | 0 <= j < r.value :: s[j] != b
    ensures r.None? <==> forall j | 0 <= j < |s| :: s[j] != b
  {
    if |s| == 0 then None
    else if s[0] == b then Some(0)
    else match IndexOf(s[1..], b)
      case None => None
      case Some(i) => Some(i + 1)
  }

  /** `strrchr`: the position of the last `b` in `s`. */
  function LastIndexOf(s: seq<byte>, b: byte): (r: Option<nat>)
    ensures r.Some? ==> r.value < |s| && s[r.value] == b
    ensures r.Some? ==> forall j | r.value < j < |s| :: s[j] != b
    ensures r.None? <==> forall j | 0 <= j < |s| :: s[j] != b
  {
    if |s| == 0 then None
    else if s[|s| - 1] == b then Some(|s| - 1)
    else LastIndexOf(s[..|s| - 1], b)
  }

  /** A `b` at `k` with none before it is the one `strchr` finds. */
  lemma IndexOfAt(s: seq<byte>, b: byte, k: nat)
    requires k < |s| && s[k] == b
    requires forall j | 0 <= j < k :: s[j] != b
    ensures IndexOf(s, b) == Some(k)
  {
    var r := IndexOf(s, b);
    assert r.Some?;
  }

  /** A `b` at `k` with none after it is the one `strrchr` finds. */
  lemma LastIndexOfAt(s: seq<byte>, b: byte, k: nat)
    requires k < |s| && s[k] == b
    requires forall j | k < j < |s| :: s[j] != b
    ensures LastIndexOf(s, b) == Some(k)
  {
    var r := LastIndexOf(s, b);
    assert r.Some?;
  }

  /** `p` occurs in `s` at position `i`. */
  predicate OccursAt(s: seq<byte>, p: seq<byte>, i: int) {
    0 <= i && i + |p| <= |s| && s[i..i + |p|] == p
  }

  /** The position of the first occurrence of `p` in `s` at or after `k`. */
  function FindFrom(s: seq<byte>, p: seq<byte>, k: nat): (r: Option<nat>)
    decreases |s| - k
    ensures r.Some? ==> k <= r.value && OccursAt(s, p, r.value)
    ensures r.Some? ==> forall j | k <= j < r.value :: !OccursAt(s, p, j)
    ensures r.None? <==> forall j | k <= j <= |s| :: !OccursAt(s, p, j)
  {
    if k + |p| > |s| then None
    else if s[k..k + |p|] == p then assert OccursAt(s, p, k); Some(k)
    else FindFrom(s, p, k + 1)
  }

  /** `strstr`: the position of the first occurrence of `p` in `s`. */
  function Find(s: seq<byte>, p: seq<byte>): Option<nat> {
    FindFrom(s, p, 0)
  }

  /** A match found in `s` is still the first match once more bytes follow. */
  lemma FindExtend(s: seq<byte>, t: seq<byte>, p: seq<byte>)
    requires Find(s, p).Some?
    ensures Find(s + t, p) == Find(s, p)
  {
    var i := Find(s, p).value;
    assert (s + t)[i..i + |p|] == s[i..i + |p|];
    assert OccursAt(s + t, p, i);
    var r := Find(s + t, p);
    if r.value < i {
      assert (s + t)[r.value..r.value + |p|] == s[r.value..r.value + |p|];
      assert OccursAt(s, p, r.value);
    }
  }

  /** `isxdigit`. */
  predicate IsHex(b: byte) {
    (48 <= b <= 57) || (65 <= b <= 70) || (97 <= b <= 102)
  }

  /** The value of one hexadecimal digit, either case. */
  function HexValue(b: byte): (r: nat)
    requires IsHex(b)
    ensures r < 16
  {
    if b <= 57 then b - 48 else if b <= 70 then b - 65 + 10 else b - 97 + 10
  }

  /** The upper-case digit `%X` prints for `n`. */
  function HexUpper(n: nat): (r: byte)
    requires n < 16
    ensures IsHex(r) && HexValue(r) == n
  {
    if n < 10 then 48 + n else 65 + n - 10
  }

  /** The lower-case digit `%x` prints for `n`. */
  function HexLower(n: nat): (r: byte)
    requires n < 16
    ensures IsHex(r) && HexValue(r) == n
  {
    if n < 10 then 48 + n else 97 + n - 10
  }

  /** The byte `(high << 4) | low` built from two hexadecimal digits. */
  function HexPair(high: byte, low: byte): byte
    requires IsHex(high) && IsHex(low)
  {
    16 * HexValue(high) + HexValue(low)
  }

  const TwoTo31: int := 0x8000_0000
  const TwoTo32: int := 0x1_0000_0000

  /** A cast to a 32-bit `int`: the two's-complement wrap of `n`. */
  function Int32(n: int): (r: int)
    ensures -TwoTo31 <= r < TwoTo31
    ensures (r - n) % TwoTo32 == 0
    ensures -TwoTo31 <= n < TwoTo31 ==> r == n
  {
    (n + TwoTo31) % TwoTo32 - TwoTo31
  }
}

=== FILE: decimal.dfy ===
/** Decimal numerals as the C library reads and prints them: the digit loop
    of `parse_lldecimal` (benc.c), `atoi` (used for tracker ports) and the
    `%d`/`%lld` conversions used by the canonical encoder and the HTTP
    request. */
module Decimal {
  import opened Bytes

  const Zero: byte := 48

  predicate IsDigit(b: byte) {
    48 <= b <= 57
  }

  predicate AllDigits(s: seq<byte>) {
    forall i | 0 <= i < |s| :: IsDigit(s[i])
  }

  /** The length of the run of digits that `s` starts with. */
  function DigitRun(s: seq<byte>): (n: nat)
    ensures n <= |s|
  {
    if |s| == 0 || !IsDigit(s[0]) then 0 else 1 + DigitRun(s[1..])
  }

  /** The run is all digits and stops at a non-digit or at the end. */
  lemma {:induction false} DigitRunSpec(s: seq<byte>)
    ensures AllDigits(s[..DigitRun(s)])
    ensures DigitRun(s) < |s| ==> !IsDigit(s[DigitRun(s)])
  {
    if |s| > 0 && IsDigit(s[0]) {
      DigitRunSpec(s[1..]);
      assert s[..DigitRun(s)] == [s[0]] + s[1..][..DigitRun(s[1..])];
    }
  }

  /** A digit run followed by a non-digit (or by nothing) is read whole. */
  lemma {:induction false} DigitRunAfter(ds: seq<byte>, t: seq<byte>)
    requires AllDigits(ds)
    requires |t| == 0 || !IsDigit(t[0])
    ensures DigitRun(ds + t) == |ds|
  {
    if |ds| > 0 {
      assert (ds + t)[1..] == ds[1..] + t;
      DigitRunAfter(ds[1..], t);
    } else {
      assert ds + t == t;
    }
  }

  function Pow10(k: nat): (r: nat)
    ensures r >= 1
  {
    if k == 0 then 1 else 10 * Pow10(k - 1)
  }

  /** The positional value of a digit string, most significant digit first. */
  function ValueOf(ds: seq<byte>): nat
    requires AllDigits(ds)
  {
    if |ds| == 0 then 0 else 10 * ValueOf(ds[..|ds| - 1]) + (ds[|ds| - 1] - Zero)
  }

  /** The leading digit of a numeral weighs `10^(number of digits after it)`. */
  lemma {:induction false} ValueOfCons(d: byte, ds: seq<byte>)
    requires IsDigit(d) && AllDigits(ds)
    ensures ValueOf([d] + ds) == (d - Zero) * Pow10(|ds|) + ValueOf(ds)
  {
    var whole := [d] + ds;
    if |ds| > 0 {
      var init := ds[..|ds| - 1];
      var last := ds[|ds| - 1] - Zero;
      assert whole[..|whole| - 1] == [d] + init;
      assert whole[|whole| - 1] - Zero == last;
      assert ValueOf(whole) == 10 * ValueOf([d] + init) + last;
      ValueOfCons(d, init);
      assert ValueOf(ds) == 10 * ValueOf(init) + last;
      ScaleLead(d - Zero, Pow10(|init|));
    } else {
      assert whole[..0] == [];
    }
  }

  lemma ScaleLead(x: nat, p: nat)
    ensures 10 * (x * p) == x * (10 * p)
  {
  }

  lemma ShiftDigit(acc: nat, d: nat, p: nat)
    ensures (acc * 10 + d) * p == acc * (10 * p) + d * p
  {
  }

  /** The digit loop of `parse_lldecimal`: `result = result * 10 + digit`
      while the byte at position `i` is a digit; gives the result and the
      number of digits read. */
  function ScanDigits(s: seq<byte>, i: nat, acc: nat): (r: (nat, nat))
    requires i <= |s|
    decreases |s| - i
    ensures r.1 <= |s| - i
  {
    if i == |s| || !IsDigit(s[i]) then (acc, 0)
    else
      var (v, c) := ScanDigits(s, i + 1, acc * 10 + (s[i] - Zero));
      (v, c + 1)
  }

  /** The loop reads exactly the run of digits at `i` and computes its
      positional value, on top of `acc` shifted left by their number. */
  lemma {:induction false} ScanDigitsValue(s: seq<byte>, i: nat, acc: nat)
    requires i <= |s|
    decreases |s| - i
    ensures ScanDigits(s, i, acc).1 == DigitRun(s[i..])
    ensures AllDigits(s[i..][..DigitRun(s[i..])])
         && ScanDigits(s, i, acc).0 == acc * Pow10(DigitRun(s[i..])) + ValueOf(s[i..][..DigitRun(s[i..])])
  {
    var u := s[i..];
    DigitRunSpec(u);
    if i < |s| && IsDigit(s[i]) {
      var d := s[i] - Zero;
      assert s[i + 1..] == u[1..];
      var c := DigitRun(u[1..]);
      ScanDigitsValue(s, i + 1, acc * 10 + d);
      assert u[..c + 1] == [u[0]] + u[1..][..c];
      ValueOfCons(u[0], u[1..][..c]);
      ShiftDigit(acc, d, Pow10(c));
    } else {
      assert u[..0] == [];
    }
  }

  /** `%d` of a non-negative number: its shortest decimal numeral. */
  function Digits(n: nat): (r: seq<byte>)
    ensures 1 <= |r| && AllDigits(r)
    ensures ValueOf(r) == n
    ensures r[0] == Zero ==> n == 0
  {
    if n < 10 then [Zero + n]
    else
      var init := Digits(n / 10);
      var r := init + [Zero + n % 10];
      assert r[..|r| - 1] == init;
      r
  }

  /** `%d`/`%lld` of any integer. */
  function Signed(n: int): seq<byte> {
    if n < 0 then [Minus] + Digits(-n) else Digits(n)
  }

  /** `isspace` in the C locale. */
  predicate IsSpace(b: byte) {
    b == Space || 9 <= b <= 13
  }

  function SpaceRun(s: seq<byte>): (n: nat)
    ensures n <= |s|
  {
    if |s| == 0 || !IsSpace(s[0]) then 0 else 1 + SpaceRun(s[1..])
  }

  /** `atoi`: leading white space, an optional sign, then the longest run of
      digits; 0 when there are none. */
  function Atoi(s: seq<byte>): int {
    var t := s[SpaceRun(s)..];
    var sign := if |t| > 0 && (t[0] == Minus || t[0] == Plus) then 1 else 0;
    var v: int := ScanDigits(t, sign, 0).0;
    if sign == 1 && t[0] == Minus then -v else v
  }

  /** The powers of ten the integer-text bounds are stated with. */
  lemma Pow10Values()
    ensures Pow10(12) == 1000000000000
    ensures Pow10(13) == 10000000000000
    ensures Pow10(14) == 100000000000000
    ensures Pow10(19) == 10000000000000000000
  {
    assert Pow10(1) == 10;
    assert Pow10(2) == 100;
    assert Pow10(3) == 1000;
    assert Pow10(4) == 10000;
    assert Pow10(5) == 100000;
    assert Pow10(6) == 1000000;
    assert Pow10(7) == 10000000;
    assert Pow10(8) == 100000000;
    assert Pow10(9) == 1000000000;
    assert Pow10(10) == 10000000000;
    assert Pow10(11) == 100000000000;
    assert Pow10(12) == 1000000000000;
    assert Pow10(13) == 10000000000000;
    assert Pow10(14) == 100000000000000;
    assert Pow10(15) == 1000000000000000;
    assert Pow10(16) == 10000000000000000;
    assert Pow10(17) == 100000000000000000;
    assert Pow10(18) == 1000000000000000000;
    assert Pow10(19) == 10000000000000000000;
  }

  /** A numeral has at most `k` digits exactly when the number is below
      `10^k`. */
  lemma {:induction false} DigitsLength(n: nat, k: nat)
    requires k >= 1
    ensures |Digits(n)| <= k <==> n < Pow10(k)
  {
    if n >= 10 {
      assert Digits(n) == Digits(n / 10) + [Zero + n % 10];
      if k > 1 {
        DigitsLength(n / 10, k - 1);
      }
    }
  }

  /** `atoi` reads back the number `%d` printed, whatever follows it. */
  lemma AtoiDigits(n: nat, rest: seq<byte>)
    requires |rest| == 0 || !IsDigit(rest[0])
    ensures Atoi(Digits(n) + rest) == n
  {
    var s := Digits(n) + rest;
    assert SpaceRun(s) == 0;
    DigitRunAfter(Digits(n), rest);
    ScanDigitsValue(s, 0, 0);
    assert s[0..] == s;
    assert s[..|Digits(n)|] == Digits(n);
  }
}

=== FILE: magnet.dfy ===
/** Magnet links (src/magnet.c, BEP 9): `parse_magnet_uri` splits the part
    after `magnet:?` into `&`-separated `key=value` parameters and keeps the
    info hash (`xt=urn:btih:`), the trackers (`tr`) and the display name
    (`dn`); `urldecode` undoes percent-encoding and form-style `+`. */
module Magnet {
  import opened Wrappers
  import opened Bytes
  import Tracker

  // ---------------------------------------------------------------------
  // urldecode
  // ---------------------------------------------------------------------

  /** `urldecode`: `%` followed by two hexadecimal digits becomes the byte
      they spell, `+` becomes a space, and every other byte (a `%` without
      two digits after it included) is copied. */
  function UrlDecode(s: seq<byte>): (r: seq<byte>)
    ensures |r| <= |s|
  {
    if |s| == 0 then []
    else if s[0] == Percent && |s| >= 3 && IsHex(s[1]) && IsHex(s[2]) then [HexPair(s[1], s[2])] + UrlDecode(s[3..])
    else if s[0] == Plus then [Space] + UrlDecode(s[1..])
    else [s[0]] + UrlDecode(s[1..])
  }

  /** Text without `%` and `+` is left as it is. */
  lemma {:induction false} UrlDecodePlain(s: seq<byte>)
    requires forall i | 0 <= i < |s| :: s[i] != Percent && s[i] != Plus
    ensures UrlDecode(s) == s
  {
    if |s| > 0 {
      UrlDecodePlain(s[1..]);
    }
  }

  /** A `%` followed by two hexadecimal digits at position `i`. */
  predicate EscapeAt(s: seq<byte>, i: nat) {
    i + 2 < |s| && s[i] == Percent && IsHex(s[i + 1]) && IsHex(s[i + 2])
  }

  /** The three cases of the `urldecode` loop, one leading byte at a time:
      an escape gives the byte it spells, `+` a space, any other byte
      (a `%` without two digits after it included) itself. */
  lemma UrlDecodeCases(c: byte, t: seq<byte>)
    ensures EscapeAt([c] + t, 0) ==> UrlDecode([c] + t) == [HexPair(t[0], t[1])] + UrlDecode(t[2..])
    ensures c == Plus ==> UrlDecode([c] + t) == [Space] + UrlDecode(t)
    ensures c != Plus && !EscapeAt([c] + t, 0) ==> UrlDecode([c] + t) == [c] + UrlDecode(t)
  {
    var s := [c] + t;
    assert s[1..] == t;
    if |s| >= 3 { assert s[3..] == t[2..]; }
  }

  /** Text without a valid escape keeps its length, and each byte is
      decoded on its own: `+` to a space, everything else, a stray `%`
      included, to itself. */
  lemma {:induction false} UrlDecodeUnescaped(s: seq<byte>)
    requires forall i: nat | i < |s| :: !EscapeAt(s, i)
    ensures |UrlDecode(s)| == |s|
    ensures forall i | 0 <= i < |s| :: UrlDecode(s)[i] == if s[i] == Plus then Space else s[i]
  {
    if |s| > 0 {
      forall i: nat | i < |s[1..]| ensures !EscapeAt(s[1..], i) {
        assert !EscapeAt(s, i + 1);
      }
      UrlDecodeUnescaped(s[1..]);
      assert !EscapeAt(s, 0);
    }
  }

  /** Every escape shortens the text by two bytes, so with
      `UrlDecodeUnescaped` the output is shorter than the input exactly when
      there is an escape somewhere. */
  lemma {:induction false} UrlDecodeShorter(s: seq<byte>, i: nat)
    requires i + 2 < |s| && s[i] == Percent && IsHex(s[i + 1]) && IsHex(s[i + 2])
    ensures |UrlDecode(s)| < |s|
  {
    if !(s[0] == Percent && IsHex(s[1]) && IsHex(s[2])) {
      assert i > 0;
      UrlDecodeShorter(s[1..], i - 1);
    }
  }

  /** The tracker's `%XX` spelling of an info hash decodes to the hash:
      `urldecode` inverts the GET query's encoding. */
  lemma {:induction false} UrlDecodePercentEncode(h: seq<byte>)
    ensures UrlDecode(Tracker.PercentEncode(h)) == h
  {
    if |h| > 0 {
      var t := Tracker.PercentTriple(h[0]);
      var rest := Tracker.PercentEncode(h[1..]);
      var s := t + rest;
      assert Tracker.PercentEncode(h) == s;
      assert s[0] == Percent && IsHex(s[1]) && IsHex(s[2]);
      assert s[3..] == rest;
      UrlDecodePercentEncode(h[1..]);
    }
  }

  /** The info hash in the query of the tracker's GET request decodes back
      to the hash. */
  lemma HttpRequestHash(u: Tracker.Url, hash: seq<byte>)
    requires |hash| == Tracker.HashLength
    ensures var q := |Tracker.QueryStart(u)|;
      UrlDecode(Tracker.HttpRequest(u, hash)[q..q + 3 * Tracker.HashLength]) == hash
  {
    UrlDecodePercentEncode(hash);
  }

  // ---------------------------------------------------------------------
  // Splitting the parameters (strtok_r on "&")
  // ---------------------------------------------------------------------

  /** `strtok_r(..., "&", ...)` repeated: the maximal runs of bytes other
      than `&`, in order; empty runs are skipped. */
  function Tokens(s: seq<byte>): (r: seq<seq<byte>>)
    ensures forall k | 0 <= k < |r| :: |r[k]| > 0 && forall j | 0 <= j < |r[k]| :: r[k][j] != Amp
  {
    if |s| == 0 then []
    else if s[0] == Amp then Tokens(s[1..])
    else match IndexOf(s, Amp)
      case None => [s]
      case Some(k) => [s[..k]] + Tokens(s[k + 1..])
  }

  /** Parameters written one after another with `&` between them. */
  function Join(ts: seq<seq<byte>>): seq<byte> {
    if |ts| == 0 then []
    else if |ts| == 1 then ts[0]
    else ts[0] + [Amp] + Join(ts[1..])
  }

  /** Splitting gives back the parameters that were joined, when none is
      empty and none holds `&`. */
  lemma {:induction false} TokensJoin(ts: seq<seq<byte>>)
    requires forall k | 0 <= k < |ts| :: |ts[k]| > 0 && forall j | 0 <= j < |ts[k]| :: ts[k][j] != Amp
    ensures Tokens(Join(ts)) == ts
  {
    if |ts| == 1 {
      assert IndexOf(ts[0], Amp).None?;
    } else if |ts| > 1 {
      var s := ts[0] + [Amp] + Join(ts[1..]);
      assert Join(ts) == s;
      hide Join;
      IndexOfAt(s, Amp, |ts[0]|);
      TokensAt(s, |ts[0]|);
      hide Tokens, IndexOf;
      assert s[..|ts[0]|] == ts[0];
      assert s[|ts[0]| + 1..] == Join(ts[1..]);
      TokensJoin(ts[1..]);
      assert ts == [ts[0]] + ts[1..];
    }
  }

  /** Runs of `&` separate like a single one. */
  lemma {:induction false} TokensSkipEmpty(a: seq<byte>, b: seq<byte>)
    ensures Tokens(a + [Amp, Amp] + b) == Tokens(a + [Amp] + b)
  {
    hide Tokens, IndexOf;
    var s2, s1 := a + [Amp, Amp] + b, a + [Amp] + b;
    if |a| == 0 {
      assert s2 == [Amp] + ([Amp] + b) && s1 == [Amp] + b;
      TokensAmp([Amp] + b);
    } else if a[0] == Amp {
      assert s2 == [Amp] + (a[1..] + [Amp, Amp] + b) && s1 == [Amp] + (a[1..] + [Amp] + b);
      TokensAmp(a[1..] + [Amp, Amp] + b);
      TokensAmp(a[1..] + [Amp] + b);
      TokensSkipEmpty(a[1..], b);
    } else {
      var k := FirstAmp(a);
      IndexOfAt(s2, Amp, k);
      IndexOfAt(s1, Amp, k);
      TokensAt(s2, k);
      TokensAt(s1, k);
      assert s2[..k] == a[..k] && s1[..k] == a[..k];
      if k == |a| {
        assert s2[k + 1..] == [Amp] + b && s1[k + 1..] == b;
        TokensAmp(b);
      } else {
        assert s2[k + 1..] == a[k + 1..] + [Amp, Amp] + b;
        assert s1[k + 1..] == a[k + 1..] + [Amp] + b;
        TokensSkipEmpty(a[k + 1..], b);
      }
    }
  }

  /** The position of the first `&` in `a`, or its length when there is
      none. */
  function FirstAmp(a: seq<byte>): (k: nat)
    ensures k <= |a| && forall j | 0 <= j < k :: a[j] != Amp
    ensures k < |a| ==> a[k] == Amp
  {
    match IndexOf(a, Amp)
    case None => |a|
    case Some(k) => k
  }

  /** A leading `&` is skipped. */
  lemma TokensAmp(s: seq<byte>)
    ensures Tokens([Amp] + s) == Tokens(s)
  {
    assert ([Amp] + s)[1..] == s;
  }

  /** A token runs up to the first `&`. */
  lemma TokensAt(s: seq<byte>, k: nat)
    requires 0 < k < |s| && s[0] != Amp && IndexOf(s, Amp) == Some(k)
    ensures Tokens(s) == [s[..k]] + Tokens(s[k + 1..])
  {
  }

  // ---------------------------------------------------------------------
  // Parameters
  // ---------------------------------------------------------------------

  const MagnetPrefix: seq<byte> := Of("magnet:?")
  const Xt: seq<byte> := Of("xt")
  const Tr: seq<byte> := Of("tr")
  const Dn: seq<byte> := Of("dn")
  const Btih: seq<byte> := Of("urn:btih:")

  predicate HasEquals(p: seq<byte>) {
    IndexOf(p, Equals).Some?
  }

  /** The bytes before the first `=`. */
  function ParamKey(p: seq<byte>): seq<byte>
    requires HasEquals(p)
  {
    p[..IndexOf(p, Equals).value]
  }

  /** The bytes after the first `=`. */
  function ParamValue(p: seq<byte>): seq<byte>
    requires HasEquals(p)
  {
    p[IndexOf(p, Equals).value + 1..]
  }

  /** `key=value` whose key is exactly `key`. */
  predicate IsParam(p: seq<byte>, key: seq<byte>) {
    HasEquals(p) && ParamKey(p) == key
  }

  /** An `xt` parameter with a BitTorrent info hash. */
  predicate IsHashParam(p: seq<byte>) {
    IsParam(p, Xt) && Matches(ParamValue(p), 0, Btih)
  }

  /** The hash text after `urn:btih:`. */
  function HashText(p: seq<byte>): seq<byte>
    requires IsHashParam(p)
  {
    ParamValue(p)[|Btih|..]
  }

  /** A parameter `parse_magnet_uri` accepts: it has a `=`, and an info hash
      has exactly 40 characters. */
  predicate WellFormed(p: seq<byte>) {
    HasEquals(p) && (IsHashParam(p) ==> |HashText(p)| == 2 * Tracker.HashLength)
  }

  /** `sscanf(hash + 2 * i, "%2hhx", &out[i])` on one pair of characters:
      two hexadecimal digits give their byte, one digit followed by
      anything else gives that digit's value, and no leading digit leaves
      the byte as it was. */
  function ScanPair(prior: byte, high: byte, low: byte): (r: byte)
    ensures IsHex(high) && IsHex(low) ==> r == HexPair(high, low)
    ensures !IsHex(high) ==> r == prior
  {
    if !IsHex(high) then prior
    else if IsHex(low) then HexPair(high, low)
    else HexValue(high)
  }

  /** The 20 `sscanf` calls over a 40-character hash, on top of what the
      output array held before. */
  function ScanHash(prior: seq<byte>, hex: seq<byte>): (r: seq<byte>)
    requires |prior| == Tracker.HashLength && |hex| == 2 * Tracker.HashLength
    ensures |r| == Tracker.HashLength
    ensures forall i | 0 <= i < Tracker.HashLength :: r[i] == ScanPair(prior[i], hex[2 * i], hex[2 * i + 1])
  {
    seq(Tracker.HashLength, i requires 0 <= i < Tracker.HashLength => ScanPair(prior[i], hex[2 * i], hex[2 * i + 1]))
  }

  /** The display name after `strncpy` into a buffer of `capacity` bytes:
      the decoded value as a C string, cut to `capacity - 1` bytes. */
  function NameOf(p: seq<byte>, capacity: nat): (r: seq<byte>)
    requires IsParam(p, Dn) && capacity >= 1
    ensures |r| <= capacity - 1
    ensures |r| <= |CStr(UrlDecode(ParamValue(p)))| && r == CStr(UrlDecode(ParamValue(p)))[..|r|]
    ensures |r| == if |CStr(UrlDecode(ParamValue(p)))| <= capacity - 1 then |CStr(UrlDecode(ParamValue(p)))| else capacity - 1
  {
    var decoded := CStr(UrlDecode(ParamValue(p)));
    if |decoded| <= capacity - 1 then decoded else decoded[..capacity - 1]
  }

  /** A tracker as stored: the decoded value, seen as a C string. */
  function TrackerOf(p: seq<byte>): seq<byte>
    requires IsParam(p, Tr)
  {
    CStr(UrlDecode(ParamValue(p)))
  }

  // ---------------------------------------------------------------------
  // What the parameters amount to, read from the last one backwards
  // ---------------------------------------------------------------------

  /** The trackers of the `tr` parameters, in the order they occur. */
  function Trackers(ps: seq<seq<byte>>): seq<seq<byte>> {
    if |ps| == 0 then []
    else
      var last := ps[|ps| - 1];
      Trackers(ps[..|ps| - 1]) + (if IsParam(last, Tr) then [TrackerOf(last)] else [])
  }

  /** The display name of the last `dn` parameter; empty when there is
      none. */
  function DisplayName(ps: seq<seq<byte>>, capacity: nat): (r: seq<byte>)
    requires capacity >= 1
    ensures |r| <= capacity - 1
  {
    if |ps| == 0 then []
    else
      var last := ps[|ps| - 1];
      if IsParam(last, Dn) then NameOf(last, capacity) else DisplayName(ps[..|ps| - 1], capacity)
  }

  /** The output array after every well-formed `xt` parameter in turn. */
  function HashAfter(ps: seq<seq<byte>>, prior: seq<byte>): (r: seq<byte>)
    requires |prior| == Tracker.HashLength
    ensures |r| == Tracker.HashLength
  {
    if |ps| == 0 then prior
    else
      var last := ps[|ps| - 1];
      var before := HashAfter(ps[..|ps| - 1], prior);
      if IsHashParam(last) && |HashText(last)| == 2 * Tracker.HashLength then ScanHash(before, HashText(last))
      else before
  }

  /** What `parse_magnet_uri` hands back on success. */
  datatype MagnetLink = MagnetLink(infohash: seq<byte>, trackers: seq<seq<byte>>, name: seq<byte>)

  /** The messages `parse_magnet_uri` writes before returning 1. */
  datatype MagnetError =
    | NotMagnet                           // no `magnet:?` prefix
    | MalformedParam(param: seq<byte>)    // a parameter without `=`
    | InvalidInfohashLength               // `urn:btih:` hash not 40 long

  /** The parameters of a magnet link: the tokens after `magnet:?`. */
  function Params(uri: seq<byte>): seq<seq<byte>>
    requires Matches(uri, 0, MagnetPrefix)
  {
    Tokens(uri[|MagnetPrefix|..])
  }

  /** Every parameter is accepted. */
  predicate AllWellFormed(ps: seq<seq<byte>>) {
    forall k | 0 <= k < |ps| :: WellFormed(ps[k])
  }

  /** One pass of the `strtok_r` loop of `parse_magnet_uri` over parameter
      `p`, given what the earlier parameters left in `link`: a parameter
      without `=` and an info hash that is not 40 long stop the parse; an
      info hash is scanned into the array, a tracker appended, a display
      name copied; any other key is ignored. */
  function Step(link: MagnetLink, p: seq<byte>, capacity: nat): (r: Result<MagnetLink, MagnetError>)
    requires |link.infohash| == Tracker.HashLength && capacity >= 1
    ensures r.Ok? <==> WellFormed(p)
    ensures r.Err? ==> r.error == MalformedParam(p) || r.error == InvalidInfohashLength
    ensures r == Err(MalformedParam(p)) <==> !HasEquals(p)
    ensures r == Err(InvalidInfohashLength) <==> HasEquals(p) && !WellFormed(p)
  {
    if !HasEquals(p) then Err(MalformedParam(p))
    else if IsHashParam(p) then
      if |HashText(p)| != 2 * Tracker.HashLength then Err(InvalidInfohashLength)
      else Ok(link.(infohash := ScanHash(link.infohash, HashText(p))))
    else if IsParam(p, Tr) then Ok(link.(trackers := link.trackers + [TrackerOf(p)]))
    else if IsParam(p, Dn) then Ok(link.(name := NameOf(p, capacity)))
    else Ok(link)
  }

  /** What the parameters read so far amount to. */
  function SoFar(ps: seq<seq<byte>>, prior: seq<byte>, capacity: nat): MagnetLink
    requires |prior| == Tracker.HashLength && capacity >= 1
  {
    MagnetLink(HashAfter(ps, prior), Trackers(ps), DisplayName(ps, capacity))
  }

  /** One more parameter takes the result of the parameters before it to
      the result of the parameters up to it, or stops the parse at the
      first parameter that is not accepted. */
  lemma ParamStep(ps: seq<seq<byte>>, i: nat, prior: seq<byte>, capacity: nat)
    requires i < |ps| && |prior| == Tracker.HashLength && capacity >= 1
    ensures AllWellFormed(ps[..i + 1]) <==> AllWellFormed(ps[..i]) && WellFormed(ps[i])
    ensures !WellFormed(ps[i]) ==> !AllWellFormed(ps)
    ensures WellFormed(ps[i]) ==>
      Step(SoFar(ps[..i], prior, capacity), ps[i], capacity) == Ok(SoFar(ps[..i + 1], prior, capacity))
    ensures i + 1 == |ps| ==> ps[..i + 1] == ps
  {
    var qs := ps[..i + 1];
    var p := ps[i];
    assert qs[..i] == ps[..i] && qs[i] == p;
    if AllWellFormed(ps[..i]) && WellFormed(p) {
      forall k | 0 <= k < i + 1 ensures WellFormed(qs[k]) {
        if k < i { assert qs[k] == ps[..i][k]; }
      }
    }
    if WellFormed(p) {
      assert Xt[0] != Tr[0] && Xt[0] != Dn[0] && Tr[0] != Dn[0];
      var before, after := SoFar(ps[..i], prior, capacity), SoFar(qs, prior, capacity);
      assert after.infohash == if IsHashParam(p) then ScanHash(before.infohash, HashText(p)) else before.infohash;
      assert after.trackers == before.trackers + if IsParam(p, Tr) then [TrackerOf(p)] else [];
      assert after.name == if IsParam(p, Dn) then NameOf(p, capacity) else before.name;
      assert HasEquals(p);
      if IsHashParam(p) {
        assert !IsParam(p, Tr) && !IsParam(p, Dn);
        assert after == before.(infohash := ScanHash(before.infohash, HashText(p)));
      } else if IsParam(p, Tr) {
        assert !IsParam(p, Dn);
        assert after == before.(trackers := before.trackers + [TrackerOf(p)]);
      } else if IsParam(p, Dn) {
        assert after == before.(name := NameOf(p, capacity));
      } else {
        assert after == before;
      }
      assert Step(before, p, capacity) == Ok(after);
    }
  }

  /** Before the first parameter nothing has been read. */
  lemma ParamStart(ps: seq<seq<byte>>, prior: seq<byte>, capacity: nat)
    requires |prior| == Tracker.HashLength && capacity >= 1
    ensures AllWellFormed(ps[..0]) && SoFar(ps[..0], prior, capacity) == MagnetLink(prior, [], [])
  {
  }

  /** `parse_magnet_uri`. `prior` is what the info hash array held before the
      call; `capacity` is `ERRBUF_SIZE`, the size of the display name
      buffer. The URI is the content of a C string. */
  method ParseMagnetUri(uri: seq<byte>, prior: seq<byte>, capacity: nat) returns (r: Result<MagnetLink, MagnetError>)
    requires NoNul(uri)
    requires |prior| == Tracker.HashLength && capacity >= 1
    ensures !Matches(uri, 0, MagnetPrefix) ==> r == Err(NotMagnet)
    ensures r.Ok? <==> Matches(uri, 0, MagnetPrefix) && AllWellFormed(Params(uri))
    ensures r.Ok? ==>
      r.value == MagnetLink(HashAfter(Params(uri), prior), Trackers(Params(uri)), DisplayName(Params(uri), capacity))
    ensures r.Err? && Matches(uri, 0, MagnetPrefix) ==>
      exists k | 0 <= k < |Params(uri)| ::
        && AllWellFormed(Params(uri)[..k]) && !WellFormed(Params(uri)[k])
        && r == Err(if HasEquals(Params(uri)[k]) then InvalidInfohashLength else MalformedParam(Params(uri)[k]))
  {
    if !Matches(uri, 0, MagnetPrefix) {
      return Err(NotMagnet);
    }
    var ps: seq<seq<byte>> := Params(uri);
    ParamStart(ps, prior, capacity);
    hide Params, Tokens, HashAfter, Trackers, DisplayName, AllWellFormed, Step;
    var link := MagnetLink(prior, [], []);
    var i := 0;
    while i < |ps|
      invariant 0 <= i <= |ps|
      invariant AllWellFormed(ps[..i])
      invariant link == SoFar(ps[..i], prior, capacity)
    {
      ParamStep(ps, i, prior, capacity);
      var next := Step(link, ps[i], capacity);
      if next.Err? {
        assert AllWellFormed(ps[..i]) && !WellFormed(ps[i]);
        return Err(next.error);
      }
      link := next.value;
      i := i + 1;
    }
    assert ps[..|ps|] == ps;
    return Ok(link);
  }

  // ---------------------------------------------------------------------
  // Properties of the parameters' meaning
  // ---------------------------------------------------------------------

  /** Trackers keep occurrence order across any split of the parameters. */
  lemma {:induction false} TrackersAppend(ps: seq<seq<byte>>, qs: seq<seq<byte>>)
    ensures Trackers(ps + qs) == Trackers(ps) + Trackers(qs)
  {
    if |qs| == 0 {
      assert ps + qs == ps;
    } else {
      var init := qs[..|qs| - 1];
      assert (ps + qs)[..|ps + qs| - 1] == ps + init;
      TrackersAppend(ps, init);
    }
  }

  /** One tracker per `tr` parameter and none for any other. */
  lemma TrackersOne(p: seq<byte>)
    ensures Trackers([p]) == if IsParam(p, Tr) then [TrackerOf(p)] else []
  {
    assert [p][..0] == [];
  }

  /** Some parameter of `ps` is a `dn` parameter. */
  predicate HasName(ps: seq<seq<byte>>) {
    exists k | 0 <= k < |ps| :: IsParam(ps[k], Dn)
  }

  /** The last `dn` wins: parameters after it that are not `dn` change
      nothing, and a `dn` after it replaces it. */
  lemma {:induction false} DisplayNameAppend(ps: seq<seq<byte>>, qs: seq<seq<byte>>, capacity: nat)
    requires capacity >= 1
    ensures DisplayName(ps + qs, capacity) == if HasName(qs) then DisplayName(qs, capacity) else DisplayName(ps, capacity)
  {
    if |qs| == 0 {
      assert ps + qs == ps;
    } else {
      var init := qs[..|qs| - 1];
      var last := qs[|qs| - 1];
      assert (ps + qs)[..|ps + qs| - 1] == ps + init && (ps + qs)[|ps + qs| - 1] == last;
      DisplayNameAppend(ps, init, capacity);
      HasNameInit(qs);
      hide DisplayName, HasName, NameOf;
    }
  }

  /** A `dn` parameter is in a sequence when it is in all but the last
      parameter or is the last one. */
  lemma HasNameInit(qs: seq<seq<byte>>)
    requires |qs| > 0
    ensures HasName(qs) <==> HasName(qs[..|qs| - 1]) || IsParam(qs[|qs| - 1], Dn)
  {
    var init := qs[..|qs| - 1];
    if HasName(qs) && !IsParam(qs[|qs| - 1], Dn) {
      var k :| 0 <= k < |qs| && IsParam(qs[k], Dn);
      assert init[k] == qs[k];
    }
    if HasName(init) {
      var k :| 0 <= k < |init| && IsParam(init[k], Dn);
      assert qs[k] == init[k];
    }
  }

  /** Without a `dn` the name stays empty. */
  lemma {:induction false} DisplayNameDefault(ps: seq<seq<byte>>, capacity: nat)
    requires capacity >= 1
    requires forall k | 0 <= k < |ps| :: !IsParam(ps[k], Dn)
    ensures DisplayName(ps, capacity) == []
  {
    if |ps| > 0 {
      DisplayNameDefault(ps[..|ps| - 1], capacity);
    }
  }

  /** Without an info hash parameter the output array is left as it was,
      and the link is still accepted. */
  lemma {:induction false} HashAfterNoHash(ps: seq<seq<byte>>, prior: seq<byte>)
    requires |prior| == Tracker.HashLength
    requires forall k | 0 <= k < |ps| :: !IsHashParam(ps[k])
    ensures HashAfter(ps, prior) == prior
  {
    if |ps| > 0 {
      HashAfterNoHash(ps[..|ps| - 1], prior);
    }
  }

  /** A hash written in hexadecimal digits is read pair by pair, whatever
      the array held before. */
  lemma ScanHashOfHex(prior: seq<byte>, hex: seq<byte>)
    requires |prior| == Tracker.HashLength && |hex| == 2 * Tracker.HashLength && Tracker.AllHex(hex)
    ensures forall i | 0 <= i < Tracker.HashLength :: ScanHash(prior, hex)[i] == HexPair(hex[2 * i], hex[2 * i + 1])
  {
  }

  /** The hash printed with `%02x` is read back from a magnet link. */
  lemma ScanHashOfSpelling(prior: seq<byte>, h: seq<byte>)
    requires |prior| == Tracker.HashLength && |h| == Tracker.HashLength
    ensures ScanHash(prior, Tracker.HexSpelling(h)) == h
  {
    Tracker.HexSpellingReads(h);
    var r := ScanHash(prior, Tracker.HexSpelling(h));
    assert forall i | 0 <= i < Tracker.HashLength :: r[i] == h[i];
  }
}

=== FILE: torrent.dfy ===
/** Torrent files (src/torrent.c): `check_torrent`, the ordered presence and
    type checks a metainfo tree must pass, and `scrape_torrent`, which
    builds the list of trackers to ask (BEP 12 tiers, shuffled within each
    tier, at most 64) and asks them in order until one answers. */
module Torrent {
  import opened Wrappers
  import opened Bytes
  import opened Bencode
  import Tracker

  // ---------------------------------------------------------------------
  // Keys
  // ---------------------------------------------------------------------

  const AnnounceKey: seq<byte> := Of("announce")
  const AnnounceListKey: seq<byte> := Of("announce-list")
  const InfoKey: seq<byte> := Of("info")
  const NameKey: seq<byte> := Of("name")
  const PieceLengthKey: seq<byte> := Of("piece length")
  const LengthKey: seq<byte> := Of("length")
  const PathKey: seq<byte> := Of("path")
  const HttpsScheme: seq<byte> := Of("https://")

  // ---------------------------------------------------------------------
  // What a valid torrent is
  // ---------------------------------------------------------------------

  predicate IsStr(o: Option<Value>) {
    o.Some? && o.value.Str?
  }

  predicate IsInt(o: Option<Value>) {
    o.Some? && o.value.Int?
  }

  predicate IsDict(o: Option<Value>) {
    o.Some? && o.value.Dict?
  }

  /** A list with at least one element. */
  predicate IsNonEmptyList(o: Option<Value>) {
    o.Some? && o.value.List? && |o.value.items| > 0
  }

  /** An announce URL the tool knows how to reach. */
  predicate KnownScheme(url: seq<byte>) {
    Matches(url, 0, Tracker.HttpScheme) || Matches(url, 0, HttpsScheme) || Matches(url, 0, Tracker.UdpScheme)
  }

  /** One entry of `info.files`: a dictionary with a non-negative integer
      `length` and a non-empty `path` of strings. */
  predicate ValidFile(f: Value) {
    f.Dict?
    && IsInt(Lookup(f, LengthKey)) && Lookup(f, LengthKey).value.n >= 0
    && IsNonEmptyList(Lookup(f, PathKey))
    && forall i | 0 <= i < |Lookup(f, PathKey).value.items| :: Lookup(f, PathKey).value.items[i].Str?
  }

  /** The `info` dictionary: a string `name`, an integer `piece length`, and
      either a positive integer `length` or a non-empty list of valid
      `files`. */
  predicate ValidInfo(info: Value) {
    info.Dict?
    && IsStr(Lookup(info, NameKey))
    && IsInt(Lookup(info, PieceLengthKey))
    && match Lookup(info, LengthKey)
       case Some(length) => length.Int? && length.n > 0
       case None =>
         IsNonEmptyList(Lookup(info, Tracker.Files))
         && forall k | 0 <= k < |Lookup(info, Tracker.Files).value.items| :: ValidFile(Lookup(info, Tracker.Files).value.items[k])
  }

  /** A torrent `check_torrent` accepts. */
  predicate ValidTorrent(root: Value) {
    root.Dict?
    && IsStr(Lookup(root, AnnounceKey)) && KnownScheme(Lookup(root, AnnounceKey).value.bytes)
    && IsDict(Lookup(root, InfoKey)) && ValidInfo(Lookup(root, InfoKey).value)
  }

  // ---------------------------------------------------------------------
  // check_torrent
  // ---------------------------------------------------------------------

  /** The messages `check_torrent` writes before returning 1. */
  datatype TorrentError =
    | RootNotDictionary    // root is not a dictionary
    | NoAnnounce           // no announce
    | InvalidAnnounceUrl   // invalid announce url
    | NoInfo               // no info
    | NoName               // no info.name
    | NoPieceLength        // no info.piece length
    | NoLengthNorFiles     // no info.length nor info.files
    | FileNotDictionary    // files list item is not dictionary
    | FileLengthInvalid    // files list item doesn't have valid length
    | FileWithoutPath      // files list item doesn't have path
    | PathItemNotString    // path list item is not string
    | LengthInvalid        // info.length is not valid

  /** The first check one entry of `info.files` fails, in the order the
      loop body makes them. */
  function FileDefect(f: Value): (r: Option<TorrentError>)
    ensures r.None? <==> ValidFile(f)
    ensures r.Some? ==> r.value in {FileNotDictionary, FileLengthInvalid, FileWithoutPath, PathItemNotString}
  {
    if !f.Dict? then Some(FileNotDictionary)
    else if !(IsInt(Lookup(f, LengthKey)) && Lookup(f, LengthKey).value.n >= 0) then Some(FileLengthInvalid)
    else if !IsNonEmptyList(Lookup(f, PathKey)) then Some(FileWithoutPath)
    else if exists i | 0 <= i < |Lookup(f, PathKey).value.items| :: !Lookup(f, PathKey).value.items[i].Str? then
      Some(PathItemNotString)
    else None
  }

  /** The announce entry passes its two checks. */
  predicate AnnounceAccepted(root: Value) {
    root.Dict? && IsStr(Lookup(root, AnnounceKey)) && KnownScheme(Lookup(root, AnnounceKey).value.bytes)
  }

  /** Everything before the length checks passes. */
  predicate HeaderAccepted(root: Value) {
    AnnounceAccepted(root) && IsDict(Lookup(root, InfoKey))
    && IsStr(Lookup(Lookup(root, InfoKey).value, NameKey))
    && IsInt(Lookup(Lookup(root, InfoKey).value, PieceLengthKey))
  }

  /** `k` is the first entry of `fs` that is not valid. */
  predicate FirstBadFile(fs: seq<Value>, k: nat) {
    k < |fs| && !ValidFile(fs[k]) && forall j | 0 <= j < k :: ValidFile(fs[j])
  }

  /** `check_torrent`: the checks in the order the C function makes them;
      the first that fails decides the error. */
  method CheckTorrent(root: Value) returns (r: Result<(), TorrentError>)
    ensures r.Ok? <==> ValidTorrent(root)
    ensures r == Err(RootNotDictionary) <==> !root.Dict?
    ensures r == Err(NoAnnounce) <==> root.Dict? && !IsStr(Lookup(root, AnnounceKey))
    ensures r == Err(InvalidAnnounceUrl) <==>
      root.Dict? && IsStr(Lookup(root, AnnounceKey)) && !KnownScheme(Lookup(root, AnnounceKey).value.bytes)
    ensures r == Err(NoInfo) <==> AnnounceAccepted(root) && !IsDict(Lookup(root, InfoKey))
    ensures r == Err(NoName) <==>
      AnnounceAccepted(root) && IsDict(Lookup(root, InfoKey)) && !IsStr(Lookup(Lookup(root, InfoKey).value, NameKey))
    ensures r == Err(NoPieceLength) <==>
      AnnounceAccepted(root) && IsDict(Lookup(root, InfoKey)) && IsStr(Lookup(Lookup(root, InfoKey).value, NameKey))
      && !IsInt(Lookup(Lookup(root, InfoKey).value, PieceLengthKey))
    ensures r == Err(LengthInvalid) <==>
      HeaderAccepted(root) && Lookup(Lookup(root, InfoKey).value, LengthKey).Some?
      && !(Lookup(Lookup(root, InfoKey).value, LengthKey).value.Int? && Lookup(Lookup(root, InfoKey).value, LengthKey).value.n > 0)
    ensures r == Err(NoLengthNorFiles) <==>
      HeaderAccepted(root) && Lookup(Lookup(root, InfoKey).value, LengthKey).None?
      && !IsNonEmptyList(Lookup(Lookup(root, InfoKey).value, Tracker.Files))
    ensures r.Err? && r.error in {FileNotDictionary, FileLengthInvalid, FileWithoutPath, PathItemNotString} ==>
      HeaderAccepted(root) && Lookup(Lookup(root, InfoKey).value, LengthKey).None?
      && IsNonEmptyList(Lookup(Lookup(root, InfoKey).value, Tracker.Files))
      && var fs := Lookup(Lookup(root, InfoKey).value, Tracker.Files).value.items;
         exists k: nat :: FirstBadFile(fs, k) && FileDefect(fs[k]) == Some(r.error)
  {
    hide Lookup, KeyIndex, Matches;
    if !root.Dict? {
      return Err(RootNotDictionary);
    }
    var announce := Lookup(root, AnnounceKey);
    if announce.None? || !announce.value.Str? {
      return Err(NoAnnounce);
    }
    if !KnownScheme(announce.value.bytes) {
      return Err(InvalidAnnounceUrl);
    }
    var infoEntry := Lookup(root, InfoKey);
    if infoEntry.None? || !infoEntry.value.Dict? {
      return Err(NoInfo);
    }
    var info := infoEntry.value;
    if !IsStr(Lookup(info, NameKey)) {
      return Err(NoName);
    }
    if !IsInt(Lookup(info, PieceLengthKey)) {
      return Err(NoPieceLength);
    }
    var length := Lookup(info, LengthKey);
    if length.Some? {
      if !length.value.Int? || length.value.n <= 0 {
        return Err(LengthInvalid);
      }
      return Ok(());
    }
    var files := Lookup(info, Tracker.Files);
    if files.None? || !files.value.List? || |files.value.items| == 0 {
      return Err(NoLengthNorFiles);
    }
    var fs := files.value.items;
    var k := 0;
    while k < |fs|
      invariant 0 <= k <= |fs|
      invariant forall j | 0 <= j < k :: ValidFile(fs[j])
    {
      var defect := FileDefect(fs[k]);
      if defect.Some? {
        assert FirstBadFile(fs, k);
        return Err(defect.value);
      }
      k := k + 1;
    }
    return Ok(());
  }

  // ---------------------------------------------------------------------
  // The list of trackers to ask
  // ---------------------------------------------------------------------

  /** `url_max`: no more than this many trackers are collected. */
  const UrlMax: nat := 64

  function Min(a: nat, b: nat): nat {
    if a <= b then a else b
  }

  /** The shape `scrape_torrent` walks without checking it: a list of
      tiers, each a list of strings. */
  predicate TierShaped(v: Value) {
    v.List? && forall t | 0 <= t < |v.items| ::
      v.items[t].List? && forall u | 0 <= u < |v.items[t].items| :: v.items[t].items[u].Str?
  }

  /** The tiers' URLs, each the C string its entry points to. */
  function Tiers(v: Value): (r: seq<seq<seq<byte>>>)
    requires TierShaped(v)
    ensures |r| == |v.items|
    ensures forall t | 0 <= t < |r| :: |r[t]| == |v.items[t].items|
    ensures forall t, u | 0 <= t < |r| && 0 <= u < |r[t]| :: r[t][u] == CStr(v.items[t].items[u].bytes)
  {
    seq(|v.items|, t requires 0 <= t < |v.items| =>
      seq(|v.items[t].items|, u requires 0 <= u < |v.items[t].items| => CStr(v.items[t].items[u].bytes)))
  }

  /** The tiers one after another, in file order. */
  function Flatten(tiers: seq<seq<seq<byte>>>): seq<seq<byte>> {
    if |tiers| == 0 then [] else Flatten(tiers[..|tiers| - 1]) + tiers[|tiers| - 1]
  }

  /** Where each tier's slice of the collected list begins: tier `t` takes
      as many of its URLs as fit below 64, starting where tier `t - 1`
      stopped. The last element is the length of the whole list. */
  function Offsets(tiers: seq<seq<seq<byte>>>): (r: seq<nat>)
    ensures |r| == |tiers| + 1 && r[0] == 0
    ensures forall s, t | 0 <= s <= t <= |tiers| :: r[s] <= r[t] <= UrlMax
  {
    if |tiers| == 0 then [0]
    else
      var b := Offsets(tiers[..|tiers| - 1]);
      b + [Min(UrlMax, b[|tiers| - 1] + |tiers[|tiers| - 1]|)]
  }

  /** Tier `t` adds as many of its URLs as fit. */
  lemma {:induction false} OffsetsStep(tiers: seq<seq<seq<byte>>>, t: nat)
    requires t < |tiers|
    ensures Offsets(tiers)[t + 1] == Min(UrlMax, Offsets(tiers)[t] + |tiers[t]|)
    decreases |tiers|
  {
    if t + 1 < |tiers| {
      var init := tiers[..|tiers| - 1];
      assert Offsets(tiers)[..|tiers|] == Offsets(init);
      OffsetsStep(init, t);
    }
  }

  /** The URLs tier `t` contributes: as many of its first ones as fit. */
  function Taken(tiers: seq<seq<seq<byte>>>, t: nat): (r: seq<seq<byte>>)
    requires t < |tiers|
    ensures |r| == Offsets(tiers)[t + 1] - Offsets(tiers)[t]
    ensures |r| <= |tiers[t]| && r == tiers[t][..|r|]
  {
    OffsetsStep(tiers, t);
    tiers[t][..Offsets(tiers)[t + 1] - Offsets(tiers)[t]]
  }

  /** The collected list holds the first 64 URLs of the tiers, or all of
      them when there are fewer. */
  lemma {:induction false} OffsetsTotal(tiers: seq<seq<seq<byte>>>)
    ensures Offsets(tiers)[|tiers|] == Min(UrlMax, |Flatten(tiers)|)
  {
    if |tiers| > 0 {
      var init := tiers[..|tiers| - 1];
      OffsetsTotal(init);
      OffsetsStep(tiers, |tiers| - 1);
      assert Offsets(tiers)[..|tiers|] == Offsets(init);
    }
  }

  /** `a` holds the entries of `b`, each as often, in some order. */
  predicate Permutation(a: seq<seq<byte>>, b: seq<seq<byte>>) {
    multiset(a) == multiset(b)
  }

  lemma PermutationTrans(a: seq<seq<byte>>, b: seq<seq<byte>>, c: seq<seq<byte>>)
    requires Permutation(a, b) && Permutation(b, c)
    ensures Permutation(a, c)
  {
  }

  /** Each tier's slice holds the URLs that tier contributed, in some
      order. */
  ghost predicate TiersPermuted(urls: seq<seq<byte>>, tiers: seq<seq<seq<byte>>>, upto: nat)
    requires upto <= |tiers| && |urls| >= Offsets(tiers)[upto]
  {
    var b := Offsets(tiers);
    forall t | 0 <= t < upto :: Permutation(urls[b[t]..b[t + 1]], Taken(tiers, t))
  }

  /** Each tier's slice holds the URLs that tier contributed, in file
      order. */
  ghost predicate TiersInOrder(urls: seq<seq<byte>>, tiers: seq<seq<seq<byte>>>, upto: nat)
    requires upto <= |tiers| && |urls| >= Offsets(tiers)[upto]
  {
    var b := Offsets(tiers);
    forall t | 0 <= t < upto :: urls[b[t]..b[t + 1]] == Taken(tiers, t)
  }

  /** The choices never move an entry. */
  ghost predicate NeverSwaps(rand: nat -> nat) {
    forall k: nat :: rand(k) == 0
  }

  /** Exchange two entries. */
  function Swap(s: seq<seq<byte>>, i: nat, j: nat): (r: seq<seq<byte>>)
    requires i < |s| && j < |s|
    ensures |r| == |s| && r[i] == s[j] && r[j] == s[i]
    ensures forall k | 0 <= k < |s| && k != i && k != j :: r[k] == s[k]
  {
    s[i := s[j]][j := s[i]]
  }

  /** Exchanging an entry with itself changes nothing. */
  lemma SwapSelf(s: seq<seq<byte>>, i: nat)
    requires i < |s|
    ensures Swap(s, i, i) == s
  {
  }

  /** A swap inside the part after `start` keeps what comes before and
      permutes what comes after. */
  lemma SwapInside(s: seq<seq<byte>>, start: nat, i: nat, j: nat)
    requires start <= i < |s| && start <= j < |s|
    ensures Swap(s, i, j)[..start] == s[..start]
    ensures Permutation(Swap(s, i, j)[start..], s[start..])
  {
    var r := Swap(s, i, j);
    assert r[start..] == s[start..][i - start := s[j]][j - start := s[i]];
  }

  /** A slice inside a kept prefix is the prefix's slice. */
  lemma SliceOfPrefix(u: seq<seq<byte>>, p: seq<seq<byte>>, i: nat, j: nat)
    requires i <= j <= |p| <= |u| && u[..|p|] == p
    ensures u[i..j] == p[i..j]
  {
    forall k | i <= k < j ensures u[k] == p[k] {
      assert u[..|p|][k] == u[k];
    }
  }

  /** The earlier tiers' slices lie before `start`, so what happens after
      it leaves them alone. */
  lemma KeepEarlier(urls: seq<seq<byte>>, prefix: seq<seq<byte>>, tiers: seq<seq<seq<byte>>>, t: nat)
    requires t < |tiers| && |prefix| == Offsets(tiers)[t] <= |urls| && urls[..|prefix|] == prefix
    requires TiersPermuted(prefix, tiers, t)
    ensures TiersPermuted(urls, tiers, t)
  {
    hide Offsets, Permutation;
    var b := Offsets(tiers);
    forall s | 0 <= s < t ensures Permutation(urls[b[s]..b[s + 1]], Taken(tiers, s)) {
      SliceOfPrefix(urls, prefix, b[s], b[s + 1]);
    }
  }

  /** The same for the order of the earlier tiers. */
  lemma KeepEarlierOrder(urls: seq<seq<byte>>, prefix: seq<seq<byte>>, tiers: seq<seq<seq<byte>>>, t: nat)
    requires t < |tiers| && |prefix| == Offsets(tiers)[t] <= |urls| && urls[..|prefix|] == prefix
    requires TiersInOrder(prefix, tiers, t)
    ensures TiersInOrder(urls, tiers, t)
  {
    hide Offsets;
    var b := Offsets(tiers);
    forall s | 0 <= s < t ensures urls[b[s]..b[s + 1]] == Taken(tiers, s) {
      SliceOfPrefix(urls, prefix, b[s], b[s + 1]);
    }
  }

  /** One more tier's slice in place. */
  lemma ExtendPermuted(urls: seq<seq<byte>>, tiers: seq<seq<seq<byte>>>, t: nat)
    requires t < |tiers| && |urls| >= Offsets(tiers)[t + 1]
    requires TiersPermuted(urls, tiers, t)
    requires Permutation(urls[Offsets(tiers)[t]..Offsets(tiers)[t + 1]], Taken(tiers, t))
    ensures TiersPermuted(urls, tiers, t + 1)
  {
    hide Offsets, Permutation, Taken;
  }

  lemma ExtendInOrder(urls: seq<seq<byte>>, tiers: seq<seq<seq<byte>>>, t: nat)
    requires t < |tiers| && |urls| >= Offsets(tiers)[t + 1]
    requires TiersInOrder(urls, tiers, t)
    requires urls[Offsets(tiers)[t]..Offsets(tiers)[t + 1]] == Taken(tiers, t)
    ensures TiersInOrder(urls, tiers, t + 1)
  {
    hide Offsets, Taken;
  }

  /** Once 64 URLs are held the remaining tiers take nothing. */
  lemma {:induction false} FullPermuted(urls: seq<seq<byte>>, tiers: seq<seq<seq<byte>>>, t: nat)
    requires t <= |tiers| && |urls| == Offsets(tiers)[t] == UrlMax
    requires TiersPermuted(urls, tiers, t)
    ensures TiersPermuted(urls, tiers, |tiers|)
    ensures TiersInOrder(urls, tiers, t) ==> TiersInOrder(urls, tiers, |tiers|)
    decreases |tiers| - t
  {
    if t < |tiers| {
      var b := Offsets(tiers);
      assert b[t] <= b[t + 1] <= UrlMax;
      assert urls[b[t]..b[t + 1]] == [] == Taken(tiers, t);
      ExtendPermuted(urls, tiers, t);
      if TiersInOrder(urls, tiers, t) {
        ExtendInOrder(urls, tiers, t);
      }
      FullPermuted(urls, tiers, t + 1);
    }
  }

  /** Appending the tier's next URL keeps the tier's part a permutation of
      the URLs taken so far, and in order when it was. */
  lemma AppendBoth(urls: seq<seq<byte>>, tier: seq<seq<byte>>, start: nat, added: nat)
    requires start <= |urls| && added < |tier|
    ensures (urls + [tier[added]])[..start] == urls[..start]
    ensures Permutation(urls[start..], tier[..added]) ==>
      Permutation((urls + [tier[added]])[start..], tier[..added + 1])
    ensures urls[start..] == tier[..added] ==> (urls + [tier[added]])[start..] == tier[..added + 1]
  {
    assert tier[..added + 1] == tier[..added] + [tier[added]];
    assert (urls + [tier[added]])[start..] == urls[start..] + [tier[added]];
  }

  /** `x % n`, the C remainder of a non-negative `x`. */
  function Remainder(x: nat, n: nat): (r: nat)
    requires n > 0
    ensures r < n
    ensures x == 0 ==> r == 0
  {
    x % n
  }

  /** The swap after a tier's `added`-th URL is appended: the last entry
      trades places with the one `choice % added` places back, which is
      still inside the tier. */
  function SwapBack(urls: seq<seq<byte>>, added: nat, choice: nat): (r: seq<seq<byte>>)
    requires 1 <= added <= |urls|
    ensures |r| == |urls| && r[..|urls| - added] == urls[..|urls| - added]
    ensures Permutation(r[|urls| - added..], urls[|urls| - added..])
    ensures choice == 0 ==> r == urls
  {
    var last := |urls| - 1;
    var back := Remainder(choice, added);
    SwapInside(urls, |urls| - added, last, last - back);
    SwapSelf(urls, last);
    Swap(urls, last, last - back)
  }

  /** Appending a tier's `added`-th URL, then the swap `scrape_torrent`
      makes from the second URL of a tier on. */
  function AddUrl(urls: seq<seq<byte>>, url: seq<byte>, added: nat, choice: nat): (r: seq<seq<byte>>)
    requires 1 <= added <= |urls| + 1
  {
    if added >= 2 then SwapBack(urls + [url], added, choice) else urls + [url]
  }

  /** The state of the loop over one tier after `added` of its URLs went
      in behind `prior`. */
  ghost predicate Filled(urls: seq<seq<byte>>, prior: seq<seq<byte>>, tier: seq<seq<byte>>, added: nat, rand: nat -> nat) {
    added <= |tier| && |urls| == |prior| + added && urls[..|prior|] == prior
    && Permutation(urls[|prior|..], tier[..added])
    && (NeverSwaps(rand) ==> urls[|prior|..] == tier[..added])
  }

  /** One turn of the loop over a tier keeps its state. */
  lemma FillStep(urls: seq<seq<byte>>, prior: seq<seq<byte>>, tier: seq<seq<byte>>, added: nat, choice: nat, rand: nat -> nat)
    requires Filled(urls, prior, tier, added, rand) && added < |tier|
    requires NeverSwaps(rand) ==> choice == 0
    ensures Filled(AddUrl(urls, tier[added], added + 1, choice), prior, tier, added + 1, rand)
  {
    var start := |prior|;
    AppendBoth(urls, tier, start, added);
    var grown := urls + [tier[added]];
    if added + 1 >= 2 {
      var moved := SwapBack(grown, added + 1, choice);
      assert |grown| - (added + 1) == start;
      PermutationTrans(moved[start..], grown[start..], tier[..added + 1]);
    }
  }

  /** The inner loop of `scrape_torrent` for one tier: its URLs are
      appended in order while fewer than 64 are held, and each one after
      the first is swapped with the entry `rand() % added_in_tier` places
      back, which stays inside the tier. `rand(calls)` is the value the next
      call returns. */
  method FillTier(prior: seq<seq<byte>>, tier: seq<seq<byte>>, rand: nat -> nat, calls: nat)
    returns (urls: seq<seq<byte>>, used: nat)
    requires |prior| <= UrlMax
    ensures |urls| == Min(UrlMax, |prior| + |tier|)
    ensures urls[..|prior|] == prior
    ensures Permutation(urls[|prior|..], tier[..|urls| - |prior|])
    ensures NeverSwaps(rand) ==> urls[|prior|..] == tier[..|urls| - |prior|]
    ensures used >= calls
  {
    assert Filled(prior, prior, tier, 0, rand);
    hide Permutation, AddUrl;
    urls, used := prior, calls;
    var added := 0;
    while added < |tier| && |urls| < UrlMax
      invariant |urls| == |prior| + added <= UrlMax
      invariant Filled(urls, prior, tier, added, rand)
      invariant used >= calls
    {
      var choice := 0;
      if added + 1 >= 2 {
        choice, used := rand(used), used + 1;
      }
      FillStep(urls, prior, tier, added, choice, rand);
      urls := AddUrl(urls, tier[added], added + 1, choice);
      added := added + 1;
    }
  }

  /** The URL loop of `scrape_torrent` over an announce list, tier by tier,
      stopping once 64 URLs are held. `rand(k)` is the value the `k`-th
      call of `rand()` returns. The list holds the first 64 URLs of the
      tiers, each tier in its own slice and in some order. */
  method CollectTiers(tiers: seq<seq<seq<byte>>>, rand: nat -> nat) returns (urls: seq<seq<byte>>)
    ensures |urls| == Offsets(tiers)[|tiers|]
    ensures TiersPermuted(urls, tiers, |tiers|)
    ensures NeverSwaps(rand) ==> TiersInOrder(urls, tiers, |tiers|)
  {
    hide Offsets, Permutation, Taken;
    var b := Offsets(tiers);
    urls := [];
    var calls := 0;
    var t := 0;
    while t < |tiers|
      invariant 0 <= t <= |tiers|
      invariant |urls| == b[t]
      invariant TiersPermuted(urls, tiers, t)
      invariant NeverSwaps(rand) ==> TiersInOrder(urls, tiers, t)
    {
      OffsetsStep(tiers, t);
      var prefix := urls;
      urls, calls := FillTier(prefix, tiers[t], rand, calls);
      assert |urls| == b[t + 1];
      assert urls[b[t]..b[t + 1]] == urls[|prefix|..];
      KeepEarlier(urls, prefix, tiers, t);
      ExtendPermuted(urls, tiers, t);
      if NeverSwaps(rand) {
        KeepEarlierOrder(urls, prefix, tiers, t);
        ExtendInOrder(urls, tiers, t);
      }
      if |urls| >= UrlMax {
        FullPermuted(urls, tiers, t + 1);
        return;
      }
      t := t + 1;
    }
  }

  // ---------------------------------------------------------------------
  // Asking the trackers in order
  // ---------------------------------------------------------------------

  /** How the try-in-order loop ends: with the counts of the first tracker
      that answered, or with none left. */
  datatype Attempt = Answered(index: nat, counts: Tracker.Counts) | Exhausted

  /** The loop over the collected URLs: `scrape(url, hash)` stands for
      `scrapec`, and the first success ends the loop. */
  function TryInOrder(urls: seq<seq<byte>>, hash: seq<byte>,
                      scrape: (seq<byte>, seq<byte>) -> Result<Tracker.Counts, Tracker.ScrapeError>): (r: Attempt)
    ensures r.Answered? ==> r.index < |urls| && scrape(urls[r.index], hash) == Ok(r.counts)
    ensures r.Answered? ==> forall j | 0 <= j < r.index :: scrape(urls[j], hash).Err?
    ensures r.Exhausted? <==> forall j | 0 <= j < |urls| :: scrape(urls[j], hash).Err?
  {
    TryFrom(urls, 0, hash, scrape)
  }

  /** The loop from position `i` on. */
  function TryFrom(urls: seq<seq<byte>>, i: nat, hash: seq<byte>,
                   scrape: (seq<byte>, seq<byte>) -> Result<Tracker.Counts, Tracker.ScrapeError>): (r: Attempt)
    requires i <= |urls|
    ensures r.Answered? ==> i <= r.index < |urls| && scrape(urls[r.index], hash) == Ok(r.counts)
    ensures r.Answered? ==> forall j | i <= j < r.index :: scrape(urls[j], hash).Err?
    ensures r.Exhausted? <==> forall j | i <= j < |urls| :: scrape(urls[j], hash).Err?
    decreases |urls| - i
  {
    if i == |urls| then Exhausted
    else match scrape(urls[i], hash)
      case Ok(counts) => Answered(i, counts)
      case Err(_) => TryFrom(urls, i + 1, hash, scrape)
  }

  /** The trackers after the one that answered are never asked: replacing
      them changes nothing. */
  lemma TryInOrderStops(urls: seq<seq<byte>>, later: seq<seq<byte>>, hash: seq<byte>,
                        scrape: (seq<byte>, seq<byte>) -> Result<Tracker.Counts, Tracker.ScrapeError>)
    requires TryInOrder(urls, hash, scrape).Answered?
    ensures var n := TryInOrder(urls, hash, scrape).index;
      TryInOrder(urls[..n + 1] + later, hash, scrape) == TryInOrder(urls, hash, scrape)
  {
    var r := TryInOrder(urls, hash, scrape);
    var v := urls[..r.index + 1] + later;
    TryFromAgree(urls, v, 0, r.index, hash, scrape);
  }

  /** Two lists that agree up to the answering tracker end the same way. */
  lemma {:induction false} TryFromAgree(u: seq<seq<byte>>, v: seq<seq<byte>>, i: nat, n: nat, hash: seq<byte>,
                                        scrape: (seq<byte>, seq<byte>) -> Result<Tracker.Counts, Tracker.ScrapeError>)
    requires i <= n < |u| && n < |v| && u[..n + 1] == v[..n + 1]
    requires TryFrom(u, i, hash, scrape).Answered? && TryFrom(u, i, hash, scrape).index == n
    ensures TryFrom(v, i, hash, scrape) == TryFrom(u, i, hash, scrape)
    decreases n - i
  {
    assert u[i] == u[..n + 1][i] == v[..n + 1][i] == v[i];
    if i < n {
      TryFromAgree(u, v, i + 1, n, hash, scrape);
    }
  }

  // ---------------------------------------------------------------------
  // scrape_torrent
  // ---------------------------------------------------------------------

  /** How `scrape_torrent` ends. */
  datatype ScrapeOutcome =
    | InfoNotFound                                    // info entry not found
    | AnnounceNotFound                                // announce entry not found
    | Tried(urls: seq<seq<byte>>, attempt: Attempt)   // the list, and how asking it ended

  /** The shapes `scrape_torrent` reads without checking: the announce list
      when there is one, otherwise the announce string when there is one. */
  predicate ScrapeShaped(root: Value) {
    match Lookup(root, AnnounceListKey)
    case Some(list) => TierShaped(list)
    case None => Lookup(root, AnnounceKey).Some? ==> Lookup(root, AnnounceKey).value.Str?
  }

  /** `scrape_torrent`: the info hash is the digest of the canonical `info`
      stream; the trackers come from `announce-list`, or from `announce`
      when there is no list, and are asked in order. */
  method ScrapeTorrent(root: Value, sha1: seq<byte> -> seq<byte>, rand: nat -> nat,
                       scrape: (seq<byte>, seq<byte>) -> Result<Tracker.Counts, Tracker.ScrapeError>)
    returns (r: ScrapeOutcome)
    requires ScrapeShaped(root)
    ensures r == InfoNotFound <==> Lookup(root, InfoKey).None?
    ensures r == AnnounceNotFound <==>
      Lookup(root, InfoKey).Some? && Lookup(root, AnnounceListKey).None? && Lookup(root, AnnounceKey).None?
    ensures r.Tried? ==> |r.urls| <= UrlMax
    ensures r.Tried? ==> r.attempt == TryInOrder(r.urls, InfoHash(sha1, Lookup(root, InfoKey).value), scrape)
    ensures r.Tried? && Lookup(root, AnnounceListKey).None? ==> r.urls == [CStr(Lookup(root, AnnounceKey).value.bytes)]
    ensures r.Tried? && Lookup(root, AnnounceListKey).Some? ==>
      var tiers := Tiers(Lookup(root, AnnounceListKey).value);
      |r.urls| == Offsets(tiers)[|tiers|] && TiersPermuted(r.urls, tiers, |tiers|)
  {
    var info := Lookup(root, InfoKey);
    if info.None? {
      return InfoNotFound;
    }
    var hash := InfoHash(sha1, info.value);
    var urls: seq<seq<byte>>;
    var list := Lookup(root, AnnounceListKey);
    if list.None? {
      var announce := Lookup(root, AnnounceKey);
      if announce.None? {
        return AnnounceNotFound;
      }
      urls := [CStr(announce.value.bytes)];
    } else {
      urls := CollectTiers(Tiers(list.value), rand);
    }
    return Tried(urls, TryInOrder(urls, hash, scrape));
  }
}

=== FILE: tracker.dfy ===
/** The scrape client (scrapec.c): splitting a tracker URL and rewriting its
    announce path into a scrape path, the HTTP GET request and the checks on
    its response, the UDP connect and scrape records of BEP 15 with their
    reply checks, and the 40-digit hexadecimal info hash of the command
    line. Sockets, name resolution and time-outs are not modelled: a tracker
    is a function from the bytes sent to the bytes received. */
module Tracker {
  import opened Wrappers
  import opened Bytes
  import opened Decimal
  import opened Bencode
  import BencodeLemmas

  // ---------------------------------------------------------------------
  // Tracker URLs (parse_url)
  // ---------------------------------------------------------------------

  /** `url_struct.protocol`: 1 for HTTP, 2 for UDP. */
  datatype Protocol = Http | Udp

  /** `struct url_struct` once `parse_url` has filled it in. */
  datatype Url = Url(protocol: Protocol, host: seq<byte>, port: int, path: seq<byte>)

  /** The messages `parse_url` writes before returning 1. */
  datatype UrlError =
    | UnrecognizedProtocol        // neither `http://` nor `udp://`
    | HostTooLong                 // 64 bytes or more after the scheme
    | PathTooLong                 // path of 64 bytes or more
    | AuthenticationNotSupported  // `@` in the host part
    | NoUdpPort                   // UDP URL without `:port`
    | InvalidPort                 // port that reads as 0 or less
    | InvalidPath                 // HTTP path without `/`
    | NotAnnounceOrScrape         // last segment neither `/announce` nor `/scrape`

  /** The capacity of `url_struct.host` and `url_struct.path`, NUL included. */
  const UrlField: nat := 64

  const HttpScheme: seq<byte> := Of("http://")
  const UdpScheme: seq<byte> := Of("udp://")
  const ScrapeWord: seq<byte> := Of("/scrape")
  const AnnounceWord: seq<byte> := Of("/announce")
  const DefaultHttpPort: int := 80

  /** The protocol a URL names and where the part after the scheme starts. */
  function Scheme(url: seq<byte>): (r: Option<(Protocol, nat)>)
    ensures r.Some? ==> r.value.1 <= |url|
    ensures r.Some? && r.value.0 == Http <==> Matches(url, 0, HttpScheme)
    ensures r.Some? && r.value.0 == Udp <==> !Matches(url, 0, HttpScheme) && Matches(url, 0, UdpScheme)
  {
    if Matches(url, 0, HttpScheme) then Some((Http, |HttpScheme|))
    else if Matches(url, 0, UdpScheme) then Some((Udp, |UdpScheme|))
    else None
  }

  /** The last `/`-segment of `path` starts with `/scrape`. */
  predicate ScrapeSegment(path: seq<byte>) {
    var p := LastIndexOf(path, Slash);
    p.Some? && Matches(path, p.value, ScrapeWord)
  }

  /** The HTTP path rewrite of `parse_url`: a last segment that starts with
      `/scrape` is kept, one that starts with `/announce` has that word
      replaced by `/scrape` and the rest of the segment kept, and anything
      else is refused. */
  function ScrapePath(path: seq<byte>): (r: Result<seq<byte>, UrlError>)
    ensures r.Ok? ==> ScrapeSegment(r.value) && |r.value| <= |path|
    ensures r.Ok? && |path| > 0 && path[0] == Slash ==> |r.value| > 0 && r.value[0] == Slash
    ensures r == Err(InvalidPath) <==> forall j | 0 <= j < |path| :: path[j] != Slash
    ensures r == Err(NotAnnounceOrScrape) <==>
      LastIndexOf(path, Slash).Some? && !Matches(path, LastIndexOf(path, Slash).value, ScrapeWord)
      && !Matches(path, LastIndexOf(path, Slash).value, AnnounceWord)
    ensures r == Ok(path) <==> ScrapeSegment(path)
    ensures r.Err? ==> r.error == InvalidPath || r.error == NotAnnounceOrScrape
  {
    match LastIndexOf(path, Slash)
    case None => Err(InvalidPath)
    case Some(p) =>
      if Matches(path, p, ScrapeWord) then Ok(path)
      else if Matches(path, p, AnnounceWord) then Ok(AnnounceToScrape(path, p))
      else Err(NotAnnounceOrScrape)
  }

  /** `/announce` at `p`, the last `/` of `path`, replaced by `/scrape`. */
  function AnnounceToScrape(path: seq<byte>, p: nat): (r: seq<byte>)
    requires LastIndexOf(path, Slash) == Some(p) && Matches(path, p, AnnounceWord)
    ensures ScrapeSegment(r) && |r| < |path|
    ensures |path| > 0 && path[0] == Slash ==> |r| > 0 && r[0] == Slash
  {
    var r := path[..p] + ScrapeWord + path[p + |AnnounceWord|..];
    assert forall j | p < j < |r| :: r[j] != Slash by {
      forall j | p < j < |r| ensures r[j] != Slash {
        if j >= p + |ScrapeWord| { assert r[j] == path[j + 2]; }
      }
    }
    LastIndexOfAt(r, Slash, p);
    MatchesSlice(r, p, ScrapeWord);
    assert r[p..p + |ScrapeWord|] == ScrapeWord;
    r
  }

  /** The path `parse_url` stores for the path part `path`: that path for
      UDP, its scrape form for HTTP. */
  predicate StoredPath(protocol: Protocol, path: seq<byte>, stored: seq<byte>) {
    if protocol == Udp then stored == path else ScrapePath(path) == Ok(stored)
  }

  /** The end of `parse_url` once host, port and path are known: HTTP paths
      are rewritten to scrape paths, UDP paths are kept. */
  function Finish(protocol: Protocol, host: seq<byte>, port: int, path: seq<byte>): (r: Result<Url, UrlError>)
    requires |path| > 0 && path[0] == Slash
    ensures r.Ok? ==> r.value.protocol == protocol && r.value.host == host && r.value.port == port
    ensures r.Ok? ==> |r.value.path| <= |path| && |r.value.path| > 0 && r.value.path[0] == Slash
    ensures r.Ok? && protocol == Http ==> ScrapeSegment(r.value.path)
    ensures r.Err? ==> r.error == NotAnnounceOrScrape
    ensures protocol == Udp ==> r == Ok(Url(Udp, host, port, path))
    ensures protocol == Http ==> (r.Ok? <==> ScrapePath(path).Ok?)
    ensures r.Ok? ==> StoredPath(protocol, path, r.value.path)
  {
    if protocol == Udp then Ok(Url(Udp, host, port, path))
    else match ScrapePath(path)
      case Err(e) => Err(e)
      case Ok(p) => Ok(Url(protocol, host, port, p))
  }

  /** `strchr(ptr, '/')`: the host part runs up to the first `/`, and the
      path is the rest; without a `/` the path is `/`. */
  function SplitHostPath(rest: seq<byte>): (r: (seq<byte>, seq<byte>))
    ensures |r.0| <= |rest| && (|r.1| <= |rest| || r.1 == [Slash])
    ensures forall j | 0 <= j < |r.0| :: r.0[j] != Slash
    ensures |r.1| > 0 && r.1[0] == Slash
  {
    match IndexOf(rest, Slash)
    case None => (rest, [Slash])
    case Some(k) => (rest[..k], rest[k..])
  }

  /** The port checks of `parse_url`, which follow the `@` check: a `:port`
      that reads as a positive number, or else port 80 for HTTP and a
      failure for UDP. */
  function PortCheck(protocol: Protocol, host: seq<byte>, path: seq<byte>): (r: Result<Url, UrlError>)
    requires |path| > 0 && path[0] == Slash
    ensures r.Ok? ==> r.value.protocol == protocol && |r.value.host| <= |host|
    ensures r.Ok? ==> forall j | 0 <= j < |r.value.host| :: r.value.host[j] != Colon && r.value.host[j] == host[j]
    ensures r.Ok? ==> r.value.port > 0
    ensures r.Ok? ==> |r.value.path| <= |path| && |r.value.path| > 0 && r.value.path[0] == Slash
    ensures r.Ok? && protocol == Http ==> ScrapeSegment(r.value.path)
    ensures r.Err? ==> r.error == NoUdpPort || r.error == InvalidPort || r.error == NotAnnounceOrScrape
    ensures IndexOf(host, Colon).None? ==>
      (protocol == Udp ==> r == Err(NoUdpPort))
      && (r.Ok? ==> r.value.host == host && r.value.port == DefaultHttpPort)
    ensures IndexOf(host, Colon).Some? && Atoi(host[IndexOf(host, Colon).value + 1..]) <= 0 ==> r == Err(InvalidPort)
    ensures r.Ok? ==> StoredPath(protocol, path, r.value.path)
  {
    match IndexOf(host, Colon)
    case None => DefaultPort(protocol, host, path)
    case Some(c) => WrittenPort(protocol, host, c, path)
  }

  /** A host part without `:`: port 80 for HTTP, a failure for UDP. */
  function DefaultPort(protocol: Protocol, host: seq<byte>, path: seq<byte>): (r: Result<Url, UrlError>)
    requires |path| > 0 && path[0] == Slash
    ensures protocol == Udp ==> r == Err(NoUdpPort)
    ensures r.Ok? ==> r.value.protocol == protocol && r.value.host == host && r.value.port == DefaultHttpPort
    ensures r.Ok? ==> |r.value.path| <= |path| && |r.value.path| > 0 && r.value.path[0] == Slash
    ensures r.Ok? && protocol == Http ==> ScrapeSegment(r.value.path)
    ensures r.Err? ==> r.error == NoUdpPort || r.error == NotAnnounceOrScrape
    ensures r.Ok? ==> StoredPath(protocol, path, r.value.path)
  {
    if protocol == Udp then Err(NoUdpPort)
    else Finish(protocol, host, DefaultHttpPort, path)
  }

  /** A host part with its first `:` at `c`: the number after it, which
      must be positive, and the host cut at the `:`. */
  function WrittenPort(protocol: Protocol, host: seq<byte>, c: nat, path: seq<byte>): (r: Result<Url, UrlError>)
    requires c < |host| && |path| > 0 && path[0] == Slash
    requires forall j | 0 <= j < c :: host[j] != Colon
    ensures Atoi(host[c + 1..]) <= 0 ==> r == Err(InvalidPort)
    ensures r.Ok? ==> r.value.protocol == protocol && r.value.host == host[..c]
    ensures r.Ok? ==> r.value.port == Atoi(host[c + 1..]) && r.value.port > 0
    ensures r.Ok? ==> forall j | 0 <= j < |r.value.host| :: r.value.host[j] != Colon && r.value.host[j] == host[j]
    ensures r.Ok? ==> |r.value.path| <= |path| && |r.value.path| > 0 && r.value.path[0] == Slash
    ensures r.Ok? && protocol == Http ==> ScrapeSegment(r.value.path)
    ensures r.Err? ==> r.error == InvalidPort || r.error == NotAnnounceOrScrape
    ensures r.Ok? ==> StoredPath(protocol, path, r.value.path)
  {
    var port := Atoi(host[c + 1..]);
    if port <= 0 then Err(InvalidPort)
    else Finish(protocol, host[..c], port, path)
  }

  /** The host checks of `parse_url`: no `@` anywhere in the host part,
      then the port checks. */
  function HostPort(protocol: Protocol, host: seq<byte>, path: seq<byte>): (r: Result<Url, UrlError>)
    requires |path| > 0 && path[0] == Slash
    ensures r.Ok? ==> r.value.protocol == protocol && |r.value.host| <= |host|
    ensures r.Ok? ==> forall j | 0 <= j < |r.value.host| ::
      r.value.host[j] != At && r.value.host[j] != Colon && r.value.host[j] == host[j]
    ensures r.Ok? ==> r.value.port > 0
    ensures r.Ok? ==> |r.value.path| <= |path| && |r.value.path| > 0 && r.value.path[0] == Slash
    ensures r.Ok? && protocol == Http ==> ScrapeSegment(r.value.path)
    ensures r.Err? ==> r.error == AuthenticationNotSupported || r.error == NoUdpPort || r.error == InvalidPort || r.error == NotAnnounceOrScrape
    ensures (exists j | 0 <= j < |host| :: host[j] == At) ==> r == Err(AuthenticationNotSupported)
    ensures (forall j | 0 <= j < |host| :: host[j] != At && host[j] != Colon) ==>
      (protocol == Udp ==> r == Err(NoUdpPort))
      && (r.Ok? ==> r.value.host == host && r.value.port == DefaultHttpPort)
    ensures (forall j | 0 <= j < |host| :: host[j] != At) ==>
      (IndexOf(host, Colon).Some? && Atoi(host[IndexOf(host, Colon).value + 1..]) <= 0 ==> r == Err(InvalidPort))
    ensures r.Ok? ==> StoredPath(protocol, path, r.value.path)
  {
    if IndexOf(host, At).Some? then Err(AuthenticationNotSupported)
    else PortCheck(protocol, host, path)
  }

  /** `parse_url` after the scheme, on a remainder `rest` shorter than the
      64-byte host field: split at the first `/`, then the host checks. */
  function ParseRest(protocol: Protocol, rest: seq<byte>): (r: Result<Url, UrlError>)
    requires |rest| < UrlField
    ensures r.Ok? ==> r.value.protocol == protocol && |r.value.host| < UrlField && |r.value.path| < UrlField
    ensures r.Ok? ==> forall j | 0 <= j < |r.value.host| ::
      r.value.host[j] != At && r.value.host[j] != Colon && r.value.host[j] != Slash
    ensures r.Ok? ==> r.value.port > 0
    ensures r.Ok? ==> |r.value.path| > 0 && r.value.path[0] == Slash
    ensures r.Ok? && protocol == Http ==> ScrapeSegment(r.value.path)
    ensures var (host, path) := SplitHostPath(rest);
      && ((exists j | 0 <= j < |host| :: host[j] == At) ==> r == Err(AuthenticationNotSupported))
      && (protocol == Udp && (forall j | 0 <= j < |host| :: host[j] != At && host[j] != Colon) ==> r == Err(NoUdpPort))
      && (protocol == Http && ScrapePath(path).Err? ==> r.Err?)
    ensures r.Ok? ==> StoredPath(protocol, SplitHostPath(rest).1, r.value.path)
  {
    var (host, path) := SplitHostPath(rest);
    if |path| >= UrlField then Err(PathTooLong)
    else HostPort(protocol, host, path)
  }

  /** `parse_url`. The URL is the content of a C string. */
  function ParseUrl(url: seq<byte>): (r: Result<Url, UrlError>)
    requires NoNul(url)
    ensures r == Err(UnrecognizedProtocol) <==> !Matches(url, 0, HttpScheme) && !Matches(url, 0, UdpScheme)
    ensures r.Ok? ==> (r.value.protocol == Http <==> Matches(url, 0, HttpScheme))
    ensures r.Ok? ==> |r.value.host| < UrlField && |r.value.path| < UrlField
    ensures r.Ok? ==> forall j | 0 <= j < |r.value.host| ::
      r.value.host[j] != At && r.value.host[j] != Colon && r.value.host[j] != Slash
    ensures r.Ok? ==> r.value.port > 0
    ensures r.Ok? ==> |r.value.path| > 0 && r.value.path[0] == Slash
    ensures r.Ok? && r.value.protocol == Http ==> ScrapeSegment(r.value.path)
    ensures Scheme(url).Some? && |url| - Scheme(url).value.1 < UrlField ==>
      var (host, path) := SplitHostPath(url[Scheme(url).value.1..]);
      && ((exists j | 0 <= j < |host| :: host[j] == At) ==> r == Err(AuthenticationNotSupported))
      && (Scheme(url).value.0 == Udp && (forall j | 0 <= j < |host| :: host[j] != At && host[j] != Colon)
          ==> r == Err(NoUdpPort))
      && (Scheme(url).value.0 == Http && ScrapePath(path).Err? ==> r.Err?)
    ensures r.Ok? ==> Scheme(url).Some? && StoredPath(r.value.protocol, SplitHostPath(url[Scheme(url).value.1..]).1, r.value.path)
  {
    match Scheme(url)
    case None => Err(UnrecognizedProtocol)
    case Some((protocol, start)) =>
      if |url| - start >= UrlField then Err(HostTooLong)
      else ParseRest(protocol, url[start..])
  }

  /** A remainder of 64 bytes or more is refused as too long a host; the
      path length and `strrchr` checks can never fire, since the path is a
      suffix of the remainder already known to be short and starts with `/`. */
  lemma ParseUrlErrors(url: seq<byte>)
    requires NoNul(url)
    ensures Scheme(url).Some? && |url| - Scheme(url).value.1 >= UrlField ==> ParseUrl(url) == Err(HostTooLong)
    ensures ParseUrl(url) != Err(PathTooLong) && ParseUrl(url) != Err(InvalidPath)
  {
    hide HostPort, Matches, IndexOf;
    if Scheme(url).Some? && |url| - Scheme(url).value.1 < UrlField {
      var (host, path) := SplitHostPath(url[Scheme(url).value.1..]);
      assert |path| < UrlField;
    }
  }

  /** The text of a tracker URL: scheme, host, an optional `:port`, path. */
  function UrlText(protocol: Protocol, host: seq<byte>, port: Option<nat>, path: seq<byte>): (r: seq<byte>)
    ensures NoNul(host) && NoNul(path) ==> NoNul(r)
  {
    UrlWordsNoNul();
    (if protocol == Http then HttpScheme else UdpScheme)
      + host
      + (if port.Some? then [Colon] + Digits(port.value) else [])
      + path
  }

  /** The schemes and the path words hold no NUL. */
  lemma UrlWordsNoNul()
    ensures NoNul(HttpScheme) && NoNul(UdpScheme) && NoNul(AnnounceWord)
  {
  }

  /** The bytes a host name may hold for `parse_url` to keep it whole. */
  predicate PlainHost(host: seq<byte>) {
    forall j | 0 <= j < |host| :: host[j] != Slash && host[j] != At && host[j] != Colon
  }

  /** The port a URL text carries, or the HTTP default. */
  function PortOf(port: Option<nat>): int {
    if port.Some? then port.value else DefaultHttpPort
  }

  /** What `parse_url` stores for a URL written out in parts: the host, the
      port written after `:` (80 when an HTTP URL has none), and the path,
      `/` when a UDP URL gives none. An HTTP path is stored in its scrape
      form, so an HTTP URL must carry a path the rewrite accepts. */
  lemma {:induction false} ParseUrlText(protocol: Protocol, host: seq<byte>, port: Option<nat>, path: seq<byte>)
    requires PlainHost(host) && NoNul(host) && NoNul(path)
    requires port.Some? ==> port.value > 0
    requires port.None? ==> protocol == Http
    requires |path| == 0 || path[0] == Slash
    requires protocol == Http ==> |path| > 0 && ScrapePath(path).Ok?
    requires |host| + (if port.Some? then 1 + |Digits(port.value)| else 0) + |path| < UrlField
    ensures ParseUrl(UrlText(protocol, host, port, path))
         == Ok(Url(protocol, host, PortOf(port),
                   if protocol == Http then ScrapePath(path).value else if |path| == 0 then [Slash] else path))
  {
    hide Scheme, SplitHostPath, HostPort, Matches, IndexOf, Atoi, Digits, ParseUrl, PlainHost, ScrapeSegment;
    hide ParseRest, PortCheck, DefaultPort, WrittenPort, Finish, ScrapePath, NoNul;
    var scheme := if protocol == Http then HttpScheme else UdpScheme;
    var tail := if port.Some? then [Colon] + Digits(port.value) else [];
    var hostPart := host + tail;
    var fullPath := if |path| == 0 then [Slash] else path;
    var stored := if protocol == Http then ScrapePath(path).value else fullPath;
    var url := scheme + hostPart + path;
    assert url == UrlText(protocol, host, port, path) && NoNul(url);
    assert Scheme(url) == Some((protocol, |scheme|)) && url[|scheme|..] == hostPart + path
        && |url| - |scheme| < UrlField by {
      SchemeOfText(protocol, hostPart + path);
      assert url == scheme + (hostPart + path);
    }
    assert SplitHostPath(hostPart + path) == (hostPart, fullPath)
        && HostPort(protocol, hostPart, fullPath) == Ok(Url(protocol, host, PortOf(port), stored)) by {
      RestOfText(protocol, host, port, path);
    }
    assert ParseUrl(url) == HostPort(protocol, hostPart, fullPath) by {
      ParseUrlOf(url, protocol, |scheme|, hostPart, fullPath);
    }
  }

  /** Host, `:port` and path of a URL text are split apart and read back. */
  lemma RestOfText(protocol: Protocol, host: seq<byte>, port: Option<nat>, path: seq<byte>)
    requires PlainHost(host)
    requires port.Some? ==> port.value > 0
    requires port.None? ==> protocol == Http
    requires |path| == 0 || path[0] == Slash
    requires protocol == Http ==> |path| > 0 && ScrapePath(path).Ok?
    ensures var hostPart := host + (if port.Some? then [Colon] + Digits(port.value) else []);
      var fullPath := if |path| == 0 then [Slash] else path;
      SplitHostPath(hostPart + path) == (hostPart, fullPath)
      && HostPort(protocol, hostPart, fullPath)
         == Ok(Url(protocol, host, PortOf(port), if protocol == Http then ScrapePath(path).value else fullPath))
  {
    hide SplitHostPath, HostPort, Matches, IndexOf, Atoi, Digits;
    var hostPart := host + (if port.Some? then [Colon] + Digits(port.value) else []);
    HostPartPlain(host, port);
    SplitOfText(hostPart, path);
    HostPortOfText(protocol, host, port, if |path| == 0 then [Slash] else path);
  }

  /** A URL whose scheme is known and whose remainder is short enough goes
      through the host and port checks. */
  lemma ParseUrlOf(url: seq<byte>, protocol: Protocol, start: nat, host: seq<byte>, path: seq<byte>)
    requires NoNul(url)
    requires Scheme(url) == Some((protocol, start)) && |url| - start < UrlField
    requires SplitHostPath(url[start..]) == (host, path)
    ensures |path| > 0 && path[0] == Slash
    ensures ParseUrl(url) == HostPort(protocol, host, path)
  {
    hide Scheme, SplitHostPath, HostPort, Matches;
  }

  /** The scheme is recognised, and the rest starts right after it. */
  lemma SchemeOfText(protocol: Protocol, rest: seq<byte>)
    ensures Scheme((if protocol == Http then HttpScheme else UdpScheme) + rest)
         == Some((protocol, if protocol == Http then |HttpScheme| else |UdpScheme|))
  {
    var scheme := if protocol == Http then HttpScheme else UdpScheme;
    var url := scheme + rest;
    MatchesSlice(url, 0, scheme);
    assert url[0..|scheme|] == scheme;
    if protocol == Udp {
      MatchesSlice(url, 0, HttpScheme);
      assert url[0] != HttpScheme[0];
    }
  }

  /** Host and `:port` hold no `/` and no `@`. */
  lemma HostPartPlain(host: seq<byte>, port: Option<nat>)
    requires PlainHost(host)
    ensures var hostPart := host + (if port.Some? then [Colon] + Digits(port.value) else []);
      forall j | 0 <= j < |hostPart| :: hostPart[j] != Slash && hostPart[j] != At
  {
  }

  /** The first `/` of a URL text is where its path starts. */
  lemma SplitOfText(hostPart: seq<byte>, path: seq<byte>)
    requires forall j | 0 <= j < |hostPart| :: hostPart[j] != Slash
    requires |path| == 0 || path[0] == Slash
    ensures SplitHostPath(hostPart + path) == (hostPart, if |path| == 0 then [Slash] else path)
  {
    var rest := hostPart + path;
    if |path| > 0 {
      IndexOfAt(rest, Slash, |hostPart|);
      assert rest[..|hostPart|] == hostPart && rest[|hostPart|..] == path;
    } else {
      assert rest == hostPart;
    }
  }

  /** The port of a URL text is read back, and the host is cut before it. */
  lemma HostPortOfText(protocol: Protocol, host: seq<byte>, port: Option<nat>, path: seq<byte>)
    requires PlainHost(host)
    requires port.Some? ==> port.value > 0
    requires port.None? ==> protocol == Http
    requires |path| > 0 && path[0] == Slash
    requires protocol == Http ==> ScrapePath(path).Ok?
    ensures HostPort(protocol, host + (if port.Some? then [Colon] + Digits(port.value) else []), path)
         == Ok(Url(protocol, host, PortOf(port), if protocol == Http then ScrapePath(path).value else path))
  {
    hide HostPort, Digits, PlainHost, ScrapeSegment;
    if port.Some? {
      HostPortWritten(protocol, host, port.value, path);
    } else {
      HostPortDefault(host, path);
      assert host + [] == host;
    }
  }

  /** A host followed by `:port` gives that host and port. */
  lemma HostPortWritten(protocol: Protocol, host: seq<byte>, port: nat, path: seq<byte>)
    requires PlainHost(host)
    requires port > 0
    requires |path| > 0 && path[0] == Slash
    requires protocol == Http ==> ScrapePath(path).Ok?
    ensures HostPort(protocol, host + ([Colon] + Digits(port)), path)
         == Ok(Url(protocol, host, port, if protocol == Http then ScrapePath(path).value else path))
  {
    var hostPart := host + ([Colon] + Digits(port));
    HostPartPlain(host, Some(port));
    hide Finish, ScrapePath, Atoi, LastIndexOf, Matches;
    assert IndexOf(hostPart, At).None?;
    IndexOfAt(hostPart, Colon, |host|);
    assert hostPart[|host| + 1..] == Digits(port) + [];
    AtoiDigits(port, []);
    assert hostPart[..|host|] == host;
  }

  /** An HTTP host without `:port` gets port 80. */
  lemma HostPortDefault(host: seq<byte>, path: seq<byte>)
    requires PlainHost(host)
    requires |path| > 0 && path[0] == Slash
    requires ScrapePath(path).Ok?
    ensures HostPort(Http, host, path) == Ok(Url(Http, host, DefaultHttpPort, ScrapePath(path).value))
  {
    hide Finish, ScrapePath, Atoi, LastIndexOf, Matches;
    assert IndexOf(host, At).None?;
    assert IndexOf(host, Colon).None?;
  }

  /** A path already in scrape form goes through the end of `parse_url`
      unchanged. */
  lemma FinishKeeps(protocol: Protocol, host: seq<byte>, port: int, path: seq<byte>)
    requires |path| > 0 && path[0] == Slash
    requires protocol == Http ==> ScrapeSegment(path)
    ensures Finish(protocol, host, port, path) == Ok(Url(protocol, host, port, path))
  {
  }

  /** An HTTP announce URL is stored with the scrape path BEP 48 derives
      from it: `/announce` at the head of the last segment becomes
      `/scrape`. */
  lemma ParseAnnounceUrl(host: seq<byte>, port: Option<nat>, dir: seq<byte>, tail: seq<byte>)
    requires PlainHost(host) && NoNul(host) && NoNul(dir) && NoNul(tail)
    requires port.Some? ==> port.value > 0
    requires |dir| == 0 || dir[0] == Slash
    requires forall j | 0 <= j < |tail| :: tail[j] != Slash
    requires |host| + (if port.Some? then 1 + |Digits(port.value)| else 0) + |dir| + |AnnounceWord| + |tail| < UrlField
    ensures ParseUrl(UrlText(Http, host, port, dir + AnnounceWord + tail))
         == Ok(Url(Http, host, PortOf(port), dir + ScrapeWord + tail))
  {
    var path := dir + AnnounceWord + tail;
    AnnounceBecomesScrape(dir, tail);
    UrlWordsNoNul();
    assert NoNul(path);
    assert |path| > 0 && path[0] == Slash;
    ParseUrlText(Http, host, port, path);
  }

  /** The announce-to-scrape rewrite of BEP 48: `/announce` in the last
      segment becomes `/scrape`, whatever precedes it and whatever follows it
      in that segment. */
  lemma AnnounceBecomesScrape(dir: seq<byte>, tail: seq<byte>)
    requires forall j | 0 <= j < |tail| :: tail[j] != Slash
    ensures ScrapePath(dir + AnnounceWord + tail) == Ok(dir + ScrapeWord + tail)
  {
    var path := dir + AnnounceWord + tail;
    var p := |dir|;
    assert forall j | p < j < |path| :: path[j] != Slash;
    LastIndexOfAt(path, Slash, p);
    MatchesSlice(path, p, ScrapeWord);
    MatchesSlice(path, p, AnnounceWord);
    assert path[p..p + |ScrapeWord|] != ScrapeWord by {
      assert path[p + 1] == AnnounceWord[1] != ScrapeWord[1];
    }
    assert path[p..p + |AnnounceWord|] == AnnounceWord;
    assert path[..p] == dir && path[p + |AnnounceWord|..] == tail;
  }

  /** The rewrite is idempotent: a path it produced is kept as it is. */
  lemma ScrapePathIdempotent(path: seq<byte>)
    requires ScrapePath(path).Ok?
    ensures ScrapePath(ScrapePath(path).value) == ScrapePath(path)
  {
  }

  // ---------------------------------------------------------------------
  // HTTP scrape (scrapec_http, parse_http_response)
  // ---------------------------------------------------------------------

  /** `%XX` for every byte, with upper-case hexadecimal digits, as the GET
      query writes the info hash (section 2.1 of RFC 3986). */
  function PercentEncode(h: seq<byte>): (r: seq<byte>)
    ensures |r| == 3 * |h|
  {
    if |h| == 0 then [] else PercentTriple(h[0]) + PercentEncode(h[1..])
  }

  /** The three bytes `%%%02X` writes for one byte. */
  function PercentTriple(b: byte): (r: seq<byte>)
    ensures |r| == 3 && r[0] == Percent && IsHex(r[1]) && IsHex(r[2]) && HexPair(r[1], r[2]) == b
    ensures !(97 <= r[1] <= 102) && !(97 <= r[2] <= 102)
  {
    [Percent, HexUpper(b / 16), HexUpper(b % 16)]
  }

  /** Byte `i` of the hash is spelled at `3 * i`, in upper case. */
  lemma {:induction false} PercentEncodeAt(h: seq<byte>, i: nat)
    requires i < |h|
    ensures PercentEncode(h)[3 * i..3 * i + 3] == PercentTriple(h[i])
  {
    if i > 0 {
      PercentEncodeAt(h[1..], i - 1);
      var t := PercentEncode(h[1..]);
      assert PercentEncode(h)[3..] == t;
      assert PercentEncode(h)[3 * i..3 * i + 3] == t[3 * (i - 1)..3 * (i - 1) + 3];
    }
  }

  /** The fixed header lines after the query. */
  const RequestHeaders: seq<byte> :=
    Of(" HTTP/1.0") + CrLf + Of("Accept: */*") + CrLf + Of("Connection: close") + CrLf
    + Of("User-Agent: dumptorrent-scrape") + CrLf

  /** The last header line, `Host: <host>:<port>`, and the blank line. */
  function HostHeader(u: Url): seq<byte> {
    Of("Host: ") + u.host + [Colon] + Signed(u.port) + CrLf2
  }

  /** The request line up to the escaped hash. */
  function QueryStart(u: Url): seq<byte> {
    Of("GET ") + u.path + QueryKey
  }

  const CrLf: seq<byte> := Of("\r\n")

  const QueryKey: seq<byte> := Of("?info_hash=")
  const CrLf2: seq<byte> := Of("\r\n\r\n")
  const Lf2: seq<byte> := Of("\n\n")

  /** The GET request `scrapec_http` sends for a 20-byte info hash. */
  function HttpRequest(u: Url, hash: seq<byte>): (r: seq<byte>)
    requires |hash| == 20
    ensures Matches(r, 0, QueryStart(u))
    ensures |r| == |QueryStart(u)| + 3 * |hash| + |RequestHeaders| + |HostHeader(u)|
    ensures r[|QueryStart(u)|..|QueryStart(u)| + 3 * |hash|] == PercentEncode(hash)
    ensures r[|QueryStart(u)| + 3 * |hash|..] == RequestHeaders + HostHeader(u)
  {
    var q := QueryStart(u);
    var r := q + PercentEncode(hash) + (RequestHeaders + HostHeader(u));
    MatchesSlice(r, 0, q);
    assert r[0..|q|] == q;
    assert r[|q|..|q| + 3 * |hash|] == PercentEncode(hash);
    r
  }

  /** The request buffer of `scrapec_http`. */
  const RequestBuffer: nat := 4096

  /** The request always fits the buffer, so `snprintf` never cuts it: host
      and path are shorter than 64 bytes and the port is a C `int`. */
  lemma HttpRequestFits(u: Url, hash: seq<byte>)
    requires |hash| == 20 && |u.host| < UrlField && |u.path| < UrlField
    requires 0 < u.port < TwoTo31
    ensures |HttpRequest(u, hash)| < RequestBuffer
  {
    DigitsShort(u.port, 10);
  }

  /** A number below `10^k` has at most `k` digits. */
  lemma {:induction false} DigitsShort(n: nat, k: nat)
    requires k >= 1 && n < Pow10(k)
    ensures |Digits(n)| <= k
  {
    if n >= 10 {
      assert Pow10(1) == 10;
      assert Pow10(k) == 10 * Pow10(k - 1);
      assert n / 10 < Pow10(k - 1);
      DigitsShort(n / 10, k - 1);
      assert |Digits(n)| == |Digits(n / 10)| + 1;
    }
  }

  /** `[complete, downloaded, incomplete]`, as `result[0..2]`. */
  datatype Counts = Counts(seeders: int, completed: int, leechers: int)

  /** The reasons a scrape fails, as the messages in `errbuf` tell them. */
  datatype ScrapeError =
    | InvalidUrl(reason: UrlError)  // parse_url refused the URL
    | ResponseTooLarge              // 4096 bytes or more received
    | BadResponse                   // short, not `200`, or no blank line
    | BadBody(cause: ParseError)    // the body is not bencoded
    | BadScrapeData                 // fields missing from the body
    | ConnectReplyTooShort          // UDP connect reply under 16 bytes
    | BadConnectReply               // wrong action or transaction id
    | ScrapeReplyTooShort           // UDP scrape reply under 20 bytes
    | BadScrapeReply                // wrong action or transaction id

  /** The shortest response `parse_http_response` looks at. */
  const MinResponse: nat := 90

  const Status10: seq<byte> := Of("HTTP/1.0 200")
  const Status11: seq<byte> := Of("HTTP/1.1 200")

  /** Where the body starts: after the first `\r\n\r\n`, or else two bytes
      after the first `\n\n`, searched in the response as a C string. */
  function BodyStart(buf: seq<byte>): (r: Option<nat>)
    ensures r.Some? ==> r.value <= |buf|
    ensures r.None? <==> Find(CStr(buf), CrLf2).None? && Find(CStr(buf), Lf2).None?
  {
    var c := CStr(buf);
    match Find(c, CrLf2)
    case Some(k) => Some(k + |CrLf2|)
    case None =>
      match Find(c, Lf2)
      case Some(k) => Some(k + |Lf2|)
      case None => None
  }

  const Files: seq<byte> := Of("files")
  const Complete: seq<byte> := Of("complete")
  const Downloaded: seq<byte> := Of("downloaded")
  const Incomplete: seq<byte> := Of("incomplete")

  /** The three counts of a decoded scrape body: the value of the first
      entry of the `files` dictionary must hold integer `complete`,
      `downloaded` and `incomplete`; each is cut to a C `int`. */
  function ScrapeCounts(root: Value): (r: Result<Counts, ScrapeError>)
    ensures r.Ok? ==>
      Lookup(root, Files).Some? && Lookup(root, Files).value.Dict? && |Lookup(root, Files).value.entries| > 0
    ensures r.Ok? ==>
      var stats := Lookup(root, Files).value.entries[0].value;
      Lookup(stats, Complete).Some? && Lookup(stats, Complete).value.Int?
      && r.value.seeders == Int32(Lookup(stats, Complete).value.n)
      && Lookup(stats, Downloaded).Some? && Lookup(stats, Downloaded).value.Int?
      && r.value.completed == Int32(Lookup(stats, Downloaded).value.n)
      && Lookup(stats, Incomplete).Some? && Lookup(stats, Incomplete).value.Int?
      && r.value.leechers == Int32(Lookup(stats, Incomplete).value.n)
    ensures r.Err? ==> r.error == BadScrapeData
  {
    match Lookup(root, Files)
    case None => Err(BadScrapeData)
    case Some(files) =>
      if !files.Dict? || |files.entries| == 0 then Err(BadScrapeData)
      else
        var stats := files.entries[0].value;
        match (Lookup(stats, Complete), Lookup(stats, Downloaded), Lookup(stats, Incomplete))
        case (Some(Int(c)), Some(Int(d)), Some(Int(l))) => Ok(Counts(Int32(c), Int32(d), Int32(l)))
        case _ => Err(BadScrapeData)
  }

  /** `parse_http_response` on the bytes received. The body is decoded with
      the sign applied: the corrected `parse_lldecimal`. */
  function ParseHttpResponse(buf: seq<byte>): (r: Result<Counts, ScrapeError>)
    ensures |buf| < MinResponse ==> r == Err(BadResponse)
    ensures !Matches(buf, 0, Status10) && !Matches(buf, 0, Status11) ==> r == Err(BadResponse)
    ensures BodyStart(buf).None? ==> r == Err(BadResponse)
    ensures r.Ok? ==> Parse(buf, BodyStart(buf).value, ApplySign).Ok?
    ensures r.Ok? ==> r == ScrapeCounts(Parse(buf, BodyStart(buf).value, ApplySign).value.value)
    ensures |buf| >= MinResponse && (Matches(buf, 0, Status10) || Matches(buf, 0, Status11)) && BodyStart(buf).Some?
      ==> (Parse(buf, BodyStart(buf).value, ApplySign).Err? ==>
           r == Err(BadBody(Parse(buf, BodyStart(buf).value, ApplySign).error)))
  {
    if |buf| < MinResponse then Err(BadResponse)
    else if !Matches(buf, 0, Status10) && !Matches(buf, 0, Status11) then Err(BadResponse)
    else match BodyStart(buf)
      case None => Err(BadResponse)
      case Some(b) =>
        match Parse(buf, b, ApplySign)
        case Err(e) => Err(BadBody(e))
        case Ok(p) => ScrapeCounts(p.value)
  }

  /** `scrapec_http` once the URL is known: the tracker answers the request;
      4096 bytes or more overflow the receive buffer. */
  function HttpScrape(u: Url, hash: seq<byte>, tracker: seq<byte> -> seq<byte>): (r: Result<Counts, ScrapeError>)
    requires |hash| == 20
    ensures |tracker(HttpRequest(u, hash))| >= RequestBuffer ==> r == Err(ResponseTooLarge)
    ensures r.Ok? ==> |tracker(HttpRequest(u, hash))| >= MinResponse
    ensures |tracker(HttpRequest(u, hash))| < RequestBuffer ==> r == ParseHttpResponse(tracker(HttpRequest(u, hash)))
  {
    var response := tracker(HttpRequest(u, hash));
    if |response| >= RequestBuffer then Err(ResponseTooLarge)
    else ParseHttpResponse(response)
  }

  /** The body a tracker sends back: `files` maps the info hash to the
      three counts (BEP 48). */
  function ScrapeBody(key: seq<byte>, complete: int, downloaded: int, incomplete: int): Value {
    Dict([Entry(Str(Files), Dict([Entry(Str(key), Dict([
      Entry(Str(Complete), Int(complete)),
      Entry(Str(Downloaded), Int(downloaded)),
      Entry(Str(Incomplete), Int(incomplete))]))]))])
  }

  /** The counts of a scrape body are read back, whatever its info hash. */
  lemma ScrapeBodyCounts(key: seq<byte>, complete: int, downloaded: int, incomplete: int)
    ensures ScrapeCounts(ScrapeBody(key, complete, downloaded, incomplete))
         == Ok(Counts(Int32(complete), Int32(downloaded), Int32(incomplete)))
  {
    var stats := Dict([Entry(Str(Complete), Int(complete)), Entry(Str(Downloaded), Int(downloaded)),
      Entry(Str(Incomplete), Int(incomplete))]);
    StatsLookups(complete, downloaded, incomplete);
    hide Lookup;
    var files := Entry(Str(key), stats);
    LookupCons(Entry(Str(Files), Dict([files])), [], Files);
    assert [Entry(Str(Files), Dict([files]))] + [] == [Entry(Str(Files), Dict([files]))];
  }

  /** Each count of the inner dictionary of a scrape body is found under its
      own key. */
  lemma StatsLookups(complete: int, downloaded: int, incomplete: int)
    ensures var stats := Dict([Entry(Str(Complete), Int(complete)), Entry(Str(Downloaded), Int(downloaded)),
      Entry(Str(Incomplete), Int(incomplete))]);
      Lookup(stats, Complete) == Some(Int(complete))
      && Lookup(stats, Downloaded) == Some(Int(downloaded))
      && Lookup(stats, Incomplete) == Some(Int(incomplete))
  {
    var c, d, l := Entry(Str(Complete), Int(complete)), Entry(Str(Downloaded), Int(downloaded)),
      Entry(Str(Incomplete), Int(incomplete));
    hide Lookup;
    assert Complete != Downloaded && Complete != Incomplete;
    assert Downloaded[0] != Incomplete[0];
    LookupCons(c, [d, l], Complete);
    LookupCons(c, [d, l], Downloaded);
    LookupCons(d, [l], Downloaded);
    LookupCons(c, [d, l], Incomplete);
    LookupCons(d, [l], Incomplete);
    LookupCons(l, [], Incomplete);
    assert [c] + [d, l] == [c, d, l] && [d] + [l] == [d, l] && [l] + [] == [l];
  }

  /** Lookup tries the first entry, then the others. */
  lemma LookupCons(e: Entry, rest: seq<Entry>, key: seq<byte>)
    ensures Lookup(Dict([e] + rest), key) == if e.key == Str(key) then Some(e.value) else Lookup(Dict(rest), key)
  {
    assert ([e] + rest)[1..] == rest;
  }

  /** A `200` response whose headers end in a blank line and whose body is
      a scrape body gives back that body's counts. */
  lemma {:induction false} HttpResponseCounts(status: seq<byte>, headers: seq<byte>, key: seq<byte>,
                                            complete: int, downloaded: int, incomplete: int)
    requires status == Status10 || status == Status11
    requires NoNul(headers)
    requires Find(status + headers + CrLf2, CrLf2) == Some(|status + headers|)
    requires |status + headers| + 4 + |Encode(ScrapeBody(key, complete, downloaded, incomplete))| >= MinResponse
    ensures ParseHttpResponse(status + headers + CrLf2 + Encode(ScrapeBody(key, complete, downloaded, incomplete)))
         == Ok(Counts(Int32(complete), Int32(downloaded), Int32(incomplete)))
  {
    hide Parse, ParseItems, ParseEntries, ParseValueThenEntries, Encode, EncodeItems, EncodeEntries,
      Matches, CStr, Find, BodyStart, ScrapeCounts, ScrapeBody, ParseHttpResponse, Int32, NoNul;
    var v := ScrapeBody(key, complete, downloaded, incomplete);
    var head := status + headers + CrLf2;
    var body := Encode(v);
    Framing(status, headers, body);
    BencodeLemmas.RoundTrip(v, head + body, |head|, ApplySign);
    ScrapeBodyCounts(key, complete, downloaded, incomplete);
    ResponseOfBody(head + body, |head|, Parsed(v, |body|));
  }

  /** The status line, the blank line and the body sit where the response
      checks look for them. */
  lemma Framing(status: seq<byte>, headers: seq<byte>, body: seq<byte>)
    requires status == Status10 || status == Status11
    requires NoNul(headers)
    requires Find(status + headers + CrLf2, CrLf2) == Some(|status + headers|)
    ensures Matches(status + headers + CrLf2 + body, 0, Status10) || Matches(status + headers + CrLf2 + body, 0, Status11)
    ensures BodyStart(status + headers + CrLf2 + body) == Some(|status + headers + CrLf2|)
    ensures Matches(status + headers + CrLf2 + body, |status + headers + CrLf2|, body)
  {
    hide CStr, Find, BodyStart, Matches;
    var head := status + headers + CrLf2;
    var buf := head + body;
    BodyAfterBlankLine(status + headers, body);
    assert buf[0..|status|] == status;
    MatchesSlice(buf, 0, status);
    assert buf[|head|..|head| + |body|] == body;
    MatchesSlice(buf, |head|, body);
  }

  /** A response that passes the status and blank-line checks gives what
      the scrape fields of its decoded body give. */
  lemma ResponseOfBody(buf: seq<byte>, b: nat, p: Parsed)
    requires |buf| >= MinResponse && (Matches(buf, 0, Status10) || Matches(buf, 0, Status11))
    requires BodyStart(buf) == Some(b) && Parse(buf, b, ApplySign) == Ok(p)
    ensures ParseHttpResponse(buf) == ScrapeCounts(p.value)
  {
    hide Matches, BodyStart, Parse, ScrapeCounts;
  }

  /** After a header block that ends in its first blank line, the body
      starts right after that line, whatever bytes it holds. */
  lemma BodyAfterBlankLine(headers: seq<byte>, body: seq<byte>)
    requires NoNul(headers)
    requires Find(headers + CrLf2, CrLf2) == Some(|headers|)
    ensures BodyStart(headers + CrLf2 + body) == Some(|headers| + |CrLf2|)
  {
    var head := headers + CrLf2;
    assert NoNul(head);
    CStrAppend(head, body);
    FindExtend(head, CStr(body), CrLf2);
  }

  // ---------------------------------------------------------------------
  // UDP scrape (scrapec_udp, BEP 15)
  // ---------------------------------------------------------------------

  /** `htonl`: a 32-bit number as four bytes, most significant first. */
  function BE32(n: nat): (r: seq<byte>)
    requires n < TwoTo32
    ensures |r| == 4
  {
    [n / 256 / 256 / 256, n / 256 / 256 % 256, n / 256 % 256, n % 256]
  }

  /** `ntohl` of four received bytes. */
  function FromBE32(b: seq<byte>): (r: nat)
    requires |b| == 4
    ensures r < TwoTo32
  {
    var b0, b1, b2, b3: int := b[0], b[1], b[2], b[3];
    ((b0 * 256 + b1) * 256 + b2) * 256 + b3
  }

  /** One byte shifted in below a number, and taken off again. */
  lemma ShiftByte(x: nat, d: byte)
    ensures (x * 256 + d) / 256 == x && (x * 256 + d) % 256 == d
  {
  }

  /** Reading back a written number gives the number. */
  lemma BE32RoundTrip(n: nat)
    requires n < TwoTo32
    ensures FromBE32(BE32(n)) == n
  {
    var x2 := n / 256;
    var x1 := x2 / 256;
    assert n == x2 * 256 + n % 256;
    assert x2 == x1 * 256 + x2 % 256;
    assert x1 == x1 / 256 * 256 + x1 % 256;
  }

  /** Writing back four read bytes gives the bytes. */
  lemma BE32Bytes(b: seq<byte>)
    requires |b| == 4
    ensures BE32(FromBE32(b)) == b
  {
    var b0: nat, b1, b2, b3 := b[0], b[1], b[2], b[3];
    var x1: nat := b0 * 256 + b1;
    var x2: nat := x1 * 256 + b2;
    ShiftByte(x2, b3);
    ShiftByte(x1, b2);
    ShiftByte(b0, b1);
    assert b0 / 256 == 0 && b0 % 256 == b0;
  }

  /** The connection id every connect request carries (BEP 15). */
  const ProtocolMagic: seq<byte> := [0x00, 0x00, 0x04, 0x17, 0x27, 0x10, 0x19, 0x80]

  const ActionConnect: nat := 0
  const ActionScrape: nat := 2

  /** `buffer.ci`: the magic, action 0, and the transaction id as it sits in
      memory (four bytes, compared but never converted). */
  function ConnectRequest(tid: seq<byte>): (r: seq<byte>)
    requires |tid| == 4
    ensures |r| == 16
    ensures r[..8] == ProtocolMagic && FromBE32(r[8..12]) == ActionConnect && r[12..] == tid
  {
    BE32RoundTrip(ActionConnect);
    ProtocolMagic + BE32(ActionConnect) + tid
  }

  /** The check on the connect reply: at least 16 bytes, the transaction id
      echoed, action 0; gives the connection id. */
  function CheckConnectReply(reply: seq<byte>, tid: seq<byte>): (r: Result<seq<byte>, ScrapeError>)
    requires |tid| == 4
    ensures |reply| < 16 ==> r == Err(ConnectReplyTooShort)
    ensures r.Ok? <==> |reply| >= 16 && reply[4..8] == tid && FromBE32(reply[..4]) == ActionConnect
    ensures r.Ok? ==> r.value == reply[8..16]
    ensures r.Err? ==> r.error == ConnectReplyTooShort || r.error == BadConnectReply
  {
    if |reply| < 16 then Err(ConnectReplyTooShort)
    else if reply[4..8] != tid || reply[..4] != BE32(ActionConnect) then
      BE32Bytes(reply[..4]);
      Err(BadConnectReply)
    else
      BE32RoundTrip(ActionConnect);
      Ok(reply[8..16])
  }

  /** `buffer.si`: connection id, action 2, transaction id, info hash. */
  function ScrapeRequest(cid: seq<byte>, tid: seq<byte>, hash: seq<byte>): (r: seq<byte>)
    requires |cid| == 8 && |tid| == 4 && |hash| == 20
    ensures |r| == 36
    ensures r[..8] == cid && FromBE32(r[8..12]) == ActionScrape && r[12..16] == tid && r[16..] == hash
  {
    BE32RoundTrip(ActionScrape);
    cid + BE32(ActionScrape) + tid + hash
  }

  /** The check on the scrape reply: at least 20 bytes, the transaction id
      echoed, action 2; the counts are read big-endian and cut to a C
      `int`. */
  function CheckScrapeReply(reply: seq<byte>, tid: seq<byte>): (r: Result<Counts, ScrapeError>)
    requires |tid| == 4
    ensures |reply| < 20 ==> r == Err(ScrapeReplyTooShort)
    ensures r.Ok? <==> |reply| >= 20 && reply[4..8] == tid && FromBE32(reply[..4]) == ActionScrape
    ensures r.Ok? ==> r.value == Counts(Int32(FromBE32(reply[8..12])), Int32(FromBE32(reply[12..16])),
                                        Int32(FromBE32(reply[16..20])))
    ensures r.Err? ==> r.error == ScrapeReplyTooShort || r.error == BadScrapeReply
  {
    if |reply| < 20 then Err(ScrapeReplyTooShort)
    else if reply[4..8] != tid || reply[..4] != BE32(ActionScrape) then
      BE32Bytes(reply[..4]);
      Err(BadScrapeReply)
    else
      BE32RoundTrip(ActionScrape);
      Ok(Counts(Int32(FromBE32(reply[8..12])), Int32(FromBE32(reply[12..16])), Int32(FromBE32(reply[16..20]))))
  }

  /** The two exchanges of `scrapec_udp`. `tid1` and `tid2` are the two
      transaction ids drawn from `rand()`; `tracker` answers each datagram. */
  function UdpScrape(hash: seq<byte>, tid1: seq<byte>, tid2: seq<byte>, tracker: seq<byte> -> seq<byte>)
    : (r: Result<Counts, ScrapeError>)
    requires |hash| == 20 && |tid1| == 4 && |tid2| == 4
    ensures r.Ok? ==> CheckConnectReply(tracker(ConnectRequest(tid1)), tid1).Ok?
    ensures r.Ok? ==> |tracker(ConnectRequest(tid1))| >= 16
    ensures var connect := CheckConnectReply(tracker(ConnectRequest(tid1)), tid1);
      && (connect.Err? ==> r == Err(connect.error))
      && (connect.Ok? ==> r == CheckScrapeReply(tracker(ScrapeRequest(connect.value, tid2, hash)), tid2))
  {
    match CheckConnectReply(tracker(ConnectRequest(tid1)), tid1)
    case Err(e) => Err(e)
    case Ok(cid) => CheckScrapeReply(tracker(ScrapeRequest(cid, tid2, hash)), tid2)
  }

  /** What a tracker that follows BEP 15 sends back: for a 16-byte connect
      request, action 0, the echoed id and its connection id; for a scrape
      request, action 2, the echoed id and the three counts. */
  function Bep15Reply(cid: seq<byte>, seeders: nat, completed: nat, leechers: nat, request: seq<byte>): seq<byte>
    requires |cid| == 8 && seeders < TwoTo32 && completed < TwoTo32 && leechers < TwoTo32
  {
    if |request| < 16 then []
    else if |request| == 16 then BE32(ActionConnect) + request[12..16] + cid
    else BE32(ActionScrape) + request[12..16] + BE32(seeders) + BE32(completed) + BE32(leechers)
  }

  /** Against such a tracker the exchange gives its counts. */
  lemma UdpScrapeCounts(hash: seq<byte>, tid1: seq<byte>, tid2: seq<byte>, cid: seq<byte>,
                        seeders: nat, completed: nat, leechers: nat)
    requires |hash| == 20 && |tid1| == 4 && |tid2| == 4 && |cid| == 8
    requires seeders < TwoTo32 && completed < TwoTo32 && leechers < TwoTo32
    ensures UdpScrape(hash, tid1, tid2, req => Bep15Reply(cid, seeders, completed, leechers, req))
         == Ok(Counts(Int32(seeders), Int32(completed), Int32(leechers)))
  {
    var tracker := req => Bep15Reply(cid, seeders, completed, leechers, req);
    var c := ConnectRequest(tid1);
    var cr := tracker(c);
    assert cr == BE32(ActionConnect) + tid1 + cid;
    assert cr[..4] == BE32(ActionConnect) && cr[4..8] == tid1 && cr[8..16] == cid;
    BE32RoundTrip(ActionConnect);
    var s := ScrapeRequest(cid, tid2, hash);
    var sr := tracker(s);
    assert sr == BE32(ActionScrape) + tid2 + BE32(seeders) + BE32(completed) + BE32(leechers);
    assert sr[..4] == BE32(ActionScrape) && sr[4..8] == tid2;
    assert sr[8..12] == BE32(seeders) && sr[12..16] == BE32(completed) && sr[16..20] == BE32(leechers);
    BE32RoundTrip(ActionScrape);
    BE32RoundTrip(seeders);
    BE32RoundTrip(completed);
    BE32RoundTrip(leechers);
  }

  /** A scrape reply that echoes another transaction id is refused, however
      well formed it is otherwise. */
  lemma StaleReplyRefused(reply: seq<byte>, tid: seq<byte>)
    requires |tid| == 4 && |reply| >= 20 && reply[4..8] != tid
    ensures CheckScrapeReply(reply, tid) == Err(BadScrapeReply)
  {
  }

  // ---------------------------------------------------------------------
  // scrapec
  // ---------------------------------------------------------------------

  /** `scrapec`: split the URL, then scrape over HTTP or UDP. */
  function Scrapec(url: seq<byte>, hash: seq<byte>, tid1: seq<byte>, tid2: seq<byte>,
                   tracker: seq<byte> -> seq<byte>): (r: Result<Counts, ScrapeError>)
    requires NoNul(url) && |hash| == 20 && |tid1| == 4 && |tid2| == 4
    ensures ParseUrl(url).Err? ==> r == Err(InvalidUrl(ParseUrl(url).error))
    ensures r.Ok? && ParseUrl(url).value.protocol == Udp ==> |tracker(ConnectRequest(tid1))| >= 16
    ensures r.Ok? && ParseUrl(url).value.protocol == Http ==>
      |tracker(HttpRequest(ParseUrl(url).value, hash))| >= MinResponse
    ensures ParseUrl(url).Ok? && ParseUrl(url).value.protocol == Http ==> r == HttpScrape(ParseUrl(url).value, hash, tracker)
    ensures ParseUrl(url).Ok? && ParseUrl(url).value.protocol == Udp ==> r == UdpScrape(hash, tid1, tid2, tracker)
  {
    match ParseUrl(url)
    case Err(e) => Err(InvalidUrl(e))
    case Ok(u) =>
      if u.protocol == Http then HttpScrape(u, hash, tracker)
      else UdpScrape(hash, tid1, tid2, tracker)
  }

  // ---------------------------------------------------------------------
  // The info hash argument (parse_info_hash)
  // ---------------------------------------------------------------------

  predicate AllHex(s: seq<byte>) {
    forall i | 0 <= i < |s| :: IsHex(s[i])
  }

  /** One hexadecimal digit as `parse_info_hash` reads it: its value, or
      nothing for any other byte. */
  function Nibble(b: byte): (r: Option<nat>)
    ensures r.Some? <==> IsHex(b)
    ensures r.Some? ==> r.value == HexValue(b)
  {
    if 48 <= b <= 57 then Some(b - 48)
    else if 97 <= b <= 102 then Some(b - 97 + 10)
    else if 65 <= b <= 70 then Some(b - 65 + 10)
    else None
  }

  /** The length of an info hash, and of its hexadecimal spelling. */
  const HashLength: nat := 20

  /** `parse_info_hash`: exactly 40 hexadecimal digits of either case, read
      in pairs, high digit first. */
  method ParseInfoHash(s: seq<byte>) returns (r: Option<seq<byte>>)
    ensures r.Some? <==> |s| == 2 * HashLength && AllHex(s)
    ensures r.Some? ==> |r.value| == HashLength
    ensures r.Some? ==> forall i | 0 <= i < HashLength :: r.value[i] == HexPair(s[2 * i], s[2 * i + 1])
  {
    if |s| != 2 * HashLength {
      return None;
    }
    var out: seq<byte> := [];
    var i := 0;
    while i < HashLength
      invariant 0 <= i <= HashLength && |out| == i
      invariant forall k | 0 <= k < 2 * i :: IsHex(s[k])
      invariant forall k | 0 <= k < i :: out[k] == HexPair(s[2 * k], s[2 * k + 1])
    {
      var high := Nibble(s[2 * i]);
      if high.None? {
        return None;
      }
      var low := Nibble(s[2 * i + 1]);
      if low.None? {
        return None;
      }
      // `(high << 4) | low` with `low < 16` is `16 * high + low`.
      out := out + [16 * high.value + low.value];
      i := i + 1;
    }
    return Some(out);
  }

  /** `%02x` of every byte: the spelling the tool prints an info hash in. */
  function HexSpelling(h: seq<byte>): (r: seq<byte>)
    ensures |r| == 2 * |h|
  {
    if |h| == 0 then [] else [HexLower(h[0] / 16), HexLower(h[0] % 16)] + HexSpelling(h[1..])
  }

  /** Every printed info hash is accepted by `parse_info_hash` and read back
      to the same bytes. */
  lemma {:induction false} HexSpellingReads(h: seq<byte>)
    ensures AllHex(HexSpelling(h))
    ensures forall i | 0 <= i < |h| :: HexPair(HexSpelling(h)[2 * i], HexSpelling(h)[2 * i + 1]) == h[i]
  {
    if |h| > 0 {
      HexSpellingReads(h[1..]);
      var r := HexSpelling(h);
      var t := HexSpelling(h[1..]);
      assert forall k | 2 <= k < |r| :: r[k] == t[k - 2];
      assert forall i | 1 <= i < |h| :: r[2 * i] == t[2 * (i - 1)] && r[2 * i + 1] == t[2 * (i - 1) + 1];
    }
  }

  /** A hash read from the command line and printed again is unchanged. */
  method ParseInfoHashOfSpelling(h: seq<byte>) returns (r: Option<seq<byte>>)
    requires |h| == HashLength
    ensures r == Some(h)
  {
    HexSpellingReads(h);
    r := ParseInfoHash(HexSpelling(h));
    assert forall i | 0 <= i < HashLength :: r.value[i] == h[i];
    assert r.value == h;
  }
}

=== FILE: wrappers.dfy ===
/** Failure-carrying result types shared by every component of the model. */
module Wrappers {

  /** A value that may be absent; the C code returns NULL for `None`. */
  datatype Option<+T> = None | Some(value: T)

  /** A value or the reason it could not be produced; the C code returns
      NULL or a non-zero status and writes a message for `Err`. */
  datatype Result<+T, +E> = Ok(value: T) | Err(error: E)
}
